=== FILE: README.md ===
# e-capsule front end, modelled in Dafny

e-capsule is a React front end for a "time capsule" service. A user writes
a capsule, which has a title, a description, images with comments, an
opening time, a vision, a privacy setting, a design and a list of friends to
share it with. The capsule stays sealed until its opening time. Friends can
accept a shared capsule by adding images of their own.

Under the markup sits a layer of sequential logic. This project models that
layer as pure Dafny functions over immutable datatypes and proves what it
promises:

- **Validators:**
  - the wizard's per-step capsule validator and its file check;
  - the older whole-form capsule validator hook;
  - the profile validator;
  - the login field checks.
- **The capsule-creation wizard:** a nine-step sequencer gated by the step validator. Its draft holds an ordered list of (file, comment) pairs. Submission flattens the draft into an index-paired multipart payload.
- **The accept modal:** images are kept in a list and their comments in a separate index-keyed map, which is re-keyed when an image is removed.
- **Listing and arithmetic helpers:**
  - friend search and nine-per-page pagination;
  - the share toggle;
  - the profile's capsule filter and days-left ceiling;
  - the countdown decomposition;
  - the grid's preview truncation and design fallback;
  - route normalisation;
  - the month calendar.
- **Small state machines:**
  - the unlock stages and the slideshow of the capsule viewer;
  - the edit → confirm → back flow of the profile modal;
  - the share accept/decline dispatcher of the notification sidebar.

The model is single-threaded and deterministic. The clock reading ("now", in
milliseconds), the access token's presence and every server reply are
parameters. Requests are returned as data rather than performed.

One module per source file:

| module | file |
|---|---|
| `CapsuleDraft` | the capsule draft record shared by the capsule validators and the wizard |
| `CreationValidation` | `src/components/validations/CapsuleCreationValidation.jsx` |
| `CapsuleValidations` | `react/src/components/validations/CapsuleValidations.js` |
| `ProfileValidation` | `react/src/components/validations/ProfileValidations.js` |
| `CapsuleWizard` | `src/pages/CapsuleCreation.jsx` |
| `AcceptModal` | `src/components/CapsuleAcceptModal.jsx` |
| `FindFriends` | `src/pages/FindFriends.jsx` |
| `CapsuleSharing` | `src/components/capsuleCreationComponents/CapsuleSharing.jsx` |
| `TimerModal` | `src/components/profileComponents/TimerModal.jsx` |
| `Profile` | `src/pages/Profile.jsx` |
| `ProfileCapsuleGrid` | `react/src/components/profileComponents/ProfileCapsuleGrid.jsx` |
| `AnimatedCapsule` | `react/src/components/profileComponents/AnimatedCapsule.jsx` |
| `ProfileModal` | `react/src/components/profileComponents/Modal.jsx` |
| `Login` | `src/pages/Login.jsx` |
| `App` | `src/App.js` |
| `NotificationSidebar` | `react/src/components/NotificationSidebar.jsx` |
| `CustomCalendar` | `react/src/components/capsuleCreationComponents/CustomCalendar.jsx` |
| `DesignSelector` | `src/components/profileComponents/CapsuleDesignSelector.jsx` |

`Js` holds the JavaScript semantics these files share:

- `trim`, which strips the ECMAScript white-space and line-terminator set;
- `toLowerCase`, over ASCII letters only;
- `.length`, counted in UTF-16 code units;
- `includes`, `startsWith` and `slice`, the last with clamped bounds;
- decimal rendering of numbers and `padStart(2, '0')`;
- the `Array.isArray(x) ? x : []` guard.

Where the written description of the application and the code disagree, the
model follows the code:

- the wizard's initial design `"default"` passes the design step;
- the wizard has no guard against a second submission in flight;
- image selection in both the wizard and the validation hook is all-or-nothing, not per file.

## Model

| member | source | states |
|---|---|---|
| Js.Trim | react/src/components/validations/ProfileValidations.js:6 | The result is the input with a blank prefix and a blank suffix cut off, so it is an infix of the input. It is empty exactly when the input is all white space; otherwise it neither starts nor ends with white space. |
| Js.Utf16LengthCounts | src/components/validations/CapsuleCreationValidation.jsx:17 | `.length` counts UTF-16 code units: it equals the number of characters exactly when none lies above U+FFFF, and twice that number exactly when all do. |
| Js.Utf16LengthConcat | src/components/validations/CapsuleCreationValidation.jsx:17 | The code-unit length of a concatenation is the sum of the lengths. |
| Js.UnitPrefix | react/src/components/profileComponents/ProfileCapsuleGrid.jsx:172 | The longest prefix whose code-unit length is at most n: one character more would exceed n. |
| Js.TrimOfTrimmed | react/src/components/validations/ProfileValidations.js:6 | Trim leaves a string that has no white space at either end unchanged. |
| Js.TrimDropsTrailingSpace | react/src/components/validations/ProfileValidations.js:6 | A trailing blank added to a trimmed string is removed again. |
| Js.ToLower | src/pages/FindFriends.jsx:583 | Lowering keeps the length and maps each character through the ASCII lower-case map. |
| Js.ToLowerIdempotent | src/pages/FindFriends.jsx:583-585 | Lowering twice is lowering once. |
| Js.Includes | src/pages/FindFriends.jsx:585 | `includes` holds exactly when the substring occurs at some position. |
| Js.NatToStringRoundTrip | src/components/profileComponents/TimerModal.jsx:65 | The decimal rendering of a number reads back as that number. |
| Js.PadTwo | src/components/profileComponents/TimerModal.jsx:65 | `padStart(2, '0')` is at least two characters long. It is a zero followed by the digit below 10, and the plain rendering from 10 up. |
| Js.Slice | react/src/components/profileComponents/ProfileCapsuleGrid.jsx:172 | `slice(a, b)` is the sub-sequence when the bounds are in range. Otherwise its length is clamped to the sequence. |
| CapsuleDraft.SetField | src/pages/CapsuleCreation.jsx:43-49 | The change handler writes the named text field. Every other field, the images, the time and the share list are unchanged. |
| CapsuleDraft.SetFieldIdempotent | src/pages/CapsuleCreation.jsx:43-49 | Writing the same value twice is writing it once. |
| CapsuleDraft.SetFieldUnchanged | src/pages/CapsuleCreation.jsx:43-49 | Writing a field's own value back leaves the draft unchanged. |
| CreationValidation.TitleErrors | src/components/validations/CapsuleCreationValidation.jsx:15-19 | The title is flagged exactly when it is blank after trimming or its untrimmed length in UTF-16 code units exceeds 255. The message is "required" for blank, otherwise "too long". |
| CreationValidation.WideTitleIsTooLong | src/components/validations/CapsuleCreationValidation.jsx:17 | A title of 128 emoji is too long: each counts as two code units, 256 in all. |
| CreationValidation.RequiredText | src/components/validations/CapsuleCreationValidation.jsx:20-22 | A required text field is flagged, with its own message, exactly when it is blank after trimming. |
| CreationValidation.TimeErrors | src/components/validations/CapsuleCreationValidation.jsx:31-41 | The time is flagged exactly when it is missing or not strictly after now. A missing time gets "required", a past one "must be in the future". |
| CreationValidation.ValidateStep | src/components/validations/CapsuleCreationValidation.jsx:10-66 | Each step emits keys only for its own fields, each flagged exactly on its rule. Step 1 flags an empty image list. Step 5 flags a privacy outside private/friends/public. Step 6 flags only an empty design. |
| CreationValidation.TitleDescriptionErrors | src/components/validations/CapsuleCreationValidation.jsx:14-23 | Step 0 reports the title and the description independently, each by its own rule. |
| CreationValidation.FieldlessStepsPass | src/components/validations/CapsuleCreationValidation.jsx:61-62 | Steps 3, 7, 8 and every other index without fields return no errors for any draft. |
| CreationValidation.StepDependsOnlyOnItsFields | src/components/validations/CapsuleCreationValidation.jsx:10-66 | Two drafts that agree on a step's fields get the same errors at that step. |
| CreationValidation.TimeCheckIsNotCached | src/components/validations/CapsuleCreationValidation.jsx:31-41 | A time that passes step 2 at one instant fails it once the clock has reached that time. |
| CreationValidation.ValidateFile | src/components/validations/CapsuleCreationValidation.jsx:68-76 | A file is accepted exactly when its type is one of the four allowed types and its size is at most 65536 × 1024 bytes. The type is checked before the size. |
| CapsuleValidations.ValidateCapsuleForm | react/src/components/validations/CapsuleValidations.js:12-52 | Each field is flagged exactly on its untrimmed rule: an empty title or description or vision, no images, a time not after now, privacy outside the closed set, an empty design. The title is too long only above 255 UTF-16 code units. |
| CapsuleValidations.StepsImplyWholeForm | react/src/components/validations/CapsuleValidations.js:12-52 | A draft that passes every wizard step passes the whole-form validator. |
| CapsuleValidations.WholeFormPasses | react/src/components/validations/CapsuleValidations.js:12-52 | The whole-form validator reports nothing if and only if every field holds a usable value. |
| CapsuleValidations.BlankTitlePassesWholeFormOnly | react/src/components/validations/CapsuleValidations.js:15-19 | The converse fails: a title of spaces passes here but fails step 0. |
| CapsuleValidations.ValidateFile | react/src/components/validations/CapsuleValidations.js:59-73 | A bad type gives the `type` error, checked first. An oversize file of an allowed type gives the `size` error. A file is accepted exactly when the wizard's file check accepts it. |
| CapsuleValidations.Rejections | react/src/components/validations/CapsuleValidations.js:79-86 | The rejection list is empty exactly when every file passes. Each entry names a selected file and carries that file's own error. Order and multiplicity: CapsuleValidations.RejectionsAppend. |
| CapsuleValidations.RejectionsAppend | react/src/components/validations/CapsuleValidations.js:79-86 | One rejection per failing file, in selection order: appending a file appends its own `(name, errors)` entry when it fails, and nothing when it passes. |
| CapsuleValidations.Entries | react/src/components/validations/CapsuleValidations.js:84 | Every accepted file becomes an entry, in order, with an empty comment. |
| CapsuleValidations.HandleFileSelection | react/src/components/validations/CapsuleValidations.js:75-101 | Selection is all-or-nothing. It returns true exactly when every file passes, and then appends all of them in order with empty comments. Otherwise it stores the rejections under `files` and leaves the images unchanged. |
| CapsuleValidations.HandleInputChange | react/src/components/validations/CapsuleValidations.js:109-124 | Only the named field is written. Only that field's error is dropped, and only when it is truthy. Every other error is kept. |
| CapsuleValidations.ValidateForm | react/src/components/validations/CapsuleValidations.js:103-107 | The stored errors are exactly the whole-form validator's map, each message wrapped as a stored value; nothing of the old errors survives. The result is true exactly when the form is usable: a title of at most 255 code units, a description, an image, a future opening time, a vision, a listed privacy value and a design. |
| ProfileValidation.SafeTrim | react/src/components/validations/ProfileValidations.js:4-7 | A null or undefined value becomes the empty string. Any other value is trimmed. |
| ProfileValidation.DomainPartChars | react/src/components/validations/ProfileValidations.js:30 | The part after the `@` uses only letters, digits, dots and hyphens, and ends with a letter. |
| ProfileValidation.SplitAddress | react/src/components/validations/ProfileValidations.js:30 | An accepted address splits at an `@` after a non-empty local part. Every character before it is a local character, and what follows it is a domain part: domain characters only, ending in a letter. |
| ProfileValidation.DomainAfter | react/src/components/validations/ProfileValidations.js:30 | Every character after the `@` is a domain character, and the address ends with a letter. |
| ProfileValidation.ProfileEmailShape | react/src/components/validations/ProfileValidations.js:30 | An accepted address contains exactly one `@` and no white space, and ends with a letter. |
| ProfileValidation.EmailSamples | react/src/components/validations/ProfileValidations.js:30 | `jo@mail.co` is accepted. `jo@mail.c` is refused, because the top-level part needs two letters. |
| ProfileValidation.SingleLineStrength | react/src/components/validations/ProfileValidations.js:45 | On a single line, the look-ahead test holds exactly when the password has a lower-case letter, an upper-case letter and a digit. |
| ProfileValidation.LineBreakDefeatsStrength | react/src/components/validations/ProfileValidations.js:45 | Because `.` stops at a line break, a password with all three classes can still fail the test. |
| ProfileValidation.NameError | react/src/components/validations/ProfileValidations.js:9-25 | A name is accepted exactly when its length is 2 to 50 UTF-16 code units. The first failing rule decides the message: required, then too short, then too long. |
| ProfileValidation.EmailError | react/src/components/validations/ProfileValidations.js:27-32 | An empty address is "required". A non-empty one outside the pattern is "invalid". Only a matching address passes. |
| ProfileValidation.NewPasswordError | react/src/components/validations/ProfileValidations.js:42-54 | A non-empty new password passes exactly when it has at least 8 code units and passes the strength test; shortness is reported first. With no new password, a confirmation alone gives "enter a new password". |
| ProfileValidation.ConfirmError | react/src/components/validations/ProfileValidations.js:49-51 | The confirmation is flagged exactly when a new password is given and differs from it. |
| ProfileValidation.TrimFields | react/src/components/validations/ProfileValidations.js:9-40 | Every text field is read through the null-safe trim. The image is passed through. |
| ProfileValidation.CheckTrimmed | react/src/components/validations/ProfileValidations.js:1-61 | Every key of the error object is present exactly when its rule fails, with the message the rule order selects. This covers the names, the email, a bio over 500 code units, the two password keys and an image over 2 × 1024 × 1024 bytes. |
| ProfileValidation.ValidateProfileForm | react/src/components/validations/ProfileValidations.js:1-61 | The validator is the trimmed check applied to the trimmed form. The image is flagged exactly when it is over 2 MB. |
| ProfileValidation.OnlyTrimmedTextMatters | react/src/components/validations/ProfileValidations.js:4-40 | Two forms whose fields trim to the same text get the same errors. |
| ProfileValidation.NullIsEmpty | react/src/components/validations/ProfileValidations.js:4-7 | A null field is judged exactly like an empty one. |
| ProfileValidation.PaddingIsIgnored | react/src/components/validations/ProfileValidations.js:9-16 | A trailing space on the first name changes nothing. |
| ProfileValidation.BlankBioIsFine | react/src/components/validations/ProfileValidations.js:34-37 | An absent or blank bio is never an error. |
| ProfileValidation.ConfirmationWithoutPassword | react/src/components/validations/ProfileValidations.js:52-54 | A confirmation without a new password sets only `newPassword`, never the mismatch. |
| ProfileValidation.StrengthAndMatchAreIndependent | react/src/components/validations/ProfileValidations.js:42-51 | A strong but mistyped password reports the mismatch and no strength error. |
| CapsuleWizard.Initial | src/pages/CapsuleCreation.jsx:21-30 | The wizard opens at step 0 with an empty draft. The opening time is the current instant, privacy is `private` and the design is `default`. |
| CapsuleWizard.InitialIsValid | src/pages/CapsuleCreation.jsx:17-33 | The opening state satisfies the wizard invariant. |
| CapsuleWizard.Join | src/pages/CapsuleCreation.jsx:66 | Joining no items gives the empty string, and one item gives that item. |
| CapsuleWizard.JoinAppend | src/pages/CapsuleCreation.jsx:66 | Each further item is joined on with exactly one separator: `[a, …, x].join(sep)` is `[a, …].join(sep) + sep + x`. |
| CapsuleWizard.RejectionLines | src/pages/CapsuleCreation.jsx:56-66 | There is a rejection line exactly when some file fails the file check. Order and multiplicity: CapsuleWizard.RejectionLinesAppend. |
| CapsuleWizard.RejectionLinesAppend | src/pages/CapsuleCreation.jsx:56-66 | One line per failing file, in selection order: appending a failing file appends `name + ": " + message`, and appending a passing file appends nothing. |
| CapsuleWizard.SelectImages | src/pages/CapsuleCreation.jsx:51-75 | If any file is rejected, the draft is untouched and the `images` error is the rejection lines joined with `", "`, which is never empty. Otherwise every file is appended in order with an empty comment and the errors are cleared. |
| CapsuleWizard.RemoveImage | src/pages/CapsuleCreation.jsx:77-80 | Exactly entry i disappears. The entries before it stay in place, those after shift down by one, and nothing else changes. |
| CapsuleWizard.SelectImage | src/pages/CapsuleCreation.jsx:82-85 | The editor opens on image i, preloaded with its comment. |
| CapsuleWizard.SaveImageComment | src/pages/CapsuleCreation.jsx:87-98 | Only the selected entry's comment changes. The editor then closes and its buffer empties. Without a selection nothing happens. |
| CapsuleWizard.NextStep | src/pages/CapsuleCreation.jsx:104-113 | The current step's errors are shown. The step advances by exactly one if and only if there are none, and the draft is unchanged. |
| CapsuleWizard.PrevStep | src/pages/CapsuleCreation.jsx:115-120 | The step goes back by one only above step 0. The draft and the errors are unchanged. |
| CapsuleWizard.SharedPart | src/pages/CapsuleCreation.jsx:130-132 | `shared_with[i]` carries the i-th selected friend id. |
| CapsuleWizard.ImagePart | src/pages/CapsuleCreation.jsx:134-137 | For each image i, `images[i]` carries its file and is followed by `image_comments[i]` with its comment. |
| CapsuleWizard.BuildPayload | src/pages/CapsuleCreation.jsx:129-144 | The payload has one part per shared id, two per image, and the six scalar fields. |
| CapsuleWizard.Lookup | src/pages/CapsuleCreation.jsx:129-144 | Looking a key up in the payload finds nothing exactly when no part has that key. |
| CapsuleWizard.ImageKeyLookup | src/pages/CapsuleCreation.jsx:129-137 | An image or comment key is found in the full payload exactly where it is found among the image parts. The shared ids before them and the scalars after them never shadow it. |
| CapsuleWizard.SharedKeyLookup | src/pages/CapsuleCreation.jsx:130-132 | Looking up `shared_with[i]` gives back the i-th selected friend id, and nothing when i is past the end of the list. |
| CapsuleWizard.ScalarKeyLookup | src/pages/CapsuleCreation.jsx:129-144 | A scalar key is found in the full payload exactly where it is found among the scalar parts. |
| CapsuleWizard.PayloadCarriesImage | src/pages/CapsuleCreation.jsx:134-135 | Looking up `images[i]` gives back image i's file. |
| CapsuleWizard.PayloadHasNoExtraImage | src/pages/CapsuleCreation.jsx:134-137 | There is no image key beyond the last image. |
| CapsuleWizard.PayloadPairsComment | src/pages/CapsuleCreation.jsx:136 | Looking up `image_comments[i]` gives back image i's own comment. |
| CapsuleWizard.PayloadCarriesScalars | src/pages/CapsuleCreation.jsx:139-144 | Each of the six scalar fields is recovered from the payload under its own key. These are the title, the description, the opening time as ISO text, the vision, the privacy and the design. |
| CapsuleWizard.CreateCapsule | src/pages/CapsuleCreation.jsx:122-178 | Nothing is sent exactly when the current step fails, and then its errors are shown. Otherwise the full payload is sent. A failed submission sets only the `submit` error, and the draft is never changed. |
| CapsuleWizard.SubmitCheckIsVacuous | src/pages/CapsuleCreation.jsx:122-127 | At the last step the submission gate always lets the payload through, because step 8 has no rule. |
| CapsuleWizard.Settle | src/pages/CapsuleCreation.jsx:36-41 | Once Next has failed, the step's errors are recomputed exactly when the handler wrote a new draft object or the step or the flag changed. Otherwise the state is left as the handler set it, and nothing but the errors ever changes. |
| CapsuleWizard.ChangedDraftWasWritten | src/pages/CapsuleCreation.jsx:43-101 | An event whose handler does not call `setFormData` never changes the draft's value, so the write flag covers every change of value. |
| CapsuleWizard.WrittenDraftIsRevalidated | src/pages/CapsuleCreation.jsx:36-41 | After a failed Next, any event whose handler writes the draft ends with exactly the current step's errors, even when the new draft equals the old one. |
| CapsuleWizard.EmptySelectionKeepsImageError | src/pages/CapsuleCreation.jsx:36-75 | After a failed Next on the image step with no images, an empty file selection still ends with "At least one image is required": the handler clears the errors, but its new draft re-runs the effect. |
| CapsuleWizard.Step | src/pages/CapsuleCreation.jsx:458-479 | An event keeps the wizard invariant. Next moves on exactly when the step validates, and Previous goes back one. An event the page offers no control for changes nothing. |
| CapsuleWizard.Apply | src/pages/CapsuleCreation.jsx:458-479 | An offered event keeps the wizard invariant. Next advances exactly when the step validates, and Previous goes back one with the draft unchanged. An event with no control on the current page leaves the wizard as it was. |
| CapsuleWizard.RunStaysValid | src/pages/CapsuleCreation.jsx:458-479 | Whatever the user does, the step stays within the nine steps and the draft keeps an opening time. |
| CapsuleWizard.UngatedNextOverruns | src/pages/CapsuleCreation.jsx:466 | Without the button's guard, Next at the last step would leave the step list. |
| CapsuleWizard.DefaultDesignPasses | src/pages/CapsuleCreation.jsx:28 | The initial design `default` passes the design step. |
| AcceptModal.Images | src/components/CapsuleAcceptModal.jsx:21-22 | Only image files are kept, and every image file is kept. Nothing is dropped exactly when all files are images. Order and multiplicity: AcceptModal.ImagesAppend. |
| AcceptModal.ImagesAppend | src/components/CapsuleAcceptModal.jsx:21-22 | The filter keeps selection order and multiplicity: an appended file ends the result exactly when it is an image. |
| AcceptModal.ImagesIdempotent | src/components/CapsuleAcceptModal.jsx:22 | Filtering the kept files again keeps them all. |
| AcceptModal.AddImages | src/components/CapsuleAcceptModal.jsx:20-42 | The images are appended and each gets an empty comment at its new index. Earlier comments are kept. The skipped-files error is set exactly when a file was dropped. |
| AcceptModal.BlankSlots | src/components/CapsuleAcceptModal.jsx:30-33 | The new comment slots are exactly the new indices, each holding `''`. |
| AcceptModal.SetComment | src/components/CapsuleAcceptModal.jsx:44-49 | Only comment key i changes. |
| AcceptModal.Rekey | src/components/CapsuleAcceptModal.jsx:58-69 | Keys below i are kept, key i is dropped, and each key k above i moves to k − 1 with its comment. |
| AcceptModal.RemoveImage | src/components/CapsuleAcceptModal.jsx:51-70 | Image i is spliced out and the comments are re-keyed to match. |
| AcceptModal.ClosedIsKeyed | src/components/CapsuleAcceptModal.jsx:12-18 | In the reset state every image has exactly one comment slot. |
| AcceptModal.AddImagesKeeps | src/components/CapsuleAcceptModal.jsx:20-42 | Adding images keeps every image paired with exactly one comment slot. |
| AcceptModal.SetCommentKeeps | src/components/CapsuleAcceptModal.jsx:44-49 | Editing a comment keeps the pairing. |
| AcceptModal.RemoveImageKeeps | src/components/CapsuleAcceptModal.jsx:51-70 | Removing an image keeps the pairing. |
| AcceptModal.RemoveImageKeepsComments | src/components/CapsuleAcceptModal.jsx:51-70 | After removing image i, every other image keeps its own comment at its new index. |
| AcceptModal.RemovingLastImage | src/components/CapsuleAcceptModal.jsx:51-70 | Removing the only image leaves no images and no comment slots. |
| AcceptModal.UploadBody | src/components/CapsuleAcceptModal.jsx:108-113 | The upload carries the capsule id, then each `images[i]` followed by `image_comments[i]`, with `''` for a missing comment. |
| AcceptModal.Submit | src/components/CapsuleAcceptModal.jsx:72-152 | With no capsule id, or no images, an error is set and nothing is sent. Otherwise the share is marked accepted and then the images are uploaded. Completion happens exactly when both replies succeed. A failure shows its message and puts the share back to pending. The images and comments are never touched. |
| AcceptModal.ButtonAlwaysSends | src/components/CapsuleAcceptModal.jsx:292 | Through the enabled button with a valid capsule, a request is always sent. |
| AcceptModal.Close | src/components/CapsuleAcceptModal.jsx:12-18 | Closing clears images, comments and the error, and the cleared state is consistent. |
| FindFriends.Filter | src/pages/FindFriends.jsx:583-586 | An empty term keeps every user. Otherwise exactly the users whose lowered name contains the lowered term are kept, and no more. Order and multiplicity: FindFriends.FilterAppend. |
| FindFriends.Keep | src/pages/FindFriends.jsx:585 | The kept users are exactly the listed users that match. Order and multiplicity: FindFriends.KeepAppend. |
| FindFriends.KeepAppend | src/pages/FindFriends.jsx:585 | Keeping preserves directory order: an appended user ends the result exactly when it matches. |
| FindFriends.FilterAppend | src/pages/FindFriends.jsx:583-586 | The search result lists each matching user once per occurrence, in directory order, for any term including the empty one. |
| FindFriends.EmptyTermMatchesAll | src/pages/FindFriends.jsx:584-586 | Every name contains the empty term. |
| FindFriends.SearchIgnoresCase | src/pages/FindFriends.jsx:583-585 | A term matches the same names whatever its case. |
| FindFriends.TotalPages | src/pages/FindFriends.jsx:589 | The page count is the ceiling of n / 9: enough pages for every user and no empty last page. |
| FindFriends.Page | src/pages/FindFriends.jsx:591-593 | Page p is exactly the slice [(p−1)·9, p·9) of the filtered list, cut at its end. |
| FindFriends.PagesCoverFilter | src/pages/FindFriends.jsx:589-593 | Every filtered user appears on exactly the page the index arithmetic assigns, and that page exists. |
| FindFriends.Padded | src/pages/FindFriends.jsx:600-606 | The page's users come first, followed by null cells up to nine. |
| FindFriends.Refresh | src/pages/FindFriends.jsx:580-598 | A page beyond the last resets to 1, and the shown users are then exactly that page. |
| FindFriends.GridHasNineCells | src/pages/FindFriends.jsx:600-606 | The rendered grid always has exactly nine cells. |
| FindFriends.Search | src/pages/FindFriends.jsx:608-611 | A new search term always restarts from page 1. |
| FindFriends.ChangePage | src/pages/FindFriends.jsx:473-500 | Next moves forward before the last page and does nothing from the last page on; Previous moves back after the first and does nothing on page 1. Moving back from beyond the last page lands on page 1. After a move the grid shows the page landed on, and the users, term and pending requests are unchanged. |
| FindFriends.NextThenPreviousRestores | src/pages/FindFriends.jsx:476-493 | On a settled page before the last, Next then Previous returns to exactly the same directory. |
| FindFriends.BackFromBeyondLastLandsOnFirst | src/pages/FindFriends.jsx:594-596 | Previous from page 3 of an empty list lands on page 1, because the page reset overrides the step back. |
| FindFriends.ChangePageStaysSettled | src/pages/FindFriends.jsx:587-597 | From a settled directory (page in range, grid showing it) the buttons lead to a settled directory. |
| FindFriends.MarkSent | src/pages/FindFriends.jsx:643-657 | Exactly the users with the target id are marked as requested. |
| FindFriends.SendRequest | src/pages/FindFriends.jsx:617-668 | Without a token the id stays pending and nothing else changes. Otherwise a success marks the target in both lists, a failure changes neither, and the id then leaves the pending set. |
| FindFriends.SendRequestTouchesOnlyTarget | src/pages/FindFriends.jsx:643-649 | Every other user is left exactly as it was. |
| FindFriends.NoSecondRequest | src/pages/FindFriends.jsx:402-407 | After a successful request, the target's card never sends again. |
| FindFriends.ModalDaysLeft | src/pages/FindFriends.jsx:82-87 | Days left is 30 minus the whole days since creation, never below 0. It is 0 exactly when 30 days have passed. |
| FindFriends.IsFriend | src/pages/FindFriends.jsx:101-104 | True exactly when some capsule has privacy `friends`. |
| CapsuleSharing.AcceptedFriends | src/components/capsuleCreationComponents/CapsuleSharing.jsx:21 | Exactly the users flagged as friends are offered. Order and multiplicity: CapsuleSharing.AcceptedFriendsAppend. |
| CapsuleSharing.AcceptedFriendsAppend | src/components/capsuleCreationComponents/CapsuleSharing.jsx:21 | The offered friends keep the server's order: an appended user is offered last exactly when flagged as a friend. |
| CapsuleSharing.Without | src/components/capsuleCreationComponents/CapsuleSharing.jsx:37 | The id is gone and every other id keeps its membership. An absent id changes nothing. |
| CapsuleSharing.Toggle | src/components/capsuleCreationComponents/CapsuleSharing.jsx:34-40 | A selected id is removed and any other id is appended at the end. Afterwards the id is selected exactly when it was not before, and other ids are unaffected. |
| CapsuleSharing.WithoutKeepsNoDuplicates | src/components/capsuleCreationComponents/CapsuleSharing.jsx:37 | Removing an id never creates a repeat. |
| CapsuleSharing.WithoutDeletesItsPosition | src/components/capsuleCreationComponents/CapsuleSharing.jsx:37 | In a list without repeats, removal deletes exactly that id's position and keeps the order of the rest. |
| CapsuleSharing.ToggleKeepsNoDuplicates | src/components/capsuleCreationComponents/CapsuleSharing.jsx:34-40 | The selection never holds an id twice. |
| CapsuleSharing.ToggleTwiceRestores | src/components/capsuleCreationComponents/CapsuleSharing.jsx:34-40 | Toggling an unselected id twice restores the list exactly. |
| CapsuleSharing.WithoutAppended | src/components/capsuleCreationComponents/CapsuleSharing.jsx:37-38 | Removing an id that was just appended restores the list. |
| CapsuleSharing.ToggleTwiceMovesToEnd | src/components/capsuleCreationComponents/CapsuleSharing.jsx:34-40 | Toggling a selected id twice keeps the same ids but moves that one to the end. |
| TimerModal.CalculateTimeLeft | src/components/profileComponents/TimerModal.jsx:14-34 | Once the opening has passed, all four parts are 0. Otherwise hours < 24, minutes < 60, seconds < 60, and the parts account for the remaining time to within one second. |
| TimerModal.Decomposition | src/components/profileComponents/TimerModal.jsx:28-33 | The floor and modulo steps give in-range units whose total is within a second of the remaining milliseconds. |
| TimerModal.StopsWithinLastSecond | src/components/profileComponents/TimerModal.jsx:38-44 | The ticker's stop condition, all parts zero, holds exactly when less than one second remains. |
| TimerModal.StaysStopped | src/components/profileComponents/TimerModal.jsx:38-44 | Once stopped, the countdown stays at zero at every later instant. |
| TimerModal.Display | src/components/profileComponents/TimerModal.jsx:65 | Four boxes of at least two characters each. A seconds value below 10 is zero-padded. |
| TimerModal.SmallUnitsShowTwoDigits | src/components/profileComponents/TimerModal.jsx:65 | The hours, minutes and seconds boxes are exactly two characters. The seconds box reads back as the seconds value. |
| TimerModal.PadTwoWidth | src/components/profileComponents/TimerModal.jsx:65 | Padding a value below 100 gives exactly two characters. |
| TimerModal.PadTwoValue | src/components/profileComponents/TimerModal.jsx:65 | The padded text is all digits and reads back as the value. |
| Profile.FindRelation | src/pages/Profile.jsx:163-165 | Returns the first entry for the user, or none exactly when the user has no entry. |
| Profile.ListedCapsules | src/pages/Profile.jsx:150-172 | Exactly the listed capsules are kept: owned ones, and shared ones whose first entry for the user is accepted. Order and multiplicity: Profile.ListedCapsulesAppend. |
| Profile.ListedCapsulesAppend | src/pages/Profile.jsx:150-172 | The grid keeps the server's order: an appended capsule is listed last exactly when the listing rule admits it. |
| Profile.FirstEntryDecides | src/pages/Profile.jsx:158-171 | A shared capsule is listed exactly when the user's first entry is accepted, whatever later entries say. |
| Profile.StrangersSeeNothing | src/pages/Profile.jsx:163-171 | A capsule the user neither owns nor appears in is never listed. |
| Profile.DaysLeft | src/pages/Profile.jsx:176-186 | Days left is the ceiling of the remaining days, clamped at 0. It is 0 exactly when the opening has come. |
| Profile.WithDaysLeft | src/pages/Profile.jsx:176-186 | Each listed capsule is paired with its own days left, in order. |
| Profile.Click | src/pages/Profile.jsx:248-264 | A capsule with days left opens the countdown. Any other capsule opens the viewer. The other overlay is untouched. |
| Profile.ClickOpensOne | src/pages/Profile.jsx:248-273 | From the page, a click opens exactly one overlay, and closing gives the page back. |
| Profile.LastSecondOpensStoppedTimer | src/pages/Profile.jsx:176-186 | In the last second before opening, the page still counts one day left and opens a countdown that already shows zeros. |
| Profile.ReplaceFirst | src/pages/Profile.jsx:225 | A string-pattern `replace` keeps the length and changes nothing when the character is absent. |
| Profile.ReplaceFirstAt | src/pages/Profile.jsx:225 | Only the first occurrence is replaced. |
| Profile.ReplaceFirstUndone | src/pages/Profile.jsx:349 | Replacing back undoes the replacement when the new character was absent before. |
| Profile.PrivacyLabel | src/pages/Profile.jsx:349 | An unset privacy shows "Public". Otherwise the label has the value's length. |
| Profile.PrivateSlug | src/pages/Profile.jsx:371 | The "Private" option sends `private`. |
| Profile.PublicSlug | src/pages/Profile.jsx:371 | The "Public" option sends `public`. |
| Profile.FriendsOnlySlug | src/pages/Profile.jsx:225 | "Friends Only" is sent as `friends_only`. |
| Profile.SpaceBecomesUnderscore | src/pages/Profile.jsx:225 | The lowered option's space becomes `_`. |
| Profile.LabelOfSlug | src/pages/Profile.jsx:349 | The label of an option's slug is the option itself, so the display reads back what was picked. |
| Profile.SlugOfWord | src/pages/Profile.jsx:225 | A capitalised word group is sent as its lowered first letter followed by the rest with its first space replaced by `_`. |
| Profile.LabelAt | src/pages/Profile.jsx:349 | The label capitalises the first letter and shows the first `_` as a space. |
| Profile.FirstSpace | src/pages/Profile.jsx:437 | The index of the first space, or the length when there is none. |
| Profile.NameRoundTrip | src/pages/Profile.jsx:437-438 | For a trimmed name with at most one space, splitting it into the `firstName` and `lastName` props built at lines 437-438 and joining them back as line 238 does gives the name again. |
| Profile.ThirdWordIsDropped | src/pages/Profile.jsx:437-438 | Splitting "Ann Marie Lee" into those two props and joining them as line 238 does gives "Ann Marie": the third word is lost. |
| Profile.DropFriend | src/pages/Profile.jsx:295 | Exactly the friends with that id leave, and an absent id changes nothing. Order and multiplicity: Profile.DropFriendAppend. |
| Profile.DropFriendAppend | src/pages/Profile.jsx:295 | Removal keeps the other friends in order and with their multiplicity: an appended friend stays last exactly when its id differs. |
| Profile.RemoveFriend | src/pages/Profile.jsx:275-307 | On success exactly that friend leaves and the count drops by one. On failure the list and count stay, and the server's message or the default becomes the error. |
| Profile.DropListedFriend | src/pages/Profile.jsx:295 | With distinct ids, removing a listed friend shortens the list by exactly one. |
| Profile.CountTracksList | src/pages/Profile.jsx:295-296 | If the count matched the list before a successful removal, it still does after. |
| ProfileCapsuleGrid.ThemeOf | react/src/components/profileComponents/ProfileCapsuleGrid.jsx:66 | Each of chronicle, legacy and vault picks its own theme, and only that id does. Anything else, including no design, falls back to heritage. |
| ProfileCapsuleGrid.ThemeIdsRoundTrip | react/src/components/profileComponents/ProfileCapsuleGrid.jsx:196 | Every theme is reached from its own id. |
| ProfileCapsuleGrid.ReadyMeansOpens | react/src/components/profileComponents/ProfileCapsuleGrid.jsx:198 | A card shows as ready exactly when the page's click would open the viewer. |
| ProfileCapsuleGrid.ReadyOnceOpened | react/src/components/profileComponents/ProfileCapsuleGrid.jsx:198 | With the page's day count, a card is ready exactly once its opening time has come. |
| ProfileCapsuleGrid.BlankMessageIsNone | react/src/components/profileComponents/ProfileCapsuleGrid.jsx:116 | A message counts exactly when it is not blank after trimming. |
| ProfileCapsuleGrid.Preview | react/src/components/profileComponents/ProfileCapsuleGrid.jsx:172 | A missing message gives `''`. A message of at most 85 UTF-16 code units is shown whole. A longer one is cut to the longest prefix of at most 85 code units, followed by `...`; that prefix is 85 units long, or 84 when the next character needs two. |
| ProfileCapsuleGrid.PreviewIsBoundedPrefix | react/src/components/profileComponents/ProfileCapsuleGrid.jsx:172 | A preview is at most 88 code units long and starts with the 85-unit prefix of the message. |
| ProfileCapsuleGrid.PhotoLabelReadsBack | react/src/components/profileComponents/ProfileCapsuleGrid.jsx:141 | The noun is singular exactly for one photo, and the label's leading digits read back as the count. |
| ProfileCapsuleGrid.FaceOf | react/src/components/profileComponents/ProfileCapsuleGrid.jsx:122-184 | Photos win over a message, and a message over the sealed face. The photo face notes a message exactly when there is one. |
| ProfileCapsuleGrid.Cards | react/src/components/profileComponents/ProfileCapsuleGrid.jsx:5 | A value that is not an array shows no cards. An array shows one card per capsule, in order, with the theme of its design and the face of its content. |
| ProfileCapsuleGrid.CardsAppend | react/src/components/profileComponents/ProfileCapsuleGrid.jsx:195 | The cards of two consecutive lists are the cards of each: the grid never reorders, drops or merges capsules. |
| AnimatedCapsule.ImageSource | react/src/components/profileComponents/AnimatedCapsule.jsx:43 | A path containing `http` is kept. Any other path gets the storage prefix. |
| AnimatedCapsule.ImageSourceIdempotent | react/src/components/profileComponents/AnimatedCapsule.jsx:43 | A resolved source contains `http`, so resolving it again changes nothing. |
| AnimatedCapsule.Caption | react/src/components/profileComponents/AnimatedCapsule.jsx:44 | Every caption starts with "Memory ". |
| AnimatedCapsule.CaptionNumbers | react/src/components/profileComponents/AnimatedCapsule.jsx:44 | Caption i's digits read back as i + 1. |
| AnimatedCapsule.Transform | react/src/components/profileComponents/AnimatedCapsule.jsx:37-61 | Available exactly when days left is missing or at most 0. Privacy defaults to `private`. There is one slide per image, in order, with its source and caption. |
| AnimatedCapsule.Unlock | react/src/components/profileComponents/AnimatedCapsule.jsx:117-132 | For an available capsule below stage 3, a click adds one stage, and unlocking starts exactly on the click made at stage 2. For an unavailable one, a click pulses to stage 1 and the timeout returns it to 0. |
| AnimatedCapsule.UnlockStaysReachable | react/src/components/profileComponents/AnimatedCapsule.jsx:117-132 | Whatever the events, the stage stays within 0..3, unlocking coincides with stage 3 and content follows unlocking. An unavailable capsule never passes stage 1. |
| AnimatedCapsule.LockedCapsuleStaysClosed | react/src/components/profileComponents/AnimatedCapsule.jsx:127-131 | An unavailable capsule's content is never shown. |
| AnimatedCapsule.ThreeClicksUnlock | react/src/components/profileComponents/AnimatedCapsule.jsx:117-126 | Three clicks and the reveal show an available capsule's content. |
| AnimatedCapsule.Tick | react/src/components/profileComponents/AnimatedCapsule.jsx:82-93 | Progress rises by 2 per tick. From 100 on it wraps to 0 and the slide advances modulo the count. |
| AnimatedCapsule.NextSlide | react/src/components/profileComponents/AnimatedCapsule.jsx:505-508 | The next-slide button goes to `(i + 1) mod count`, always in range, with the bar restarted. |
| AnimatedCapsule.TogglePlay | react/src/components/profileComponents/AnimatedCapsule.jsx:493 | The play/pause button flips the playing flag and keeps the slide. Pausing keeps the bar, and resuming with slides to show restarts it at 0. |
| AnimatedCapsule.PauseResumeRestartsBar | react/src/components/profileComponents/AnimatedCapsule.jsx:78-81 | Pausing and then resuming keeps the slide, starts its bar over and stays in range. |
| AnimatedCapsule.TicksStayInRange | react/src/components/profileComponents/AnimatedCapsule.jsx:82-93 | Ticking keeps the slide a valid index and the bar an even value from 0 to 100. |
| AnimatedCapsule.SlideDuration | react/src/components/profileComponents/AnimatedCapsule.jsx:82-93 | From an empty bar, a slide stays for 51 ticks: 50 to fill the bar and one to move on. |
| AnimatedCapsule.TicksSplit | react/src/components/profileComponents/AnimatedCapsule.jsx:82-93 | Ticking a + b times is ticking a times and then b times. |
| AnimatedCapsule.FillBar | react/src/components/profileComponents/AnimatedCapsule.jsx:82-93 | From an empty bar, k ticks up to 50 raise the progress to 2k and change nothing else. |
| ProfileModal.HasChanges | react/src/components/profileComponents/Modal.jsx:157-159 | True exactly when some field differs from the fetched snapshot, or before the fetch. |
| ProfileModal.Reassess | react/src/components/profileComponents/Modal.jsx:183 | The field's shown error becomes the validator's, and every other field's is kept. |
| ProfileModal.ChangeText | react/src/components/profileComponents/Modal.jsx:178-185 | Typing writes the field. A touched field is re-judged against the new form, and an untouched one keeps its error. |
| ProfileModal.Blur | react/src/components/profileComponents/Modal.jsx:188-192 | Leaving a field marks it touched and shows the validator's error for it. |
| ProfileModal.ChooseImage | react/src/components/profileComponents/Modal.jsx:161-177 | A chosen file over 2 MB sets the `image` error. One at or below 2 MB deletes it. Other errors are kept. |
| ProfileModal.ImageCheckAgrees | react/src/components/profileComponents/Modal.jsx:168-177 | The immediate size check agrees with the validator's image rule. |
| ProfileModal.Submit | react/src/components/profileComponents/Modal.jsx:194-213 | Every field becomes touched and shows the validator's errors. With errors a general error is set and the modal stays in editing. Without errors the general error clears and the confirm step opens. |
| ProfileModal.NonNull | react/src/components/profileComponents/Modal.jsx:217-221 | Exactly the non-null fields are appended. Order and multiplicity: ProfileModal.NonNullAppend. |
| ProfileModal.NonNullAppend | react/src/components/profileComponents/Modal.jsx:217-221 | The fields are appended in key order: an appended slot is sent last exactly when it holds a value. |
| ProfileModal.NonNullKeepsAllSet | react/src/components/profileComponents/Modal.jsx:217-221 | With every slot set nothing is dropped: part i is slot i's key and value. |
| ProfileModal.Outgoing | react/src/components/profileComponents/Modal.jsx:216-222 | Every non-null field is sent, nothing else from the form, and the current password comes last. Order: ProfileModal.OutgoingInKeyOrder. |
| ProfileModal.OutgoingInKeyOrder | react/src/components/profileComponents/Modal.jsx:216-222 | A fully filled form is sent as eight parts: the seven fields in the order firstName, lastName, email, bio, image, newPassword, confirmNewPassword, each with its value, then confirmPassword. |
| ProfileModal.NullFieldsStayHome | react/src/components/profileComponents/Modal.jsx:217-221 | With no bio, no part named `bio` is sent. |
| ProfileModal.Confirm | react/src/components/profileComponents/Modal.jsx:236-255 | A 422 stores the server's field errors and returns to editing. Any other failure sets the general error and returns to editing. Success shows the success message. |
| ProfileModal.Step | react/src/components/profileComponents/Modal.jsx:286-313 | An event for a control the current mode does not render changes nothing. |
| ProfileModal.RunConfirmsClean | react/src/components/profileComponents/Modal.jsx:194-213 | Whatever the user does, the confirm step only ever shows a form the validator passes. |
| ProfileModal.StepConfirmsClean | react/src/components/profileComponents/Modal.jsx:194-213 | A single event never opens the confirm step on a form the validator refuses, if none was shown before. |
| ProfileModal.OnlyCleanFormsAreSent | react/src/components/profileComponents/Modal.jsx:215-222 | Every update request carries a form without client-side errors. |
| ProfileModal.NothingToSaveAtFirst | react/src/components/profileComponents/Modal.jsx:458 | Save is disabled for a freshly fetched, unedited profile. |
| Login.LoweringKeepsShape | src/pages/Login.jsx:26 | Lowering the address before the test does not change its verdict. |
| Login.ValidateEmail | src/pages/Login.jsx:23-29 | The checks run in order: blank, then pattern, then a length over 255 UTF-16 code units. Only the first failure is reported, and the empty message means accepted. |
| Login.ProfileEmailIsLoginEmail | src/pages/Login.jsx:25 | Every address the profile validator accepts also passes the login pattern. |
| Login.ValidatePassword | src/pages/Login.jsx:31-35 | Blank after trimming is an error, and so is an untrimmed length below 8 code units. |
| Login.WidePasswordIsLongEnough | src/pages/Login.jsx:33 | Four emoji pass the length check: they are eight code units. |
| Login.PaddingCountsTowardsLength | src/pages/Login.jsx:32-33 | Padding counts toward the eight characters: `"  abc   "` passes. |
| Login.HandleLogin | src/pages/Login.jsx:62-113 | No request is made exactly when a field check fails, and both field messages are shown. A 422 gives the server's field errors, a 401 its message, and anything else the generic message. A token is stored only on success. |
| Login.BlankEmailNeverSent | src/pages/Login.jsx:67-76 | A blank address is never sent. |
| Login.InputBorder | src/pages/Login.jsx:115-129 | An untouched field has the default border. A touched field is red exactly when it has an error, and green exactly when it has none and is not blank. |
| Login.BorderFollowsCheck | src/pages/Login.jsx:115-129 | When a client-side check fails and nothing is sent, a touched email field is green exactly when its own check passed. |
| App.StripTrailingSlashes | src/App.js:19 | The result is a prefix that does not end in `/`, and everything removed was a slash. |
| App.StripUnique | src/App.js:19 | That prefix is unique, so the result is determined by those properties. |
| App.NormalizePath | src/App.js:19 | The normalised path never ends in a slash and is never longer than the path. |
| App.NormalizesTo | src/App.js:19 | A path normalises to q exactly when its lowered form is q followed only by slashes. |
| App.NormalizeIdempotent | src/App.js:19 | Normalising twice is normalising once. |
| App.LoginWithSlashHidden | src/App.js:19-20 | `/Login/` hides the header, just like `/login`. |
| App.RootShowsHeader | src/App.js:20 | The root path shows the header. |
| App.HandleCapsuleAccept | src/App.js:27-43 | Missing data or a falsy share id rejects and opens nothing. Otherwise the share is selected and the modal opens. |
| App.SidebarAcceptOpensModal | src/App.js:27-43 | Accepting a listed share from the sidebar opens the modal on it. If its capsule id is missing or 0, the modal's submit then sends nothing. |
| NotificationSidebar.FetchShares | react/src/components/NotificationSidebar.jsx:36-66 | Without a token only "Authentication required" is set and the old list stays. Otherwise the error is cleared exactly when the list arrives. An array body becomes the list and any other body the empty list. A refusal shows the server's message, or `HTTP error! status: N`, and a thrown error shows its own message; both empty the list. |
| NotificationSidebar.FetchReplacesList | react/src/components/NotificationSidebar.jsx:61-65 | With a token, the list after a fetch does not depend on the list before it. |
| NotificationSidebar.FetchedButtonsFindTheirShares | react/src/components/NotificationSidebar.jsx:61 | Every pending share in a freshly fetched list has buttons that find it: responding never gives "Share not found". |
| NotificationSidebar.FindShare | react/src/components/NotificationSidebar.jsx:106 | Finds nothing exactly when no share has the id. Otherwise it finds the first share with the id. |
| NotificationSidebar.AcceptDataOf | react/src/components/NotificationSidebar.jsx:114-121 | The callback gets the share's id, capsule id, status, title and sender unchanged, with an absent vision sent as `''`. |
| NotificationSidebar.Respond | react/src/components/NotificationSidebar.jsx:98-154 | With no token, only "Authentication required". An unknown id gives only "Share not found". `accepted` calls the callback exactly when one exists, and sends nothing. Any other status sends a decline for the share's capsule, refetching on success and setting an error otherwise. |
| NotificationSidebar.ButtonFindsItsShare | react/src/components/NotificationSidebar.jsx:273-291 | The buttons of a listed pending share never produce "Share not found". |
| NotificationSidebar.AcceptSendsNothing | react/src/components/NotificationSidebar.jsx:113-129 | Accepting never sends a status request and never refetches. |
| CustomCalendar.MonthLength | react/src/components/capsuleCreationComponents/CustomCalendar.jsx:11 | Months have 28 to 31 days. February has 29 exactly in a Gregorian leap year, and April, June, September and November have 30. |
| CustomCalendar.MonthsFillYear | react/src/components/capsuleCreationComponents/CustomCalendar.jsx:11 | The twelve months add up to the year's length. |
| CustomCalendar.YearStep | react/src/components/capsuleCreationComponents/CustomCalendar.jsx:12 | Consecutive years' starts are as far apart as the earlier year is long. |
| CustomCalendar.Weekday | react/src/components/capsuleCreationComponents/CustomCalendar.jsx:12 | `getDay()` is a column from 0 (Sunday) to 6. |
| CustomCalendar.WeekdayShift | react/src/components/capsuleCreationComponents/CustomCalendar.jsx:12 | Within a month, the weekday advances by one per day. |
| CustomCalendar.KnownWeekdays | react/src/components/capsuleCreationComponents/CustomCalendar.jsx:12 | 1 January 1970 falls on a Thursday and 1 January 2000 on a Saturday. |
| CustomCalendar.Following | react/src/components/capsuleCreationComponents/CustomCalendar.jsx:15 | The month after December is January of the next year. |
| CustomCalendar.NextMonthContinues | react/src/components/capsuleCreationComponents/CustomCalendar.jsx:12-15 | Each month's first weekday is the previous month's, shifted by its length. |
| CustomCalendar.FullYear | react/src/components/capsuleCreationComponents/CustomCalendar.jsx:11-18 | The `Date` constructor reads years 0 to 99 as 1900 to 1999 and keeps every other year. |
| CustomCalendar.DaysInMonth | react/src/components/capsuleCreationComponents/CustomCalendar.jsx:11 | The length of the shown month, read through the constructor's year. |
| CustomCalendar.FirstDayOfMonth | react/src/components/capsuleCreationComponents/CustomCalendar.jsx:12 | The weekday of the first of the shown month. |
| CustomCalendar.Grid | react/src/components/capsuleCreationComponents/CustomCalendar.jsx:24-27 | One blank cell per weekday before the first, then the days 1..n in order. |
| CustomCalendar.GridPlacesDays | react/src/components/capsuleCreationComponents/CustomCalendar.jsx:48-55 | Every day of the month has exactly one cell, in the column of its weekday. |
| CustomCalendar.MonthStart | react/src/components/capsuleCreationComponents/CustomCalendar.jsx:14-15 | A month index out of range overflows into the year: the result is the same month count from the constructor's year. |
| CustomCalendar.ArrowsWrap | react/src/components/capsuleCreationComponents/CustomCalendar.jsx:14-15 | Outside the years 0 to 99, the arrows step one month and wrap across the year boundary. |
| CustomCalendar.ArrowsUndo | react/src/components/capsuleCreationComponents/CustomCalendar.jsx:14-15 | Away from those years, Next undoes Previous and Previous undoes Next. |
| CustomCalendar.CenturyJump | react/src/components/capsuleCreationComponents/CustomCalendar.jsx:14-15 | Going back from January of year 100 reaches December 99. Going forward from there lands in January 2000, because the constructor reads 99 as 1999. |
| CustomCalendar.SelectDay | react/src/components/capsuleCreationComponents/CustomCalendar.jsx:17-22 | Picking a day gives that day of the shown month and keeps the selected date's hours and minutes. There is no result without a selected date. |
| CustomCalendar.PickHighlightsOneCell | react/src/components/capsuleCreationComponents/CustomCalendar.jsx:63-65 | After a pick, exactly the picked day's cell is highlighted. |
| CustomCalendar.OtherMonthHighlightsNothing | react/src/components/capsuleCreationComponents/CustomCalendar.jsx:63-65 | No cell is highlighted while the selected date lies in another month. |
| DesignSelector.Click | src/components/profileComponents/CapsuleDesignSelector.jsx:119 | A card click emits a change named `design` whose value is one of the four ids. |
| DesignSelector.AtMostOneMarked | src/components/profileComponents/CapsuleDesignSelector.jsx:123 | The ids are distinct, so at most one card is marked. |
| DesignSelector.ClickMarksThatCard | src/components/profileComponents/CapsuleDesignSelector.jsx:119-123 | After a click, exactly that card is marked and the design step passes. |
| DesignSelector.DefaultMarksNothing | src/components/profileComponents/CapsuleDesignSelector.jsx:158 | The wizard's initial `default` marks no card, yet it passes the design step. |
| DesignSelector.PickedDesignHasTheme | src/components/profileComponents/CapsuleDesignSelector.jsx:7 | Every id the picker writes names the grid theme with that same id. |

## Left out

- HTTP traffic is not modelled:
  - URLs, headers and JSON parsing are left out;
  - the access token in local storage becomes a presence flag;
  - every server reply becomes a parameter.
- Navigation is not modelled (`useNavigate`, and the page leaving after a successful save or login).
- Timers are not modelled: the ticker intervals, the 500 ms and 3 s timeouts and the 100 ms sharing debounce (src/components/capsuleCreationComponents/CapsuleSharing.jsx:43-49). Each tick or timeout is one event.
- React's effect scheduling is not modelled. Each effect is taken to run once after the change it depends on. For the wizard's re-validation, a new draft object counts as a change even when its value is equal, as in React.
- Animations, particles and random choices are left out, because they are not logic. This includes the random fallback design in src/pages/FindFriends.jsx:89-90 and the random transitions of the viewer.
- The FindFriends fetch is left out, including its `Object.values` fallback at src/pages/FindFriends.jsx:78-79.
- The profile modal's fetch of its initial data is left out, and so is the sidebar's loading flag.
- Text handling is simplified:
  - case mapping is ASCII only, with no Unicode case folding;
  - locale formatting is left out;
  - `parseInt` of user ids is taken as already done;
  - `String(value)` of non-string fields is not modelled.
- Files are `(name, type, size)` records compared structurally. Object identity, previews and `URL.createObjectURL` are left out.
- Instants are integers in milliseconds. Floating-point division inside `Math.floor` and `Math.ceil` is modelled as integer floor and ceiling division.
- ProfileCapsuleGrid.ThemeOf: inherited property names (such as `constructor`) used as a design id are not modelled. In the source they select a non-style object instead of falling back.
- ProfileModal.Outgoing: `undefined` fields are treated like `null` ones.
- NotificationSidebar.Respond: a decline that fails to reach the server is treated like a refused decline. The source reports the network error's own message instead.
- CustomCalendar.SelectDay: seconds, milliseconds and the local time zone of the picked `Date` are not modelled.
- CustomCalendar.PickHighlightsOneCell: stated only outside the years 0 to 99. There, the constructor moves the picked date into the 1900s, so nothing is highlighted.
- ProfileCapsuleGrid.Preview: when code unit 85 is the first half of a surrogate pair, `slice(0, 85)` keeps that lone half. A Dafny `char` cannot hold a lone surrogate, so the model's cut stops one unit earlier.
- Profile.NameRoundTrip: the profile page imports its edit form from `src/components/profileComponents/Modal`, which is not part of this model. The lemma speaks of the props built for it and of the join, not of how that form fills its fields.
- AcceptModal.Submit: the `isSubmitting` flag during the requests is not modelled. Only the state after the handler finishes is.

=== FILE: animated_capsule.dfy ===
/**
 * The opened-capsule viewer: the transform of a fetched capsule into what
 * the viewer shows, the three-click unlock sequence, and the slideshow's
 * progress bar and slide index. Timers are modelled as events.
 */
module AnimatedCapsule {
  import opened Js

  const StoragePrefix: string := "http://127.0.0.1:8000/storage/"

  /** The fields of a capsule the transform reads; `images` already parsed from JSON. */
  datatype Fetched = Fetched(daysLeft: Option<int>, privacy: Option<string>, images: seq<string>)

  datatype Slide = Slide(src: string, caption: string)

  datatype Shown = Shown(available: bool, privacy: string, slides: seq<Slide>)

  /** `!daysLeft || daysLeft <= 0`: a missing or zero day count counts as available. */
  predicate Available(daysLeft: Option<int>) {
    daysLeft.None? || daysLeft.value == 0 || daysLeft.value <= 0
  }

  /** `img.includes('http') ? img : storage + img`. */
  function ImageSource(img: string): (r: string)
    ensures Includes(img, "http") ==> r == img
    ensures !Includes(img, "http") ==> r == StoragePrefix + img
  {
    if Includes(img, "http") then img else StoragePrefix + img
  }

  /** Every source the viewer uses is an absolute address: applying the rule again changes nothing. */
  lemma {:induction false} ImageSourceIdempotent(img: string)
    ensures Includes(ImageSource(img), "http")
    ensures ImageSource(ImageSource(img)) == ImageSource(img)
  {
    if !Includes(img, "http") {
      assert OccursAt(StoragePrefix + img, "http", 0) by {
        assert (StoragePrefix + img)[0..4] == "http";
      }
    }
  }

  /** `Memory ${index + 1}`. */
  function Caption(index: nat): (r: string)
    ensures |r| > 7 && r[..7] == "Memory "
  {
    "Memory " + NatToString(index + 1)
  }

  /** Captions number the slides from 1, so the number read back is one more than the index. */
  lemma CaptionNumbers(index: nat)
    ensures var digits := Caption(index)[7..];
      (forall i | 0 <= i < |digits| :: '0' <= digits[i] <= '9') && DigitsValue(digits) == index + 1
  {
    NatToStringRoundTrip(index + 1);
    assert Caption(index)[7..] == NatToString(index + 1);
  }

  /** The whole transform: availability, the privacy default, and one slide per image in order. */
  function Transform(c: Fetched): (r: Shown)
    ensures r.available <==> c.daysLeft.None? || c.daysLeft.value <= 0
    ensures c.privacy.None? || c.privacy == Some("") ==> r.privacy == "private"
    ensures c.privacy.Some? && c.privacy.value != "" ==> r.privacy == c.privacy.value
    ensures |r.slides| == |c.images|
    ensures forall i | 0 <= i < |c.images| :: r.slides[i] == Slide(ImageSource(c.images[i]), Caption(i))
  {
    Shown(Available(c.daysLeft),
          if c.privacy.None? || c.privacy.value == "" then "private" else c.privacy.value,
          seq(|c.images|, i requires 0 <= i < |c.images| => Slide(ImageSource(c.images[i]), Caption(i))))
  }

  /** The unlock indicator: three dots filled one per click, and the glow once unlocking starts. */
  datatype Lock = Lock(stage: nat, unlocking: bool, content: bool)

  const Locked := Lock(0, false, false)

  /** A click on the capsule, the 500 ms pulse reset, and the 3 s reveal after unlocking. */
  datatype UnlockEvent = Click | PulseEnd | Reveal

  /** `handleUnlock` and the timeouts it starts. */
  function Unlock(s: Lock, available: bool, e: UnlockEvent): (r: Lock)
    ensures e.Click? && available && s.stage < 3 ==>
      r.stage == s.stage + 1 && (r.unlocking <==> s.unlocking || s.stage == 2) && r.content == s.content
    ensures e.Click? && available && s.stage >= 3 ==> r == s
    ensures e.Click? && !available ==> r == s.(stage := 1)
    ensures e.PulseEnd? && !available ==> r == s.(stage := 0)
    ensures e.Reveal? ==> r == (if s.unlocking then s.(content := true) else s)
  {
    match e
    case Click =>
      if available && s.stage < 3 then s.(stage := s.stage + 1, unlocking := s.unlocking || s.stage == 2)
      else if !available then s.(stage := 1)
      else s
    case PulseEnd => if !available then s.(stage := 0) else s
    case Reveal => if s.unlocking then s.(content := true) else s
  }

  /** What holds of every state the viewer can reach from the locked start. */
  ghost predicate Reachable(s: Lock, available: bool) {
    s.stage <= 3 && (s.unlocking <==> s.stage == 3) && (s.content ==> s.unlocking)
    && (!available ==> s.stage <= 1 && !s.unlocking)
  }

  function RunUnlock(s: Lock, available: bool, events: seq<UnlockEvent>): Lock
    decreases |events|
  {
    if events == [] then s else RunUnlock(Unlock(s, available, events[0]), available, events[1..])
  }

  /**
   * Whatever the clicks and timers, the stage stays within the three dots,
   * unlocking starts exactly with the third dot, content shows only after
   * unlocking, and an unavailable capsule never gets past the first dot.
   */
  lemma {:induction false} UnlockStaysReachable(s: Lock, available: bool, events: seq<UnlockEvent>)
    requires Reachable(s, available)
    ensures Reachable(RunUnlock(s, available, events), available)
    decreases |events|
  {
    if events != [] {
      var next := Unlock(s, available, events[0]);
      assert Reachable(next, available);
      UnlockStaysReachable(next, available, events[1..]);
    }
  }

  /** The content of an unavailable capsule is never shown. */
  lemma LockedCapsuleStaysClosed(events: seq<UnlockEvent>)
    ensures !RunUnlock(Locked, false, events).content
  {
    UnlockStaysReachable(Locked, false, events);
  }

  /** Three clicks unlock an available capsule, and the reveal then shows its content. */
  lemma ThreeClicksUnlock()
    ensures RunUnlock(Locked, true, [Click, Click, Click, Reveal]) == Lock(3, true, true)
  {
    var s1 := Unlock(Locked, true, Click);
    var s2 := Unlock(s1, true, Click);
    var s3 := Unlock(s2, true, Click);
    assert s3 == Lock(3, true, false);
    assert [Click, Click, Click, Reveal][1..] == [Click, Click, Reveal];
    assert [Click, Click, Reveal][1..] == [Click, Reveal];
    assert [Click, Reveal][1..] == [Reveal];
  }

  /** The slideshow: the active slide and the progress bar's percentage. */
  datatype Show = Show(index: nat, progress: nat)

  /** One 100 ms tick: two percent more, or the next slide once the bar is full. */
  function Tick(s: Show, count: nat): (r: Show)
    requires count > 0
    ensures s.progress >= 100 ==> r == Show((s.index + 1) % count, 0)
    ensures s.progress < 100 ==> r == s.(progress := s.progress + 2)
    ensures r.index < count || r.index == s.index
  {
    if s.progress >= 100 then Show((s.index + 1) % count, 0) else s.(progress := s.progress + 2)
  }

  /** The refresh button: the next slide, from the start of its bar. */
  function NextSlide(s: Show, count: nat): (r: Show)
    requires count > 0
    ensures r.index < count && r.progress == 0
    ensures s.index + 1 < count ==> r.index == s.index + 1
    ensures s.index + 1 == count ==> r.index == 0
  {
    Show((s.index + 1) % count, 0)
  }

  /**
   * The play/pause button. Pausing stops the ticker and leaves the bar where
   * it is; resuming restarts the slideshow effect, which empties the bar of
   * the current slide when there are slides to show.
   */
  function TogglePlay(s: Show, playing: bool, count: nat): (r: (Show, bool))
    ensures r.1 == !playing
    ensures r.0.index == s.index
    ensures playing || count == 0 ==> r.0 == s
    ensures !playing && count > 0 ==> r.0.progress == 0
  {
    if !playing && count > 0 then (s.(progress := 0), true) else (s, !playing)
  }

  /** Pausing and resuming keeps the slide but starts its bar over. */
  lemma PauseResumeRestartsBar(s: Show, count: nat)
    requires count > 0 && InRange(s, count)
    ensures var paused := TogglePlay(s, true, count);
      var resumed := TogglePlay(paused.0, paused.1, count);
      resumed == (Show(s.index, 0), true) && InRange(resumed.0, count)
  {
  }

  /** A dot of the progress row: jump to that slide. */
  function Jump(index: nat): Show {
    Show(index, 0)
  }

  predicate InRange(s: Show, count: nat) {
    s.index < count && s.progress <= 100 && s.progress % 2 == 0
  }

  function Ticks(s: Show, count: nat, n: nat): Show
    requires count > 0
    decreases n
  {
    if n == 0 then s else Ticks(Tick(s, count), count, n - 1)
  }

  /** Ticking keeps the slide a valid index and the bar between 0 and 100. */
  lemma {:induction false} TicksStayInRange(s: Show, count: nat, n: nat)
    requires count > 0 && InRange(s, count)
    ensures InRange(Ticks(s, count, n), count)
    decreases n
  {
    if n > 0 {
      TicksStayInRange(Tick(s, count), count, n - 1);
    }
  }

  /** From an empty bar a slide stays on screen for 51 ticks: 50 to fill the bar and one to move on. */
  lemma {:induction false} SlideDuration(s: Show, count: nat, k: nat)
    requires count > 0 && s.progress == 0 && k <= 50
    ensures Ticks(s, count, k) == s.(progress := 2 * k)
    ensures Ticks(s, count, 51) == Show((s.index + 1) % count, 0)
  {
    FillBar(s, count, k);
    FillBar(s, count, 50);
    TicksSplit(s, count, 50, 1);
  }

  lemma {:induction false} FillBar(s: Show, count: nat, k: nat)
    requires count > 0 && s.progress == 0 && k <= 50
    ensures Ticks(s, count, k) == s.(progress := 2 * k)
    decreases k
  {
    if k > 0 {
      FillBar(s, count, k - 1);
      TicksSplit(s, count, k - 1, 1);
    }
  }

  lemma {:induction false} TicksSplit(s: Show, count: nat, a: nat, b: nat)
    requires count > 0
    ensures Ticks(s, count, a + b) == Ticks(Ticks(s, count, a), count, b)
    decreases a
  {
    if a > 0 {
      TicksSplit(Tick(s, count), count, a - 1, b);
    }
  }
}

=== FILE: app.dfy ===
/**
 * The application shell: the normalised route path that decides whether
 * the header is shown, and the accept handler that opens the accept modal
 * for a share chosen in the notification sidebar.
 */
module App {
  import opened Js
  import NotificationSidebar
  import AcceptModal

  /** `s.replace(/\/+$/, '')`: every trailing slash removed. */
  function StripTrailingSlashes(s: string): (r: string)
    ensures r <= s
    ensures r == [] || r[|r| - 1] != '/'
    ensures forall i | |r| <= i < |s| :: s[i] == '/'
    decreases |s|
  {
    if s != [] && s[|s| - 1] == '/' then StripTrailingSlashes(s[..|s| - 1]) else s
  }

  /** The stripped path is the only prefix that does not end in '/' and is followed only by slashes. */
  lemma {:induction false} StripUnique(s: string, q: string)
    requires q <= s && (q == [] || q[|q| - 1] != '/')
    requires forall i | |q| <= i < |s| :: s[i] == '/'
    ensures StripTrailingSlashes(s) == q
    decreases |s|
  {
    if |s| > |q| {
      StripUnique(s[..|s| - 1], q);
    }
  }

  /** `location.pathname.toLowerCase().replace(/\/+$/, '')`. */
  function NormalizePath(path: string): (r: string)
    ensures |r| <= |path|
    ensures r == [] || r[|r| - 1] != '/'
  {
    StripTrailingSlashes(ToLower(path))
  }

  /** A path normalises to `q` exactly when, lowered, it is `q` followed by nothing but slashes. */
  lemma NormalizesTo(path: string, q: string)
    requires q == [] || q[|q| - 1] != '/'
    ensures NormalizePath(path) == q <==>
      q <= ToLower(path) && forall i | |q| <= i < |path| :: ToLower(path)[i] == '/'
  {
    if q <= ToLower(path) && forall i | |q| <= i < |path| :: ToLower(path)[i] == '/' {
      StripUnique(ToLower(path), q);
    }
  }

  /** Normalising twice is normalising once. */
  lemma {:induction false} NormalizeIdempotent(path: string)
    ensures NormalizePath(NormalizePath(path)) == NormalizePath(path)
  {
    var n := NormalizePath(path);
    assert ToLower(n) == n by {
      forall i | 0 <= i < |n| ensures ToLower(n)[i] == n[i] {
        assert n[i] == ToLower(path)[i] == LowerChar(path[i]);
      }
    }
    StripUnique(n, n);
  }

  const HiddenHeaderPaths: seq<string> := ["/login", "/register", "/email-verification"]

  /** `shouldShowHeader`. */
  predicate ShowHeader(path: string) {
    NormalizePath(path) !in HiddenHeaderPaths
  }

  /** Case and trailing slashes do not matter: "/Login/" hides the header like "/login". */
  lemma LoginWithSlashHidden(path: string)
    requires path == "/Login/"
    ensures !ShowHeader(path)
  {
    var t := ToLower(path);
    assert t[2] == 'o' && t[6] == '/' by {
      assert t[2] == LowerChar(path[2]) && t[6] == LowerChar(path[6]);
    }
    assert t == "/login/";
    StripUnique(t, "/login");
  }

  /** The root path shows the header. */
  lemma RootShowsHeader()
    ensures ShowHeader("/")
  {
    StripUnique(ToLower("/"), "");
  }

  /** The shell's modal state. */
  datatype Shell = Shell(modalOpen: bool, selected: Option<NotificationSidebar.AcceptData>)

  /**
   * `handleCapsuleAccept(data)`: missing data or a falsy share id is
   * rejected and opens nothing; otherwise the share is selected and the
   * accept modal opens. The boolean says whether the promise resolves.
   */
  function HandleCapsuleAccept(s: Shell, data: Option<NotificationSidebar.AcceptData>): (r: (Shell, bool))
    ensures !r.1 <==> data.None? || data.value.shareId == 0
    ensures !r.1 ==> r.0 == s
    ensures r.1 ==> r.0 == Shell(true, data)
  {
    if data.None? || data.value.shareId == 0 then (s, false) else (Shell(true, data), true)
  }

  /**
   * From the sidebar to the modal: accepting a listed share with a non-zero
   * id opens the modal on that share; if its capsule id is missing or 0,
   * the modal's submit then refuses without a request.
   */
  lemma SidebarAcceptOpensModal(shares: seq<NotificationSidebar.SharedCapsule>, id: int,
                                s: Shell, m: AcceptModal.Modal, status: AcceptModal.Reply, upload: AcceptModal.Reply)
    requires id != 0 && NotificationSidebar.FindShare(shares, id).Some?
    ensures var e := NotificationSidebar.Respond(shares, id, "accepted", true, true, true);
      && e.accepted.Some?
      && HandleCapsuleAccept(s, e.accepted) == (Shell(true, e.accepted), true)
    ensures var d := NotificationSidebar.AcceptDataOf(NotificationSidebar.FindShare(shares, id).value);
      d.capsuleId in {None, Some(0)} ==>
        AcceptModal.Submit(m, AcceptModal.Share(d.shareId, d.capsuleId), status, upload).sent == []
  {
  }
}

=== FILE: capsule_accept_modal.dfy ===
/**
 * The modal in which a recipient accepts a shared capsule by adding images
 * of their own. Images are a list; their comments live apart, in an object
 * keyed by image index, which must be re-keyed whenever an image is
 * removed. Submission is two requests (a status change, then the upload)
 * whose replies are parameters; a failure after the first puts the share
 * back to `pending`.
 */
module AcceptModal {
  import opened Js

  const SkippedMessage: string := "Some files were skipped. Only images are allowed."
  const InvalidCapsule: string := "Invalid capsule ID"
  const NoImages: string := "Please add at least one image"
  const StatusFailed: string := "Failed to update capsule status"
  const UploadFailed: string := "Failed to upload images"

  datatype Modal = Modal(
    images: seq<File>,
    comments: map<int, string>,   // image index to comment
    submitting: bool,
    error: Option<string>)

  /** The state the modal is reset to whenever it is closed. */
  const Closed: Modal := Modal([], map[], false, None)

  /** Every image has a comment slot and every slot belongs to an image. */
  ghost predicate Keyed(m: Modal) {
    forall k: int :: k in m.comments <==> 0 <= k < |m.images|
  }

  /** `imageComments[index] || ''`. */
  function CommentOf(m: Modal, k: int): string {
    if k in m.comments then m.comments[k] else ""
  }

  /** `file.type.startsWith('image/')`. */
  predicate IsImage(f: File) {
    StartsWith(f.mime, "image/")
  }

  /** The files that pass the filter, in their original order. */
  function Images(files: seq<File>): (r: seq<File>)
    ensures |r| <= |files|
    ensures forall j | 0 <= j < |r| :: IsImage(r[j]) && r[j] in files
    ensures |r| == |files| <==> forall j | 0 <= j < |files| :: IsImage(files[j])
    ensures forall j | 0 <= j < |files| && IsImage(files[j]) :: files[j] in r
  {
    if files == [] then []
    else
      var rest := Images(files[1..]);
      assert forall j | 1 <= j < |files| :: files[j] == files[1..][j - 1];
      if IsImage(files[0]) then [files[0]] + rest else rest
  }

  /** The images keep their selection order: an appended file ends the result exactly when it is an image. */
  lemma {:induction false} ImagesAppend(files: seq<File>, f: File)
    ensures Images(files + [f]) == Images(files) + (if IsImage(f) then [f] else [])
  {
    if files == [] {
      assert [f][1..] == [];
    } else {
      assert (files + [f])[1..] == files[1..] + [f];
      ImagesAppend(files[1..], f);
    }
  }

  /** Filtering twice is filtering once: the filter keeps exactly the images. */
  lemma {:induction false} ImagesIdempotent(files: seq<File>)
    ensures Images(Images(files)) == Images(files)
  {
    var r := Images(files);
    assert |Images(r)| == |r|;
    if files != [] {
      ImagesIdempotent(files[1..]);
    }
  }

  /**
   * `handleImageChange`: the accepted files are appended in order, each with
   * an empty comment at its new index; the error is set iff a file was
   * skipped and is otherwise left as it was.
   */
  function AddImages(m: Modal, files: seq<File>): (r: Modal)
    ensures r.images == m.images + Images(files)
    ensures forall k | |m.images| <= k < |r.images| :: k in r.comments && r.comments[k] == ""
    ensures forall k | k in m.comments && !(|m.images| <= k < |r.images|) :: k in r.comments && r.comments[k] == m.comments[k]
    ensures forall k | k in r.comments :: k in m.comments || |m.images| <= k < |r.images|
    ensures r.error == if |Images(files)| != |files| then Some(SkippedMessage) else m.error
    ensures r.submitting == m.submitting
  {
    var valid := Images(files);
    var added := BlankSlots(|m.images|, |valid|);
    var error := if |valid| != |files| then Some(SkippedMessage) else m.error;
    Modal(m.images + valid, m.comments + added, m.submitting, error)
  }

  /** Empty comments at indices `from` .. `from + count - 1`. */
  function BlankSlots(from: int, count: nat): (r: map<int, string>)
    ensures forall k :: k in r <==> from <= k < from + count
    ensures forall k | k in r :: r[k] == ""
  {
    if count == 0 then map[] else BlankSlots(from, count - 1)[from + count - 1 := ""]
  }

  /** `handleCommentChange(i, c)`: slot i is written and no other slot changes. */
  function SetComment(m: Modal, i: int, c: string): (r: Modal)
    ensures r.images == m.images && r.error == m.error
    ensures i in r.comments && r.comments[i] == c
    ensures forall k | k != i :: (k in r.comments <==> k in m.comments) && (k in m.comments ==> r.comments[k] == m.comments[k])
  {
    m.(comments := m.comments[i := c])
  }

  /**
   * The comment object after removing index i: slot i is dropped, slots
   * below i stay, and each slot k above i moves to k - 1.
   */
  function Rekey(c: map<int, string>, i: int): (r: map<int, string>)
    ensures forall k | k < i :: (k in r <==> k in c) && (k in c ==> r[k] == c[k])
    ensures forall k | k >= i :: (k in r <==> k + 1 in c) && (k + 1 in c ==> r[k] == c[k + 1])
  {
    var shifted := set x | x in c :: x - 1;
    assert forall k | k >= i && k + 1 in c :: k in shifted;
    map k | k in c.Keys + shifted && (if k < i then k in c else k + 1 in c) :: if k < i then c[k] else c[k + 1]
  }

  /** `removeImage(i)`: the image is spliced out and the comments are re-keyed to match. */
  function RemoveImage(m: Modal, i: nat): (r: Modal)
    requires i < |m.images|
    ensures r.images == m.images[..i] + m.images[i + 1..]
    ensures r.comments == Rekey(m.comments, i)
    ensures r.error == m.error && r.submitting == m.submitting
  {
    m.(images := m.images[..i] + m.images[i + 1..], comments := Rekey(m.comments, i))
  }

  lemma ClosedIsKeyed()
    ensures Keyed(Closed)
  {
  }

  lemma AddImagesKeeps(m: Modal, files: seq<File>)
    requires Keyed(m)
    ensures Keyed(AddImages(m, files))
  {
  }

  lemma SetCommentKeeps(m: Modal, i: nat, c: string)
    requires Keyed(m) && i < |m.images|
    ensures Keyed(SetComment(m, i, c))
  {
  }

  /** Removal keeps every image paired with a slot, including when the removed image is the last one. */
  lemma {:induction false} RemoveImageKeeps(m: Modal, i: nat)
    requires Keyed(m) && i < |m.images|
    ensures Keyed(RemoveImage(m, i))
  {
    var r := RemoveImage(m, i);
    forall k: int ensures k in r.comments <==> 0 <= k < |r.images| {
      if k >= i {
        assert k in r.comments <==> k + 1 in m.comments;
      }
    }
  }

  /**
   * After removing image i, every other image keeps its own comment: the
   * image formerly at j sits at j or j - 1 and the comment read there is the
   * one it had before.
   */
  lemma {:induction false} RemoveImageKeepsComments(m: Modal, i: nat, j: nat)
    requires i < |m.images| && j < |m.images| && j != i
    ensures var r := RemoveImage(m, i);
      var j' := if j < i then j else j - 1;
      j' < |r.images| && r.images[j'] == m.images[j] && CommentOf(r, j') == CommentOf(m, j)
  {
    var r := RemoveImage(m, i);
    if j > i {
      assert r.images[j - 1] == m.images[i + 1..][j - 1 - i];
    }
  }

  /** Removing the only image leaves an empty modal with no comment slots. */
  lemma RemovingLastImage(m: Modal)
    requires Keyed(m) && |m.images| == 1
    ensures RemoveImage(m, 0).images == [] && RemoveImage(m, 0).comments == map[]
  {
    var r := RemoveImage(m, 0);
    assert forall k | k in r.comments :: false;
  }

  // ------------------------------------------------------------ submission

  /** The capsule being accepted; a missing or zero id is falsy. */
  datatype Share = Share(shareId: int, capsuleId: Option<int>)

  /** A server reply: whether it succeeded, and the `message` of its body (empty when absent). */
  datatype Reply = Reply(ok: bool, message: string)

  datatype UploadKey = CapsuleIdKey | ImageAt(i: nat) | CommentAt(i: nat)
  datatype UploadValue = Number(n: int) | Blob(file: File) | Text(text: string)

  datatype Request =
    | SetStatus(shareId: int, status: string, capsuleId: int)
    | Upload(capsuleId: int, body: seq<(UploadKey, UploadValue)>)

  /** The upload body: the capsule id, then each image followed by its comment. */
  function UploadBody(m: Modal, id: int): (b: seq<(UploadKey, UploadValue)>)
    ensures |b| == 1 + 2 * |m.images|
    ensures b[0] == (CapsuleIdKey, Number(id))
    ensures forall i | 0 <= i < |m.images| ::
      b[1 + 2 * i] == (ImageAt(i), Blob(m.images[i])) && b[2 + 2 * i] == (CommentAt(i), Text(CommentOf(m, i)))
  {
    var e := ImageEntries(m);
    var b := [(CapsuleIdKey, Number(id))] + e;
    assert forall j | 0 <= j < |e| :: b[1 + j] == e[j];
    b
  }

  /** Each image followed by its comment (`''` when it has none). */
  function ImageEntries(m: Modal): (e: seq<(UploadKey, UploadValue)>)
    ensures |e| == 2 * |m.images|
    ensures forall i | 0 <= i < |m.images| ::
      e[2 * i] == (ImageAt(i), Blob(m.images[i])) && e[2 * i + 1] == (CommentAt(i), Text(CommentOf(m, i)))
  {
    var e := seq(2 * |m.images|, j requires 0 <= j < 2 * |m.images| =>
      if j % 2 == 0 then (ImageAt(j / 2), Blob(m.images[j / 2]))
      else (CommentAt(j / 2), Text(CommentOf(m, j / 2))));
    assert forall i | 0 <= i < |m.images| :: (2 * i) % 2 == 0 && (2 * i) / 2 == i && (2 * i + 1) % 2 == 1 && (2 * i + 1) / 2 == i;
    e
  }

  /** `errorData.message || fallback`. */
  function MessageOr(reply: Reply, fallback: string): string {
    if reply.message != "" then reply.message else fallback
  }

  /** What a submission sends and how it ends. `completed` means the accept callback ran and the modal closed. */
  datatype Outcome = Outcome(modal: Modal, sent: seq<Request>, completed: bool)

  /**
   * `handleSubmit`: with no capsule id or no images nothing is sent and an
   * error is shown. Otherwise the share is marked accepted; if that fails,
   * or the upload after it fails, the error is shown and the share is put
   * back to pending. The modal is never left submitting.
   */
  function Submit(m: Modal, share: Share, status: Reply, upload: Reply): (o: Outcome)
    ensures o.modal.images == m.images && o.modal.comments == m.comments
    ensures o.modal.submitting == if o.sent == [] then m.submitting else false
    ensures share.capsuleId in {None, Some(0)} ==> o.sent == [] && o.modal.error == Some(InvalidCapsule) && !o.completed
    ensures share.capsuleId !in {None, Some(0)} && m.images == [] ==> o.sent == [] && o.modal.error == Some(NoImages) && !o.completed
    ensures o.completed <==> share.capsuleId !in {None, Some(0)} && m.images != [] && status.ok && upload.ok
    ensures o.completed ==> o.modal.error == None
    ensures share.capsuleId !in {None, Some(0)} && m.images != [] ==>
      var id := share.capsuleId.value;
      && |o.sent| >= 2
      && o.sent[0] == SetStatus(share.shareId, "accepted", id)
      && (status.ok ==> o.sent[1] == Upload(id, UploadBody(m, id)))
      && (!o.completed ==> o.sent[|o.sent| - 1] == SetStatus(share.shareId, "pending", id))
      && (!status.ok ==> |o.sent| == 2 && o.modal.error == Some(if status.message != "" then status.message else StatusFailed))
      && (status.ok && !upload.ok ==> |o.sent| == 3 && o.modal.error == Some(if upload.message != "" then upload.message else UploadFailed))
  {
    match share.capsuleId
    case None => Outcome(m.(error := Some(InvalidCapsule)), [], false)
    case Some(id) =>
      if id == 0 then Outcome(m.(error := Some(InvalidCapsule)), [], false)
      else if m.images == [] then Outcome(m.(error := Some(NoImages)), [], false)
      else
        var accept := SetStatus(share.shareId, "accepted", id);
        var revert := SetStatus(share.shareId, "pending", id);
        var running := m.(error := None, submitting := false);
        if !status.ok then
          Outcome(running.(error := Some(MessageOr(status, StatusFailed))), [accept, revert], false)
        else
          var up := Upload(id, UploadBody(m, id));
          if !upload.ok then
            Outcome(running.(error := Some(MessageOr(upload, UploadFailed))), [accept, up, revert], false)
          else
            Outcome(running, [accept, up], true)
  }

  /** The Save button is disabled while submitting or with no images. */
  predicate CanSubmit(m: Modal) {
    !m.submitting && m.images != []
  }

  /** Through the button, a submission with a valid capsule always reaches the server. */
  lemma ButtonAlwaysSends(m: Modal, share: Share, status: Reply, upload: Reply)
    requires CanSubmit(m) && share.capsuleId !in {None, Some(0)}
    ensures Submit(m, share, status, upload).sent != []
  {
  }

  /** Closing (`isOpen` false) clears images, comments and error, and the cleared state is consistent. */
  function Close(m: Modal): (r: Modal)
    ensures r.images == [] && r.comments == map[] && r.error == None
    ensures Keyed(r)
    ensures r.submitting == m.submitting
  {
    Closed.(submitting := m.submitting)
  }
}

=== FILE: capsule_creation.dfy ===
/**
 * The nine-step capsule-creation wizard: a step counter gated by the
 * per-step validator, a draft whose images are an ordered list of
 * (file, comment) pairs, a comment editor over one selected image, and the
 * final submission that flattens the draft into an index-paired payload.
 *
 * Every user action is an `Event`; `Available` says which events the page
 * renders a control for in a given state, and `Step` applies one event and
 * then the revalidation effect. The clock reading `now` and the server's
 * verdict on the submission are parameters.
 */
module CapsuleWizard {
  import opened Js
  import opened CapsuleDraft
  import CreationValidation

  const Steps: seq<string> := [
    "TITLE AND DESCRIPTION", "IMAGES", "TIME AND DATE", "IMAGE ADDONS", "VISION",
    "PRIVACY", "CAPSULE DESIGN", "PREVIEW", "SHARING"]

  /** The index of the sharing step, where the Save button replaces Next. */
  const LastStep: nat := |Steps| - 1

  const SubmitFailed: string := "Failed to create capsule. Please try again."

  datatype Wizard = Wizard(
    step: nat,
    form: Form,
    errors: Errors,
    selected: Option<nat>,     // the image whose comment is being edited
    comment: string,           // the comment editor's buffer
    attemptedNext: bool,
    saved: bool)               // the submission succeeded and the page navigated away

  /** The draft as the page first renders it, with the opening time set to the moment of opening. */
  function Initial(now: int): (w: Wizard)
    ensures w.step == 0 && w.errors == map[] && w.selected == None && !w.attemptedNext && !w.saved
    ensures w.form.images == [] && w.form.sharedWith == [] && w.form.time == Some(now)
    ensures w.form.privacy == "private" && w.form.design == "default"
  {
    Wizard(0, Form("", "", [], Some(now), "", "private", "default", []), map[], None, "", false, false)
  }

  /** What the page guarantees in every reachable state. */
  predicate Valid(w: Wizard) {
    && w.step <= LastStep
    && w.form.time.Some?
    && (w.selected.Some? ==> w.step == 3 && w.selected.value < |w.form.images|)
  }

  lemma InitialIsValid(now: int)
    ensures Valid(Initial(now))
  {
  }

  /** The step on which each text input is rendered. */
  function InputStep(f: TextField): nat {
    match f
    case Title => 0
    case Description => 0
    case Vision => 4
    case Privacy => 5
    case Design => 6
  }

  datatype Event =
    | Input(field: TextField, value: string)
    | SelectFiles(files: seq<File>)
    | Remove(index: nat)
    | PickDate(time: int)
    | Select(index: nat)
    | EditComment(text: string)
    | CancelComment
    | SaveComment
    | Share(ids: seq<int>)
    | Next
    | Previous
    | Save(accepted: bool)     // the server's answer to the submission

  /**
   * Whether the page offers a control that raises `e`. While the comment
   * editor is open it covers the page, so only its own controls are live.
   */
  predicate Available(w: Wizard, e: Event) {
    if w.saved then false
    else if w.selected.Some? then e.EditComment? || e.CancelComment? || e.SaveComment?
    else match e
      case Input(f, _) => w.step == InputStep(f)
      case SelectFiles(_) => w.step == 1
      case Remove(i) => w.step == 1 && i < |w.form.images|
      case PickDate(_) => w.step == 2
      case Select(i) => w.step == 3 && i < |w.form.images|
      case EditComment(_) => false
      case CancelComment => false
      case SaveComment => false
      case Share(_) => w.step == LastStep
      case Next => w.step < LastStep
      case Previous => w.step > 0
      case Save(_) => w.step == LastStep
  }

  // ---------------------------------------------------------------- images

  /** `items.join(sep)`. */
  function Join(items: seq<string>, sep: string): (r: string)
    ensures items == [] ==> r == ""
    ensures |items| == 1 ==> r == items[0]
    ensures |items| >= 1 ==> |r| >= |items[0]|
  {
    if items == [] then ""
    else if |items| == 1 then items[0]
    else items[0] + sep + Join(items[1..], sep)
  }

  /** Each further item is joined on with one separator. */
  lemma {:induction false} JoinAppend(items: seq<string>, x: string, sep: string)
    requires items != []
    ensures Join(items + [x], sep) == Join(items, sep) + sep + x
  {
    if |items| == 1 {
      assert (items + [x])[1..] == [x];
    } else {
      assert (items + [x])[1..] == items[1..] + [x];
      JoinAppend(items[1..], x, sep);
    }
  }

  /** The `name: message` line for each rejected file, in selection order. */
  function RejectionLines(files: seq<File>): (r: seq<string>)
    ensures r == [] <==> forall i | 0 <= i < |files| :: CreationValidation.ValidateFile(files[i]) == None
    ensures r != [] ==> |r[0]| >= 2
  {
    if files == [] then []
    else
      var rest := RejectionLines(files[1..]);
      assert forall i | 1 <= i < |files| :: files[i] == files[1..][i - 1];
      match CreationValidation.ValidateFile(files[0])
      case None => rest
      case Some(m) => [files[0].name + ": " + m] + rest
  }

  /** One line per failing file, in selection order: an appended file adds `name: message` at the end, or nothing. */
  lemma {:induction false} RejectionLinesAppend(files: seq<File>, f: File)
    ensures RejectionLines(files + [f]) == RejectionLines(files) +
      (match CreationValidation.ValidateFile(f) case None => [] case Some(m) => [f.name + ": " + m])
  {
    if files == [] {
      assert [f][1..] == [];
    } else {
      assert (files + [f])[1..] == files[1..] + [f];
      RejectionLinesAppend(files[1..], f);
    }
  }

  /**
   * `handleImageSelection`: if any file is rejected, `images` reports every
   * rejection and the draft is untouched; otherwise every file is appended
   * in order with an empty comment and the errors are cleared.
   */
  function SelectImages(w: Wizard, files: seq<File>): (r: Wizard)
    ensures r.step == w.step && r.selected == w.selected && r.attemptedNext == w.attemptedNext
    ensures (exists i | 0 <= i < |files| :: CreationValidation.ValidateFile(files[i]).Some?) ==>
      && r.form == w.form
      && r.errors.Keys == {Images}
      && r.errors[Images] == Join(RejectionLines(files), ", ")
      && r.errors[Images] != ""
    ensures (forall i | 0 <= i < |files| :: CreationValidation.ValidateFile(files[i]) == None) ==>
      && r.errors == map[]
      && |r.form.images| == |w.form.images| + |files|
      && r.form.images[..|w.form.images|] == w.form.images
      && (forall i | 0 <= i < |files| :: r.form.images[|w.form.images| + i] == ImageEntry(files[i], ""))
      && r.form == w.form.(images := r.form.images)
  {
    var lines := RejectionLines(files);
    if lines != [] then
      w.(errors := map[Images := Join(lines, ", ")])
    else
      var added := seq(|files|, i requires 0 <= i < |files| => ImageEntry(files[i], ""));
      w.(form := w.form.(images := w.form.images + added), errors := map[])
  }

  /** `removeImage(i)`: exactly entry i disappears; the others keep their order and comments. */
  function RemoveImage(w: Wizard, i: nat): (r: Wizard)
    requires i < |w.form.images|
    ensures |r.form.images| == |w.form.images| - 1
    ensures forall j | 0 <= j < i :: r.form.images[j] == w.form.images[j]
    ensures forall j | i < j < |w.form.images| :: r.form.images[j - 1] == w.form.images[j]
    ensures r.form == w.form.(images := r.form.images)
    ensures r == w.(form := r.form)
  {
    w.(form := w.form.(images := w.form.images[..i] + w.form.images[i + 1..]))
  }

  /** `selectImage(i)`: open the editor on image i, preloaded with its comment. */
  function SelectImage(w: Wizard, i: nat): (r: Wizard)
    requires i < |w.form.images|
    ensures r.selected == Some(i) && r.comment == w.form.images[i].comment
    ensures r.form == w.form && r.step == w.step
  {
    w.(selected := Some(i), comment := w.form.images[i].comment)
  }

  /** `saveImageComment`: only the selected entry's comment changes; the editor then closes and empties. */
  function SaveImageComment(w: Wizard): (r: Wizard)
    ensures w.selected == None ==> r == w
    ensures w.selected.Some? ==>
      && r.selected == None && r.comment == ""
      && |r.form.images| == |w.form.images|
      && (forall j | 0 <= j < |w.form.images| && j != w.selected.value :: r.form.images[j] == w.form.images[j])
      && (w.selected.value < |w.form.images| ==>
            r.form.images[w.selected.value] == w.form.images[w.selected.value].(comment := w.comment))
      && r.form == w.form.(images := r.form.images)
      && r.step == w.step && r.errors == w.errors
  {
    match w.selected
    case None => w
    case Some(s) =>
      var images := seq(|w.form.images|, j requires 0 <= j < |w.form.images| =>
        if j == s then w.form.images[j].(comment := w.comment) else w.form.images[j]);
      w.(form := w.form.(images := images), selected := None, comment := "")
  }

  // ----------------------------------------------------------- navigation

  /**
   * `handleNextStep`: the current step's errors are shown; the step
   * advances by exactly one iff there are none.
   */
  function NextStep(w: Wizard, now: int): (r: Wizard)
    ensures r.form == w.form && r.selected == w.selected
    ensures r.errors == CreationValidation.ValidateStep(w.step, w.form, now)
    ensures r.step == if r.errors == map[] then w.step + 1 else w.step
    ensures r.attemptedNext <==> r.errors != map[]
  {
    var errors := CreationValidation.ValidateStep(w.step, w.form, now);
    if errors == map[] then w.(step := w.step + 1, errors := errors, attemptedNext := false)
    else w.(errors := errors, attemptedNext := true)
  }

  /** `handlePrevStep`: back one step, never below the first; the draft is untouched. */
  function PrevStep(w: Wizard): (r: Wizard)
    ensures r.form == w.form && r.errors == w.errors
    ensures w.step > 0 ==> r.step == w.step - 1 && !r.attemptedNext
    ensures w.step == 0 ==> r == w
  {
    if w.step > 0 then w.(step := w.step - 1, attemptedNext := false) else w
  }

  // --------------------------------------------------------------- payload

  /** A multipart field name: `shared_with[i]`, `images[i]`, `image_comments[i]` or a plain name. */
  datatype PayloadKey = SharedWith(i: nat) | ImageAt(i: nat) | CommentAt(i: nat) | Scalar(name: ScalarName)

  /** The six plain field names of the payload. */
  datatype ScalarName = TitleKey | DescriptionKey | TimeKey | VisionKey | PrivacyKey | DesignKey

  /** A multipart value: a user id, an uploaded file, text, or the opening time (sent as an ISO string). */
  datatype PayloadValue = Id(id: int) | Blob(file: File) | Text(text: string) | Moment(ms: int)

  type Payload = seq<(PayloadKey, PayloadValue)>

  function KeyName(k: PayloadKey): string {
    match k
    case SharedWith(i) => "shared_with[" + NatToString(i) + "]"
    case ImageAt(i) => "images[" + NatToString(i) + "]"
    case CommentAt(i) => "image_comments[" + NatToString(i) + "]"
    case Scalar(name) => ScalarText(name)
  }

  function ScalarText(name: ScalarName): string {
    match name
    case TitleKey => "title"
    case DescriptionKey => "description"
    case TimeKey => "time"
    case VisionKey => "vision"
    case PrivacyKey => "privacy"
    case DesignKey => "design"
  }

  function SharedPart(ids: seq<int>): (p: Payload)
    ensures |p| == |ids|
    ensures forall i | 0 <= i < |ids| :: p[i] == (SharedWith(i), Id(ids[i]))
  {
    seq(|ids|, i requires 0 <= i < |ids| => (SharedWith(i), Id(ids[i])))
  }

  function ImagePart(images: seq<ImageEntry>): (p: Payload)
    ensures |p| == 2 * |images|
    ensures forall i | 0 <= i < |images| ::
      p[2 * i] == (ImageAt(i), Blob(images[i].file)) && p[2 * i + 1] == (CommentAt(i), Text(images[i].comment))
    ensures forall j | 0 <= j < |p| ::
      || (p[j].0.ImageAt? && 2 * p[j].0.i == j)
      || (p[j].0.CommentAt? && 2 * p[j].0.i + 1 == j)
  {
    seq(2 * |images|, j requires 0 <= j < 2 * |images| =>
      if j % 2 == 0 then (ImageAt(j / 2), Blob(images[j / 2].file))
      else (CommentAt(j / 2), Text(images[j / 2].comment)))
  }

  /** `formData.get(key)`: the first value appended under `key`. */
  function Lookup(p: Payload, k: PayloadKey): (r: Option<PayloadValue>)
    ensures r == None <==> forall j | 0 <= j < |p| :: p[j].0 != k
  {
    if p == [] then None
    else if p[0].0 == k then Some(p[0].1)
    else
      assert forall j | 1 <= j < |p| :: p[j] == p[1..][j - 1];
      Lookup(p[1..], k)
  }

  /** A key that first occurs at position i is looked up to the value stored there. */
  lemma {:induction false} LookupFirst(p: Payload, k: PayloadKey, i: nat)
    requires i < |p| && p[i].0 == k
    requires forall j | 0 <= j < i :: p[j].0 != k
    ensures Lookup(p, k) == Some(p[i].1)
    decreases i
  {
    if i > 0 {
      LookupFirst(p[1..], k, i - 1);
    }
  }

  /** Parts appended after a key's first occurrence do not change what it looks up to. */
  lemma {:induction false} LookupPrefix(a: Payload, b: Payload, k: PayloadKey)
    requires Lookup(a, k).Some?
    ensures Lookup(a + b, k) == Lookup(a, k)
  {
    if a[0].0 != k {
      assert (a + b)[1..] == a[1..] + b;
      LookupPrefix(a[1..], b, k);
    }
  }

  /** Parts without the key, appended before it, do not change what it looks up to. */
  lemma {:induction false} LookupSkip(a: Payload, b: Payload, k: PayloadKey)
    requires forall j | 0 <= j < |a| :: a[j].0 != k
    ensures Lookup(a + b, k) == Lookup(b, k)
  {
    if a == [] {
      assert a + b == b;
    } else {
      assert (a + b)[0] == a[0];
      assert (a + b)[1..] == a[1..] + b;
      assert forall j | 0 <= j < |a| - 1 :: a[1..][j] == a[j + 1];
      LookupSkip(a[1..], b, k);
    }
  }

  /** The position of each plain field among the six, in the order `createCapsule` appends them. */
  function ScalarIndex(name: ScalarName): (r: nat)
    ensures r < 6
  {
    match name
    case TitleKey => 0
    case DescriptionKey => 1
    case TimeKey => 2
    case VisionKey => 3
    case PrivacyKey => 4
    case DesignKey => 5
  }

  /** The draft value each plain field carries. */
  function ScalarValue(f: Form, name: ScalarName): PayloadValue
    requires f.time.Some?
  {
    match name
    case TitleKey => Text(f.title)
    case DescriptionKey => Text(f.description)
    case TimeKey => Moment(f.time.value)
    case VisionKey => Text(f.vision)
    case PrivacyKey => Text(f.privacy)
    case DesignKey => Text(f.design)
  }

  /** The six scalar fields, in the order `createCapsule` appends them. */
  function ScalarPart(f: Form): (p: Payload)
    requires f.time.Some?
    ensures |p| == 6
    ensures forall j | 0 <= j < 6 :: p[j].0.Scalar? && ScalarIndex(p[j].0.name) == j
    ensures forall j | 0 <= j < 6 :: p[j].1 == ScalarValue(f, p[j].0.name)
  {
    [(Scalar(TitleKey), Text(f.title)),
     (Scalar(DescriptionKey), Text(f.description)),
     (Scalar(TimeKey), Moment(f.time.value)),
     (Scalar(VisionKey), Text(f.vision)),
     (Scalar(PrivacyKey), Text(f.privacy)),
     (Scalar(DesignKey), Text(f.design))]
  }

  /**
   * The payload `createCapsule` assembles: the shared ids, then each image
   * followed by its comment, then the six scalar fields.
   */
  function BuildPayload(f: Form): (p: Payload)
    requires f.time.Some?
    ensures |p| == |f.sharedWith| + 2 * |f.images| + 6
  {
    SharedPart(f.sharedWith) + ImagePart(f.images) + ScalarPart(f)
  }

  /** Looking up an image or comment key in the payload is looking it up among the images. */
  lemma {:induction false} ImageKeyLookup(f: Form, k: PayloadKey)
    requires f.time.Some? && (k.ImageAt? || k.CommentAt?)
    ensures Lookup(BuildPayload(f), k) == Lookup(ImagePart(f.images), k)
  {
    var sp := SharedPart(f.sharedWith);
    var ip := ImagePart(f.images);
    var cp := ScalarPart(f);
    LookupSkip(sp, ip + cp, k);
    assert sp + ip + cp == sp + (ip + cp);
    if Lookup(ip, k).Some? {
      LookupPrefix(ip, cp, k);
    } else {
      LookupSkip(ip, cp, k);
      assert Lookup(cp, k) == None;
    }
  }

  /** Image i is recovered from the payload. */
  lemma {:induction false} PayloadCarriesImage(f: Form, i: nat)
    requires f.time.Some? && i < |f.images|
    ensures Lookup(BuildPayload(f), ImageAt(i)) == Some(Blob(f.images[i].file))
  {
    var ip := ImagePart(f.images);
    assert ip[2 * i] == (ImageAt(i), Blob(f.images[i].file));
    LookupFirst(ip, ImageAt(i), 2 * i);
    ImageKeyLookup(f, ImageAt(i));
  }

  /** No image key lies past the last image. */
  lemma {:induction false} PayloadHasNoExtraImage(f: Form)
    requires f.time.Some?
    ensures Lookup(BuildPayload(f), ImageAt(|f.images|)) == None
  {
    var ip := ImagePart(f.images);
    assert forall j | 0 <= j < |ip| :: ip[j].0 != ImageAt(|f.images|);
    ImageKeyLookup(f, ImageAt(|f.images|));
  }

  /** The comment recovered for index i is the comment of image i: the two stay paired. */
  lemma {:induction false} PayloadPairsComment(f: Form, i: nat)
    requires f.time.Some? && i < |f.images|
    ensures Lookup(BuildPayload(f), CommentAt(i)) == Some(Text(f.images[i].comment))
  {
    var ip := ImagePart(f.images);
    assert ip[2 * i + 1] == (CommentAt(i), Text(f.images[i].comment));
    LookupFirst(ip, CommentAt(i), 2 * i + 1);
    ImageKeyLookup(f, CommentAt(i));
  }

  /** Entry i of the share list is recovered from the payload, and no entry lies past its end. */
  lemma {:induction false} SharedKeyLookup(f: Form, i: nat)
    requires f.time.Some?
    ensures Lookup(BuildPayload(f), SharedWith(i)) == (if i < |f.sharedWith| then Some(Id(f.sharedWith[i])) else None)
  {
    var sp := SharedPart(f.sharedWith);
    var ip := ImagePart(f.images);
    var cp := ScalarPart(f);
    assert sp + ip + cp == sp + (ip + cp);
    if i < |f.sharedWith| {
      LookupFirst(sp, SharedWith(i), i);
      LookupPrefix(sp, ip + cp, SharedWith(i));
    } else {
      LookupSkip(sp, ip + cp, SharedWith(i));
      assert forall j | 0 <= j < |ip| :: !ip[j].0.SharedWith?;
      LookupSkip(ip, cp, SharedWith(i));
      assert Lookup(cp, SharedWith(i)) == None;
    }
  }

  /** Looking up a scalar key in the payload is looking it up among the six scalar fields. */
  lemma {:induction false} ScalarKeyLookup(f: Form, name: ScalarName)
    requires f.time.Some?
    ensures Lookup(BuildPayload(f), Scalar(name)) == Lookup(ScalarPart(f), Scalar(name))
  {
    var sp := SharedPart(f.sharedWith);
    var ip := ImagePart(f.images);
    var cp := ScalarPart(f);
    assert forall j | 0 <= j < |ip| :: !ip[j].0.Scalar?;
    LookupSkip(sp, ip + cp, Scalar(name));
    LookupSkip(ip, cp, Scalar(name));
    assert sp + ip + cp == sp + (ip + cp);
  }

  /** Every scalar field is recovered from the payload as it stood in the draft. */
  lemma {:induction false} PayloadCarriesScalars(f: Form, name: ScalarName)
    requires f.time.Some?
    ensures Lookup(BuildPayload(f), Scalar(name)) == Some(ScalarValue(f, name))
  {
    var cp := ScalarPart(f);
    var i := ScalarIndex(name);
    assert cp[i].0 == Scalar(name);
    ScalarKeyLookup(f, name);
    LookupFirst(cp, Scalar(name), i);
  }

  /**
   * `createCapsule`: the current step is validated again; on failure its
   * errors are shown and nothing is sent. Otherwise the payload is sent, and
   * `accepted` is the server's answer: success leaves the page, failure
   * shows only the submit error.
   */
  function CreateCapsule(w: Wizard, now: int, accepted: bool): (r: (Wizard, Option<Payload>))
    requires w.form.time.Some?
    ensures r.0.form == w.form && r.0.step == w.step
    ensures r.1 == None <==> CreationValidation.ValidateStep(w.step, w.form, now) != map[]
    ensures r.1 == None ==> r.0.errors == CreationValidation.ValidateStep(w.step, w.form, now) && r.0.saved == w.saved
    ensures r.1.Some? ==> r.1.value == BuildPayload(w.form)
    ensures r.1.Some? && accepted ==> r.0.saved && r.0.errors == w.errors
    ensures r.1.Some? && !accepted ==> r.0.errors == map[Submit := SubmitFailed] && r.0.saved == w.saved
  {
    var errors := CreationValidation.ValidateStep(w.step, w.form, now);
    if errors != map[] then (w.(errors := errors), None)
    else if accepted then (w.(saved := true), Some(BuildPayload(w.form)))
    else (w.(errors := map[Submit := SubmitFailed]), Some(BuildPayload(w.form)))
  }

  /** At the sharing step the submit-time check is vacuous: an opening time already past is still sent. */
  lemma SubmitCheckIsVacuous(w: Wizard, now: int, accepted: bool)
    requires w.step == LastStep && w.form.time.Some?
    ensures CreateCapsule(w, now, accepted).1 == Some(BuildPayload(w.form))
  {
  }

  // ----------------------------------------------------------- transitions

  /** The handler each event invokes; an event the page does not offer changes nothing. */
  function Apply(w: Wizard, e: Event, now: int): (r: Wizard)
    requires Valid(w)
    ensures Valid(r)
    ensures e.Next? && Available(w, e) ==>
      r.step == if CreationValidation.ValidateStep(w.step, w.form, now) == map[] then w.step + 1 else w.step
    ensures e.Previous? && Available(w, e) ==> r.step == w.step - 1 && r.form == w.form
    ensures !Available(w, e) ==> r == w
  {
    if !Available(w, e) then w
    else match e
      case Input(f, v) => w.(form := SetField(w.form, f, v))
      case SelectFiles(files) => SelectImages(w, files)
      case Remove(i) => RemoveImage(w, i)
      case PickDate(t) => w.(form := w.form.(time := Some(t)))
      case Select(i) => SelectImage(w, i)
      case EditComment(c) => w.(comment := c)
      case CancelComment => w.(selected := None, comment := "")
      case SaveComment => SaveImageComment(w)
      case Share(ids) => w.(form := w.form.(sharedWith := ids))
      case Next => NextStep(w, now)
      case Previous => PrevStep(w)
      case Save(ok) => CreateCapsule(w, now, ok).0
  }

  /**
   * Whether the event's handler calls `setFormData`. Each such call builds a
   * new draft object, so the revalidation effect runs again even when the
   * new draft equals the old one. A selection with a rejected file returns
   * before the call; selecting an image, editing or cancelling a comment,
   * and the step buttons never make it.
   */
  predicate WritesDraft(w: Wizard, e: Event) {
    Available(w, e) &&
    match e
      case Input(_, _) => true
      case SelectFiles(files) => RejectionLines(files) == []
      case Remove(_) => true
      case PickDate(_) => true
      case SaveComment => true
      case Share(_) => true
      case _ => false
  }

  /**
   * The revalidation effect: once Next has been tried and failed, a new
   * draft object, a new step or a new flag recomputes the step's errors;
   * otherwise the errors are left as the handler set them.
   */
  function Settle(before: Wizard, after: Wizard, wrote: bool, now: int): (r: Wizard)
    ensures r == after.(errors := r.errors)
    ensures after.attemptedNext && (wrote || after.step != before.step || after.attemptedNext != before.attemptedNext) ==>
      r.errors == CreationValidation.ValidateStep(after.step, after.form, now)
    ensures !(after.attemptedNext && (wrote || after.step != before.step || after.attemptedNext != before.attemptedNext)) ==>
      r == after
  {
    if after.attemptedNext && (wrote || after.step != before.step || after.attemptedNext != before.attemptedNext)
    then after.(errors := CreationValidation.ValidateStep(after.step, after.form, now))
    else after
  }

  /** Only a handler that writes the draft changes it: every other event leaves the draft's value alone. */
  lemma ChangedDraftWasWritten(w: Wizard, e: Event, now: int)
    requires Valid(w)
    ensures Apply(w, e, now).form != w.form ==> WritesDraft(w, e)
  {
  }

  /** One event followed by the effect it triggers. */
  function Step(w: Wizard, e: Event, now: int): (r: Wizard)
    requires Valid(w)
    ensures Valid(r)
    ensures e.Next? && Available(w, e) ==>
      r.step == if CreationValidation.ValidateStep(w.step, w.form, now) == map[] then w.step + 1 else w.step
    ensures e.Previous? && Available(w, e) ==> r.step == w.step - 1 && r.form == w.form
    ensures !Available(w, e) ==> r == w
  {
    Settle(w, Apply(w, e, now), WritesDraft(w, e), now)
  }

  /** A handler that writes the draft keeps the flag, so after a failed Next its write always re-validates. */
  lemma WrittenDraftIsRevalidated(w: Wizard, e: Event, now: int)
    requires Valid(w) && w.attemptedNext && WritesDraft(w, e)
    ensures var r := Step(w, e, now);
      r.errors == CreationValidation.ValidateStep(r.step, r.form, now)
  {
  }

  /**
   * After a failed Next on the image step, an empty selection clears the
   * errors in its handler, but the draft it writes re-runs the effect, so
   * the missing-image error comes straight back.
   */
  lemma EmptySelectionKeepsImageError(w: Wizard, now: int)
    requires Valid(w) && w.step == 1 && w.attemptedNext && w.form.images == [] && !w.saved
    ensures Step(w, SelectFiles([]), now).errors == map[Images := CreationValidation.ImagesRequired]
  {
    assert RejectionLines([]) == [];
    assert WritesDraft(w, SelectFiles([]));
    var a := Apply(w, SelectFiles([]), now);
    assert a.form.images == [] && a.step == 1;
  }

  /** A run of events, each paired with the clock reading at which it happens. */
  function Run(w: Wizard, events: seq<(Event, int)>): (r: Wizard)
    requires Valid(w)
    decreases |events|
  {
    if events == [] then w else Run(Step(w, events[0].0, events[0].1), events[1..])
  }

  /** Whatever the user does, the step stays within the nine steps and the draft always has an opening time. */
  lemma {:induction false} RunStaysValid(w: Wizard, events: seq<(Event, int)>)
    requires Valid(w)
    ensures Valid(Run(w, events))
    ensures Run(w, events).step <= LastStep
    decreases |events|
  {
    if events != [] {
      RunStaysValid(Step(w, events[0].0, events[0].1), events[1..]);
    }
  }

  /** Without the Next button's gate the counter would leave the step list: step 8 has nothing to reject. */
  lemma UngatedNextOverruns(w: Wizard, now: int)
    requires w.step == LastStep
    ensures NextStep(w, now).step == |Steps|
  {
  }

  /** The wizard's initial design sentinel passes the design step. */
  lemma DefaultDesignPasses(now: int, f: Form)
    requires f.design == Initial(now).form.design
    ensures CreationValidation.ValidateStep(6, f, now) == map[]
  {
  }
}

=== FILE: capsule_creation_validation.dfy ===
/**
 * The per-step validator of the capsule-creation wizard and its file
 * validator. Each step checks only the fields shown on that step; the
 * current time is a parameter, so "in the future" is decided against the
 * `now` the caller passes at each call.
 */
module CreationValidation {
  import opened Js
  import opened CapsuleDraft

  const TitleRequired: string := "Title is required"
  const TitleTooLong: string := "Title must be less than 255 characters"
  const DescriptionRequired: string := "Description is required"
  const ImagesRequired: string := "At least one image is required"
  const TimeRequired: string := "Opening time is required"
  const TimeNotFuture: string := "Opening time must be in the future"
  const VisionRequired: string := "Vision is required"
  const PrivacyRequired: string := "Please select a privacy setting"
  const DesignRequired: string := "Please select a capsule design"

  /** The longest title, in UTF-16 code units, that passes. */
  const MaxTitleLength: nat := 255

  /** The fields each step is responsible for; steps 3, 7, 8 own none. */
  function StepFields(step: int): set<Field> {
    if step == 0 then {Title, Description}
    else if step == 1 then {Images}
    else if step == 2 then {Time}
    else if step == 4 then {Vision}
    else if step == 5 then {Privacy}
    else if step == 6 then {Design}
    else {}
  }

  function TitleErrors(title: string): (r: Errors)
    ensures r.Keys <= {Title}
    ensures Title in r <==> Blank(title) || Utf16Length(title) > MaxTitleLength
    ensures Title in r ==> r[Title] == if Blank(title) then TitleRequired else TitleTooLong
  {
    if Trim(title) == "" then map[Title := TitleRequired]
    else if Utf16Length(title) > MaxTitleLength then map[Title := TitleTooLong]
    else map[]
  }

  /** The bound counts code units: 128 characters above U+FFFF make a title of 256 units, which is too long. */
  lemma WideTitleIsTooLong(title: string)
    requires |title| == 128 && forall i | 0 <= i < |title| :: title[i] == '\U{1F600}'
    ensures TitleErrors(title) == map[Title := TitleTooLong]
  {
    Utf16LengthCounts(title);
    assert !IsSpace(title[0]);
  }

  /** A check that `value.trim()` is non-empty, reporting `message` under `key` otherwise. */
  function RequiredText(key: Field, value: string, message: string): (r: Errors)
    ensures r.Keys <= {key}
    ensures key in r <==> Blank(value)
    ensures key in r ==> r[key] == message
  {
    if Trim(value) == "" then map[key := message] else map[]
  }

  function TimeErrors(time: Option<int>, now: int): (r: Errors)
    ensures r.Keys <= {Time}
    ensures Time in r <==> time == None || time.value <= now
    ensures Time in r ==> r[Time] == if time == None then TimeRequired else TimeNotFuture
  {
    match time
    case None => map[Time := TimeRequired]
    case Some(t) => if t <= now then map[Time := TimeNotFuture] else map[]
  }

  /** `validateStep(step, formData)` with the clock read once as `now`. */
  function ValidateStep(step: int, f: Form, now: int): (r: Errors)
    ensures r.Keys <= StepFields(step)
    ensures step == 0 ==>
      && (Title in r <==> Blank(f.title) || Utf16Length(f.title) > MaxTitleLength)
      && (Title in r ==> r[Title] == if Blank(f.title) then TitleRequired else TitleTooLong)
      && (Description in r <==> Blank(f.description))
      && (Description in r ==> r[Description] == DescriptionRequired)
    ensures step == 1 ==> (Images in r <==> f.images == []) && (Images in r ==> r[Images] == ImagesRequired)
    ensures step == 2 ==>
      && (Time in r <==> f.time == None || f.time.value <= now)
      && (Time in r ==> r[Time] == if f.time == None then TimeRequired else TimeNotFuture)
    ensures step == 4 ==> (Vision in r <==> Blank(f.vision)) && (Vision in r ==> r[Vision] == VisionRequired)
    ensures step == 5 ==> (Privacy in r <==> f.privacy !in PrivacyValues) && (Privacy in r ==> r[Privacy] == PrivacyRequired)
    ensures step == 6 ==> (Design in r <==> f.design == "") && (Design in r ==> r[Design] == DesignRequired)
  {
    if step == 0 then
      TitleDescriptionErrors(f)
    else if step == 1 then
      if |f.images| == 0 then map[Images := ImagesRequired] else map[]
    else if step == 2 then
      TimeErrors(f.time, now)
    else if step == 4 then
      RequiredText(Vision, f.vision, VisionRequired)
    else if step == 5 then
      if f.privacy == "" || f.privacy !in PrivacyValues then map[Privacy := PrivacyRequired] else map[]
    else if step == 6 then
      if f.design == "" then map[Design := DesignRequired] else map[]
    else
      map[]
  }

  function TitleDescriptionErrors(f: Form): (r: Errors)
    ensures r.Keys <= {Title, Description}
    ensures Title in r <==> Blank(f.title) || Utf16Length(f.title) > MaxTitleLength
    ensures Title in r ==> r[Title] == if Blank(f.title) then TitleRequired else TitleTooLong
    ensures Description in r <==> Blank(f.description)
    ensures Description in r ==> r[Description] == DescriptionRequired
  {
      var t := TitleErrors(f.title);
      var d := RequiredText(Description, f.description, DescriptionRequired);
      assert Title !in d;
      t + d
  }

  /** A step with no fields of its own always passes, whatever the form holds. */
  lemma FieldlessStepsPass(step: int, f: Form, now: int)
    requires StepFields(step) == {}
    ensures ValidateStep(step, f, now) == map[]
  {
  }

  /** Whether step `step` passes depends only on the fields it owns. */
  lemma {:induction false} StepDependsOnlyOnItsFields(step: int, f: Form, g: Form, now: int)
    requires step == 0 ==> f.title == g.title && f.description == g.description
    requires step == 1 ==> f.images == g.images
    requires step == 2 ==> f.time == g.time
    requires step == 4 ==> f.vision == g.vision
    requires step == 5 ==> f.privacy == g.privacy
    requires step == 6 ==> f.design == g.design
    ensures ValidateStep(step, f, now) == ValidateStep(step, g, now)
  {
  }

  /** A time that passes at one instant still fails once the clock has reached it. */
  lemma TimeCheckIsNotCached(f: Form, earlier: int, later: int)
    requires f.time.Some? && earlier < f.time.value <= later
    ensures ValidateStep(2, f, earlier) == map[]
    ensures ValidateStep(2, f, later) == map[Time := TimeNotFuture]
  {
  }

  /** `validateFile(file)`: the type is checked before the size; null (None) means acceptable. */
  function ValidateFile(file: File): (r: Option<string>)
    ensures r == None <==> file.mime in AllowedTypes && file.size <= MaxFileSize
    ensures file.mime !in AllowedTypes ==> r == Some(TypeMessage)
    ensures file.mime in AllowedTypes && file.size > MaxFileSize ==> r == Some(SizeMessage)
  {
    if file.mime !in AllowedTypes then Some(TypeMessage)
    else if file.size > MaxFileSize then Some(SizeMessage)
    else None
  }
}

=== FILE: capsule_design_selector.dfy ===
/**
 * The design picker of the capsule wizard: four cards, each with its own
 * id; a click reports a change of the form's `design` field, and the card
 * whose id equals the current value is the one drawn as selected.
 */
module DesignSelector {
  import opened Js
  import opened CapsuleDraft
  import CapsuleWizard
  import CreationValidation
  import ProfileCapsuleGrid

  /** The cards' ids, in the order they are drawn. */
  const DesignIds: seq<string> := ["heritage", "chronicle", "legacy", "vault"]

  /** The change event a card click reports: the input name and the value. */
  datatype Change = Change(name: string, value: string)

  /** A click on card `i`. */
  function Click(i: nat): (r: Change)
    requires i < |DesignIds|
    ensures r.name == Name(Design) && r.value in DesignIds
  {
    Change("design", DesignIds[i])
  }

  /** Card `i` carries the ring and the dot when the value is its id. */
  predicate Marked(value: string, i: nat)
    requires i < |DesignIds|
  {
    value == DesignIds[i]
  }

  /** The ids are pairwise distinct, so at most one card is ever marked. */
  lemma AtMostOneMarked(value: string, i: nat, j: nat)
    requires i < |DesignIds| && j < |DesignIds|
    requires Marked(value, i) && Marked(value, j)
    ensures i == j
  {
  }

  /** After a click on card `i`, the form's handler writes its id and exactly that card is marked. */
  lemma ClickMarksThatCard(form: Form, i: nat, j: nat)
    requires i < |DesignIds| && j < |DesignIds|
    ensures var f := SetField(form, Design, Click(i).value);
      (Marked(f.design, j) <==> j == i) && CreationValidation.ValidateStep(6, f, 0) == map[]
  {
  }

  /** The wizard starts from "default", which marks no card and yet already passes the design step. */
  lemma DefaultMarksNothing(now: int, j: nat)
    requires j < |DesignIds|
    ensures !Marked(CapsuleWizard.Initial(now).form.design, j)
    ensures CreationValidation.ValidateStep(6, CapsuleWizard.Initial(now).form, now) == map[]
  {
    CapsuleWizard.DefaultDesignPasses(now, CapsuleWizard.Initial(now).form);
  }

  /** Every id the picker can write names a theme of the profile grid, and that theme's id is the card's. */
  lemma {:induction false} PickedDesignHasTheme(i: nat)
    requires i < |DesignIds|
    ensures ProfileCapsuleGrid.ThemeId(ProfileCapsuleGrid.ThemeOf(Some(DesignIds[i]))) == DesignIds[i]
  {
    if i == 0 {
      ProfileCapsuleGrid.ThemeIdsRoundTrip(ProfileCapsuleGrid.Heritage);
    }
  }
}

=== FILE: capsule_draft.dfy ===
/**
 * The capsule form record shared by the step validator, the whole-form
 * validator hook and the creation wizard, with the field-by-field update
 * that every text input's change handler performs.
 *
 * An absent string field is modelled as the empty string: every validator
 * treats `undefined` and `''` alike (both are falsy and both fail the
 * trimmed test). The opening time is optional because its absence yields
 * a different message from a time in the past.
 */
module CapsuleDraft {
  import opened Js

  /** One chosen image and the comment written for it. */
  datatype ImageEntry = ImageEntry(file: File, comment: string)

  datatype Form = Form(
    title: string,
    description: string,
    images: seq<ImageEntry>,
    time: Option<int>,         // opening time, milliseconds since the epoch
    vision: string,
    privacy: string,
    design: string,
    sharedWith: seq<int>)

  /** The keys of a capsule error object; `Name` gives each key's JavaScript spelling. */
  datatype Field = Title | Description | Images | Time | Vision | Privacy | Design | Submit | Files

  function Name(k: Field): string {
    match k
    case Title => "title"
    case Description => "description"
    case Images => "images"
    case Time => "time"
    case Vision => "vision"
    case Privacy => "privacy"
    case Design => "design"
    case Submit => "submit"
    case Files => "files"
  }

  /** The named text inputs whose change events write a string field. */
  type TextField = k: Field | k.Title? || k.Description? || k.Vision? || k.Privacy? || k.Design? witness Title

  /** A capsule error object: field key to message. */
  type Errors = map<Field, string>

  function Get(form: Form, f: TextField): string {
    match f
    case Title => form.title
    case Description => form.description
    case Vision => form.vision
    case Privacy => form.privacy
    case Design => form.design
  }

  /** `{...form, [name]: value}`: the named field is replaced and nothing else changes. */
  function SetField(form: Form, f: TextField, value: string): (r: Form)
    ensures Get(r, f) == value
    ensures forall g: TextField :: g != f ==> Get(r, g) == Get(form, g)
    ensures r.images == form.images && r.time == form.time && r.sharedWith == form.sharedWith
  {
    match f
    case Title => form.(title := value)
    case Description => form.(description := value)
    case Vision => form.(vision := value)
    case Privacy => form.(privacy := value)
    case Design => form.(design := value)
  }

  /** Writing the same value twice is the same as writing it once. */
  lemma SetFieldIdempotent(form: Form, f: TextField, value: string)
    ensures SetField(SetField(form, f, value), f, value) == SetField(form, f, value)
  {
  }

  /** Writing a field with the value it already holds changes nothing. */
  lemma {:induction false} SetFieldUnchanged(form: Form, f: TextField)
    ensures SetField(form, f, Get(form, f)) == form
  {
    match f
    case Title =>
    case Description =>
    case Vision =>
    case Privacy =>
    case Design =>
  }

  /** The four MIME types accepted by both capsule validators, with the extensions shown to the user. */
  const AllowedTypes: seq<string> := ["image/jpeg", "image/png", "image/gif", "video/mp4"]
  const AllowedExtensions: seq<string> := [".jpg", ".jpeg", ".png", ".gif", ".mp4"]

  /** 65536 KiB, that is 64 MiB. */
  const MaxFileSize: nat := 65536 * 1024

  const TypeMessage: string := "File type not supported. Allowed types: .jpg, .jpeg, .png, .gif, .mp4"
  const SizeMessage: string := "File size must be less than 64MB"

  /** The three privacy values the validators accept. */
  const PrivacyValues: seq<string> := ["private", "friends", "public"]
}

=== FILE: capsule_sharing.dfy ===
/**
 * The sharing step of the wizard: the list of accepted friends offered for
 * sharing, and the selection of friend ids that each click toggles.
 */
module CapsuleSharing {

  datatype Friend = Friend(id: int, name: string, isFriend: bool)

  /** `data.filter(user => user.is_friend)`. */
  function AcceptedFriends(users: seq<Friend>): (r: seq<Friend>)
    ensures forall f | f in r :: f in users && f.isFriend
    ensures forall f | f in users && f.isFriend :: f in r
  {
    if users == [] then []
    else
      var rest := AcceptedFriends(users[1..]);
      assert forall f | f in users :: f == users[0] || f in users[1..];
      if users[0].isFriend then [users[0]] + rest else rest
  }

  /** The offered friends keep the server's order, each accepted friend once. */
  lemma {:induction false} AcceptedFriendsAppend(users: seq<Friend>, u: Friend)
    ensures AcceptedFriends(users + [u]) == AcceptedFriends(users) + (if u.isFriend then [u] else [])
  {
    if users == [] {
      assert [u][1..] == [];
    } else {
      assert (users + [u])[1..] == users[1..] + [u];
      AcceptedFriendsAppend(users[1..], u);
    }
  }

  /** `prev.filter(x => x !== id)`. */
  function Without(xs: seq<int>, id: int): (r: seq<int>)
    ensures id !in r
    ensures forall x | x != id :: x in r <==> x in xs
    ensures |r| <= |xs|
    ensures id !in xs ==> r == xs
  {
    if xs == [] then []
    else
      var rest := Without(xs[1..], id);
      assert xs == [xs[0]] + xs[1..];
      if xs[0] == id then rest else [xs[0]] + rest
  }

  predicate NoDuplicates(xs: seq<int>) {
    forall i, j | 0 <= i < j < |xs| :: xs[i] != xs[j]
  }

  /** `toggleFriendSelection(id)`: a selected id is removed, any other is appended at the end. */
  function Toggle(sel: seq<int>, id: int): (r: seq<int>)
    ensures id in sel ==> r == Without(sel, id)
    ensures id !in sel ==> r == sel + [id]
    ensures id in r <==> id !in sel
    ensures forall x | x != id :: x in r <==> x in sel
  {
    if id in sel then Without(sel, id) else sel + [id]
  }

  /** Removing an id from a list without repeats leaves a list without repeats. */
  lemma {:induction false} WithoutKeepsNoDuplicates(xs: seq<int>, id: int)
    requires NoDuplicates(xs)
    ensures NoDuplicates(Without(xs, id))
  {
    if xs != [] {
      WithoutKeepsNoDuplicates(xs[1..], id);
      assert NoDuplicates(xs[1..]) by {
        forall i, j | 0 <= i < j < |xs[1..]| ensures xs[1..][i] != xs[1..][j] {
          assert xs[1..][i] == xs[i + 1] && xs[1..][j] == xs[j + 1];
        }
      }
      assert xs[0] !in xs[1..] by {
        forall j | 0 <= j < |xs[1..]| ensures xs[1..][j] != xs[0] {
          assert xs[1..][j] == xs[j + 1];
        }
      }
    }
  }

  /**
   * In a list without repeats, removing an id deletes exactly its one
   * position: the ids before and after it keep their order.
   */
  lemma {:induction false} WithoutDeletesItsPosition(xs: seq<int>, id: int, k: nat)
    requires NoDuplicates(xs) && k < |xs| && xs[k] == id
    ensures Without(xs, id) == xs[..k] + xs[k + 1..]
  {
    if k == 0 {
      assert id !in xs[1..] by {
        forall j | 0 <= j < |xs[1..]| ensures xs[1..][j] != id {
          assert xs[1..][j] == xs[j + 1];
        }
      }
    } else {
      assert NoDuplicates(xs[1..]) by {
        forall i, j | 0 <= i < j < |xs[1..]| ensures xs[1..][i] != xs[1..][j] {
          assert xs[1..][i] == xs[i + 1] && xs[1..][j] == xs[j + 1];
        }
      }
      WithoutDeletesItsPosition(xs[1..], id, k - 1);
      assert xs[0] != id;
      assert xs[..k] == [xs[0]] + xs[1..][..k - 1];
      assert xs[k + 1..] == xs[1..][k..];
    }
  }

  /** The selection never holds an id twice. */
  lemma {:induction false} ToggleKeepsNoDuplicates(sel: seq<int>, id: int)
    requires NoDuplicates(sel)
    ensures NoDuplicates(Toggle(sel, id))
  {
    if id in sel {
      WithoutKeepsNoDuplicates(sel, id);
    }
  }

  /** Toggling an unselected id twice gives back the very same list. */
  lemma ToggleTwiceRestores(sel: seq<int>, id: int)
    requires id !in sel
    ensures Toggle(Toggle(sel, id), id) == sel
  {
    WithoutAppended(sel, id);
  }

  lemma {:induction false} WithoutAppended(xs: seq<int>, id: int)
    requires id !in xs
    ensures Without(xs + [id], id) == xs
  {
    if xs != [] {
      assert (xs + [id])[1..] == xs[1..] + [id];
      WithoutAppended(xs[1..], id);
    }
  }

  /** Toggling a selected id twice selects the same ids, with that one moved to the end. */
  lemma ToggleTwiceMovesToEnd(sel: seq<int>, id: int)
    requires id in sel
    ensures Toggle(Toggle(sel, id), id) == Without(sel, id) + [id]
    ensures forall x :: x in Toggle(Toggle(sel, id), id) <==> x in sel
  {
  }
}

=== FILE: capsule_validations.dfy ===
/**
 * The older whole-form capsule validator and the `useCapsuleValidation`
 * hook built on it: file validation returning a keyed error object,
 * all-or-nothing file selection, and input changes that clear the changed
 * field's error.
 *
 * Unlike the per-step validator, this one tests title, description and
 * vision for plain truthiness, so a value made only of spaces passes.
 */
module CapsuleValidations {
  import opened Js
  import opened CapsuleDraft
  import CreationValidation

  const TitleRequired: string := "Title is required"
  const TitleTooLong: string := "Title must be less than 255 characters"
  const DescriptionRequired: string := "Description is required"
  const ImagesRequired: string := "At least one image is required"
  const TimeRequired: string := "Opening time is required"
  const TimeNotFuture: string := "Opening time must be in the future"
  const VisionRequired: string := "Vision is required"
  const PrivacyInvalid: string := "Invalid privacy setting"
  const DesignRequired: string := "Capsule design is required"

  /** Every key the whole-form validator can report. */
  const FormFields: set<Field> := {Title, Description, Images, Time, Vision, Privacy, Design}

  /** The check for one field, in the order the validator runs them; None means the field passes. */
  function FieldError(f: Form, now: int, k: Field): Option<string> {
    match k
    case Title =>
      if f.title == "" then Some(TitleRequired)
      else if Utf16Length(f.title) > 255 then Some(TitleTooLong)
      else None
    case Description => if f.description == "" then Some(DescriptionRequired) else None
    case Images => if |f.images| == 0 then Some(ImagesRequired) else None
    case Time =>
      (match f.time
       case None => Some(TimeRequired)
       case Some(t) => if t <= now then Some(TimeNotFuture) else None)
    case Vision => if f.vision == "" then Some(VisionRequired) else None
    case Privacy => if f.privacy == "" || f.privacy !in PrivacyValues then Some(PrivacyInvalid) else None
    case Design => if f.design == "" then Some(DesignRequired) else None
    case Submit => None
    case Files => None
  }

  /** A field is reported iff it is missing or out of bounds; the empty string is the only missing text. */
  function ValidateCapsuleForm(f: Form, now: int): (r: Errors)
    ensures r.Keys <= FormFields
    ensures Title in r <==> f.title == "" || Utf16Length(f.title) > 255
    ensures Title in r ==> r[Title] == if f.title == "" then TitleRequired else TitleTooLong
    ensures Description in r <==> f.description == ""
    ensures Images in r <==> f.images == []
    ensures Time in r <==> f.time == None || f.time.value <= now
    ensures Time in r ==> r[Time] == if f.time == None then TimeRequired else TimeNotFuture
    ensures Vision in r <==> f.vision == ""
    ensures Privacy in r <==> f.privacy !in PrivacyValues
    ensures Design in r <==> f.design == ""
    ensures forall k | k in r && k !in {Title, Time} :: r[k] == FixedMessage(k)
  {
    var r := map k | k in FormFields && FieldError(f, now, k).Some? :: FieldError(f, now, k).value;
    assert forall k | k in FormFields :: (k in r <==> FieldError(f, now, k).Some?);
    r
  }

  /** The single message each of the other fields can carry. */
  function FixedMessage(k: Field): string {
    match k
    case Description => DescriptionRequired
    case Images => ImagesRequired
    case Vision => VisionRequired
    case Privacy => PrivacyInvalid
    case _ => DesignRequired
  }

  /**
   * A form that passes every step of the wizard passes the whole-form
   * validator: trimmed non-emptiness implies non-emptiness.
   */
  lemma {:induction false} StepsImplyWholeForm(f: Form, now: int)
    requires CreationValidation.ValidateStep(0, f, now) == map[]
    requires CreationValidation.ValidateStep(1, f, now) == map[]
    requires CreationValidation.ValidateStep(2, f, now) == map[]
    requires CreationValidation.ValidateStep(4, f, now) == map[]
    requires CreationValidation.ValidateStep(5, f, now) == map[]
    requires CreationValidation.ValidateStep(6, f, now) == map[]
    ensures ValidateCapsuleForm(f, now) == map[]
  {
    assert f.title != "" && Utf16Length(f.title) <= 255 && f.description != "" by {
      assert Title !in CreationValidation.ValidateStep(0, f, now);
      assert Description !in CreationValidation.ValidateStep(0, f, now);
    }
    assert f.images != [] by {
      assert Images !in CreationValidation.ValidateStep(1, f, now);
    }
    assert f.time.Some? && f.time.value > now by {
      assert Time !in CreationValidation.ValidateStep(2, f, now);
    }
    assert f.vision != "" by {
      assert Vision !in CreationValidation.ValidateStep(4, f, now);
    }
    assert f.privacy in PrivacyValues by {
      assert Privacy !in CreationValidation.ValidateStep(5, f, now);
    }
    assert f.design != "" by {
      assert Design !in CreationValidation.ValidateStep(6, f, now);
    }
    WholeFormPasses(f, now);
  }

  /** The whole-form validator reports nothing exactly when every field holds a usable value. */
  predicate Usable(f: Form, now: int) {
    && f.title != "" && Utf16Length(f.title) <= 255 && f.description != "" && f.images != []
    && f.time.Some? && f.time.value > now && f.vision != "" && f.privacy in PrivacyValues && f.design != ""
  }

  lemma WholeFormPasses(f: Form, now: int)
    ensures ValidateCapsuleForm(f, now) == map[] <==> Usable(f, now)
  {
    if Usable(f, now) {
      assert ValidateCapsuleForm(f, now).Keys == {};
    }
  }

  /** The converse fails: a title of spaces passes here but not at step 0. */
  lemma BlankTitlePassesWholeFormOnly(f: Form, now: int)
    requires f.title == "   "
    ensures Title !in ValidateCapsuleForm(f, now)
    ensures Title in CreationValidation.ValidateStep(0, f, now)
  {
    assert IsSpace(f.title[0]) && IsSpace(f.title[1]) && IsSpace(f.title[2]);
  }

  /** The object `validateFile` returns for a rejected file: keyed `type` or keyed `size`. */
  datatype FileError = TypeError(typeMessage: string) | SizeError(sizeMessage: string)

  function ValidateFile(file: File): (r: Option<FileError>)
    ensures r == None <==> CreationValidation.ValidateFile(file) == None
    ensures file.mime !in AllowedTypes ==> r == Some(TypeError(TypeMessage))
    ensures file.mime in AllowedTypes && file.size > MaxFileSize ==> r == Some(SizeError(SizeMessage))
  {
    if file.mime !in AllowedTypes then Some(TypeError(TypeMessage))
    else if file.size > MaxFileSize then Some(SizeError(SizeMessage))
    else None
  }

  /** One entry of the `files` error list: the rejected file's name and its error object. */
  datatype Rejection = Rejection(file: string, errors: FileError)

  /** A value stored in the hook's error object: a message, or the list of rejected files. */
  datatype ErrorValue = Message(text: string) | Rejected(rejections: seq<Rejection>)

  /** JavaScript truthiness of an error value: an array is always truthy, a string when non-empty. */
  predicate Truthy(v: ErrorValue) {
    v.Rejected? || v.text != ""
  }

  datatype Hook = Hook(errors: map<Field, ErrorValue>, form: Form)

  /** The rejected files of a selection, in selection order. */
  function Rejections(files: seq<File>): (r: seq<Rejection>)
    ensures r == [] <==> forall i | 0 <= i < |files| :: ValidateFile(files[i]) == None
    ensures forall j | 0 <= j < |r| :: exists i | 0 <= i < |files| ::
              ValidateFile(files[i]) == Some(r[j].errors) && r[j].file == files[i].name
  {
    if files == [] then []
    else
      var rest := Rejections(files[1..]);
      assert forall i | 1 <= i < |files| :: files[i] == files[1..][i - 1];
      match ValidateFile(files[0])
      case None => rest
      case Some(e) => [Rejection(files[0].name, e)] + rest
  }

  /** One rejection per failing file, in selection order: an appended file adds its own rejection at the end, or nothing. */
  lemma {:induction false} RejectionsAppend(files: seq<File>, f: File)
    ensures Rejections(files + [f]) ==
      Rejections(files) + (match ValidateFile(f) case None => [] case Some(e) => [Rejection(f.name, e)])
  {
    if files == [] {
      assert [f][1..] == [];
    } else {
      assert (files + [f])[1..] == files[1..] + [f];
      RejectionsAppend(files[1..], f);
    }
  }

  /** The accepted files as form entries, each with an empty comment. */
  function Entries(files: seq<File>): (r: seq<ImageEntry>)
    ensures |r| == |files|
    ensures forall i | 0 <= i < |files| :: r[i] == ImageEntry(files[i], "")
  {
    seq(|files|, i requires 0 <= i < |files| => ImageEntry(files[i], ""))
  }

  /**
   * `handleFileSelection(files)`: if any file fails, the rejections are
   * stored under `files` and the images stay as they were; otherwise every
   * file is appended in order.
   */
  function HandleFileSelection(h: Hook, files: seq<File>): (r: (Hook, bool))
    ensures r.1 <==> forall i | 0 <= i < |files| :: ValidateFile(files[i]) == None
    ensures !r.1 ==> r.0.form == h.form
    ensures !r.1 ==> r.0.errors == h.errors[Files := Rejected(Rejections(files))]
    ensures r.1 ==> r.0.errors == h.errors
    ensures r.1 ==> r.0.form == h.form.(images := h.form.images + Entries(files))
  {
    var rejected := Rejections(files);
    if |rejected| > 0 then
      (h.(errors := h.errors[Files := Rejected(rejected)]), false)
    else
      (h.(form := h.form.(images := h.form.images + Entries(files))), true)
  }

  /** `handleInputChange(e)`: write the field, and drop its error only if that error is truthy. */
  function HandleInputChange(h: Hook, f: TextField, value: string): (r: Hook)
    ensures r.form == SetField(h.form, f, value)
    ensures f in h.errors && Truthy(h.errors[f]) ==> f !in r.errors
    ensures forall k | k in h.errors && k != f :: k in r.errors && r.errors[k] == h.errors[k]
    ensures forall k | k in r.errors :: k in h.errors && r.errors[k] == h.errors[k]
  {
    var k := f;
    var errors := if k in h.errors && Truthy(h.errors[k]) then h.errors - {k} else h.errors;
    Hook(errors, SetField(h.form, f, value))
  }

  /** The keys of the whole-form validator's result, as the hook stores them. */
  function AsErrorValues(e: Errors): (r: map<Field, ErrorValue>)
    ensures r.Keys == e.Keys
    ensures forall k | k in e :: r[k] == Message(e[k])
  {
    map k | k in e :: Message(e[k])
  }

  /** `validateForm()`: replace all errors by the validator's, and report whether there were none. */
  function ValidateForm(h: Hook, now: int): (r: (Hook, bool))
    ensures r.0.form == h.form
    ensures r.0.errors == AsErrorValues(ValidateCapsuleForm(h.form, now))
    ensures r.1 <==> r.0.errors == map[]
    ensures r.1 <==> Usable(h.form, now)
  {
    var e := ValidateCapsuleForm(h.form, now);
    var stored := AsErrorValues(e);
    WholeFormPasses(h.form, now);
    assert stored == map[] <==> e.Keys == {};
    (h.(errors := stored), |e| == 0)
  }
}

=== FILE: custom_calendar.dfy ===
/**
 * The wizard's month calendar: the Gregorian month lengths and weekdays
 * behind its grid, the grid itself (blank cells, then the days in order),
 * month navigation through the `Date(year, month)` constructor, picking a
 * day while keeping the time of day, and the highlighted cell.
 */
module CustomCalendar {
  import opened Js

  /** The Gregorian leap rule. */
  predicate IsLeap(y: int) {
    y % 4 == 0 && (y % 100 != 0 || y % 400 == 0)
  }

  /** The length of month `m` (0 = January) of year `y`. */
  function MonthLength(y: int, m: nat): (r: nat)
    requires m < 12
    ensures 28 <= r <= 31
    ensures m == 1 ==> (r == 29 <==> IsLeap(y))
    ensures m != 1 ==> (r == 30 <==> m in {3, 5, 8, 10})
  {
    if m == 1 then (if IsLeap(y) then 29 else 28)
    else if m == 3 || m == 5 || m == 8 || m == 10 then 30
    else 31
  }

  function YearLength(y: int): nat {
    if IsLeap(y) then 366 else 365
  }

  /** Days of year `y` before the first of month `m`. */
  function DaysBeforeMonth(y: int, m: nat): nat
    requires m <= 12
  {
    if m == 0 then 0 else DaysBeforeMonth(y, m - 1) + MonthLength(y, m - 1)
  }

  /** The twelve months make up the year. */
  lemma {:induction false} MonthsFillYear(y: int)
    ensures DaysBeforeMonth(y, 12) == YearLength(y)
  {
    var leap := if IsLeap(y) then 1 else 0;
    assert DaysBeforeMonth(y, 1) == 31;
    assert DaysBeforeMonth(y, 2) == 59 + leap;
    assert DaysBeforeMonth(y, 3) == 90 + leap;
    assert DaysBeforeMonth(y, 4) == 120 + leap;
    assert DaysBeforeMonth(y, 5) == 151 + leap;
    assert DaysBeforeMonth(y, 6) == 181 + leap;
    assert DaysBeforeMonth(y, 7) == 212 + leap;
    assert DaysBeforeMonth(y, 8) == 243 + leap;
    assert DaysBeforeMonth(y, 9) == 273 + leap;
    assert DaysBeforeMonth(y, 10) == 304 + leap;
    assert DaysBeforeMonth(y, 11) == 334 + leap;
  }

  /** Days from a fixed origin to the first of January of year `y`, counting leap days by the rule. */
  function DaysBeforeYear(y: int): int {
    365 * y + (y - 1) / 4 - (y - 1) / 100 + (y - 1) / 400
  }

  /** Between `y - 1` and `y` one more multiple of 4, 100 or 400 is passed exactly when `y` is one. */
  lemma FloorSteps(y: int)
    ensures y / 4 - (y - 1) / 4 == if y % 4 == 0 then 1 else 0
    ensures y / 100 - (y - 1) / 100 == if y % 100 == 0 then 1 else 0
    ensures y / 400 - (y - 1) / 400 == if y % 400 == 0 then 1 else 0
  {
  }

  lemma {:induction false} Divides(y: int)
    ensures y % 400 == 0 ==> y % 100 == 0
    ensures y % 100 == 0 ==> y % 4 == 0
  {
    var q := y / 400;
    var r := y % 400;
    assert y == 100 * (4 * q) + r;
    assert r % 100 == r - 100 * (r / 100);
    var h := y / 100;
    assert y == 4 * (25 * h) + y % 100;
  }

  /** Consecutive years are as far apart as the earlier year is long. */
  lemma {:induction false} YearStep(y: int)
    ensures DaysBeforeYear(y + 1) == DaysBeforeYear(y) + YearLength(y)
  {
    FloorSteps(y);
    Divides(y);
  }

  function DayIndex(y: int, m: nat, d: int): int
    requires m < 12
  {
    DaysBeforeYear(y) + DaysBeforeMonth(y, m) + d - 1
  }

  /** `getDay()`: 0 is Sunday. */
  function Weekday(y: int, m: nat, d: int): (r: nat)
    requires m < 12
    ensures r < 7
  {
    DayIndex(y, m, d) % 7
  }

  /** Within a month the weekday advances by one a day. */
  lemma {:induction false} WeekdayShift(y: int, m: nat, d: int)
    requires m < 12
    ensures Weekday(y, m, d) == (Weekday(y, m, 1) + d - 1) % 7
  {
    var a := DayIndex(y, m, 1);
    assert DayIndex(y, m, d) == a + (d - 1);
    ModAddSeven(a, d - 1);
  }

  /** Adding days to a day index moves its weekday by the same count. */
  lemma ModAddSeven(a: int, b: int)
    ensures (a + b) % 7 == (a % 7 + b) % 7
  {
    assert a + b == 7 * (a / 7) + (a % 7 + b);
  }

  /** The day count is anchored correctly: 1 January 1970 was a Thursday and 1 January 2000 a Saturday. */
  lemma KnownWeekdays()
    ensures Weekday(1970, 0, 1) == 4
    ensures Weekday(2000, 0, 1) == 6
  {
  }

  /** The month after `(y, m)`, across the year boundary. */
  function Following(y: int, m: nat): (r: (int, nat))
    requires m < 12
    ensures r.1 < 12
    ensures m < 11 ==> r == (y, m + 1)
    ensures m == 11 ==> r == (y + 1, 0)
  {
    if m == 11 then (y + 1, 0) else (y, m + 1)
  }

  /** Each month's grid starts where the previous one stopped: its first weekday is the old one shifted by the old length. */
  lemma {:induction false} NextMonthContinues(y: int, m: nat)
    requires m < 12
    ensures var n := Following(y, m);
      Weekday(n.0, n.1, 1) == (Weekday(y, m, 1) + MonthLength(y, m)) % 7
  {
    var a := DayIndex(y, m, 1);
    var n := Following(y, m);
    if m == 11 {
      MonthsFillYear(y);
      YearStep(y);
      assert DayIndex(n.0, n.1, 1) == DaysBeforeYear(y + 1);
    } else {
      assert DaysBeforeMonth(y, m + 1) == DaysBeforeMonth(y, m) + MonthLength(y, m);
    }
    assert DayIndex(n.0, n.1, 1) == a + MonthLength(y, m);
    ModAddSeven(a, MonthLength(y, m));
  }

  /** The `Date` constructor reads a two-digit year as one of the 1900s. */
  function FullYear(y: int): (r: int)
    ensures 0 <= y <= 99 ==> r == 1900 + y
    ensures !(0 <= y <= 99) ==> r == y
  {
    if 0 <= y <= 99 then 1900 + y else y
  }

  /** `new Date(year, month + 1, 0).getDate()`. */
  function DaysInMonth(month: nat, year: int): (r: nat)
    requires month < 12
    ensures 28 <= r <= 31
    ensures r == MonthLength(FullYear(year), month)
  {
    MonthLength(FullYear(year), month)
  }

  /** `new Date(year, month, 1).getDay()`. */
  function FirstDayOfMonth(month: nat, year: int): (r: nat)
    requires month < 12
    ensures r < 7 && r == Weekday(FullYear(year), month, 1)
  {
    Weekday(FullYear(year), month, 1)
  }

  /** `[...emptyDays, ...days]`: one blank per weekday before the first, then 1..n. */
  function Grid(month: nat, year: int): (r: seq<Option<nat>>)
    requires month < 12
    ensures |r| == FirstDayOfMonth(month, year) + DaysInMonth(month, year)
    ensures forall i | 0 <= i < |r| :: r[i].None? <==> i < FirstDayOfMonth(month, year)
    ensures forall i | FirstDayOfMonth(month, year) <= i < |r| :: r[i] == Some(i - FirstDayOfMonth(month, year) + 1)
  {
    var blanks := FirstDayOfMonth(month, year);
    seq(blanks, _ => None) + seq(DaysInMonth(month, year), i => Some(i + 1))
  }

  /** Every day of the month has exactly one cell, and that cell sits in the column of its weekday. */
  lemma GridPlacesDays(month: nat, year: int, day: nat)
    requires month < 12 && 1 <= day <= DaysInMonth(month, year)
    ensures var g := Grid(month, year); var i := FirstDayOfMonth(month, year) + day - 1;
      i < |g| && g[i] == Some(day) && i % 7 == Weekday(FullYear(year), month, day)
      && forall j | 0 <= j < |g| && g[j] == Some(day) :: j == i
  {
    WeekdayShift(FullYear(year), month, day);
  }

  /** `new Date(year, month)`: the month overflows into the year, after the two-digit year rule. */
  function MonthStart(year: int, month: int): (r: (int, nat))
    ensures r.1 < 12
    ensures 12 * (r.0 - FullYear(year)) + r.1 == month
  {
    (FullYear(year) + month / 12, month % 12)
  }

  function PrevMonth(year: int, month: nat): (int, nat) {
    MonthStart(year, month - 1)
  }

  function NextMonth(year: int, month: nat): (int, nat) {
    MonthStart(year, month + 1)
  }

  /** Outside the two-digit years the arrows step one month back or forward, wrapping the year. */
  lemma ArrowsWrap(year: int, month: nat)
    requires month < 12 && !(0 <= year <= 99)
    ensures month == 0 ==> PrevMonth(year, month) == (year - 1, 11)
    ensures month > 0 ==> PrevMonth(year, month) == (year, month - 1)
    ensures NextMonth(year, month) == Following(year, month)
  {
  }

  /** Away from the two-digit years, Next undoes Prev and Prev undoes Next. */
  lemma ArrowsUndo(year: int, month: nat)
    requires month < 12 && (year < -1 || year > 100)
    ensures var p := PrevMonth(year, month); NextMonth(p.0, p.1) == (year, month)
    ensures var n := NextMonth(year, month); PrevMonth(n.0, n.1) == (year, month)
  {
  }

  /** But going back from January of year 100 lands in year 99, which the constructor reads as 1999. */
  lemma CenturyJump()
    ensures PrevMonth(100, 0) == (99, 11)
    ensures NextMonth(99, 11) == (2000, 0)
  {
  }

  /** The parts of a `Date` the calendar reads and writes. */
  datatype DateTime = DateTime(year: int, month: nat, day: nat, hours: nat, minutes: nat)

  /**
   * `handleDateSelect(day)`: the picked day of the shown month, at the
   * selected date's hour and minute. Without a selected date the handler
   * throws before reporting anything.
   */
  function SelectDay(year: int, month: nat, selected: Option<DateTime>, day: nat): (r: Option<DateTime>)
    ensures r.None? <==> selected.None?
    ensures r.Some? ==> r.value.day == day && r.value.month == month && r.value.year == FullYear(year)
    ensures r.Some? ==> r.value.hours == selected.value.hours && r.value.minutes == selected.value.minutes
  {
    if selected.None? then None
    else Some(DateTime(FullYear(year), month, day, selected.value.hours, selected.value.minutes))
  }

  /** The highlight: a day cell whose day, and whose shown month and year, equal the selected date's. */
  predicate Highlighted(cell: Option<nat>, year: int, month: nat, selected: Option<DateTime>) {
    selected.Some? && cell.Some? && cell.value == selected.value.day
    && month == selected.value.month && year == selected.value.year
  }

  /** After a pick, exactly the picked day's cell of the shown month is highlighted. */
  lemma PickHighlightsOneCell(year: int, month: nat, selected: DateTime, day: nat, j: nat)
    requires month < 12 && !(0 <= year <= 99) && 1 <= day <= DaysInMonth(month, year)
    requires j < |Grid(month, year)|
    ensures Highlighted(Grid(month, year)[j], year, month, SelectDay(year, month, Some(selected), day))
      <==> j == FirstDayOfMonth(month, year) + day - 1
  {
  }

  /** No cell is highlighted when the selected date lies in another month. */
  lemma OtherMonthHighlightsNothing(year: int, month: nat, selected: DateTime, j: nat)
    requires month < 12 && j < |Grid(month, year)|
    requires selected.month != month || selected.year != year
    ensures !Highlighted(Grid(month, year)[j], year, month, Some(selected))
  {
  }
}

=== FILE: find_friends.dfy ===
/**
 * The user directory: a case-insensitive name search over all users, a
 * fixed nine-per-page pagination whose grid is padded with empty cells, the
 * friend-request flow with its pending set, and the numbers shown in the
 * user modal. The request's outcome, the token's presence and the clock are
 * parameters.
 */
module FindFriends {
  import opened Js

  const UsersPerPage: nat := 9
  const MsPerDay: nat := 1000 * 60 * 60 * 24
  /** Capsules are assumed to open 30 days after creation in this view. */
  const MockOpeningDays: int := 30

  datatype User = User(id: int, name: string, requestSent: bool, isFriend: bool)

  /** `user.name.toLowerCase().includes(searchTerm.toLowerCase())`. */
  predicate Matches(u: User, term: string) {
    Includes(ToLower(u.name), ToLower(term))
  }

  /** The users whose names contain the term, in their original order; an empty term keeps everyone. */
  function Filter(users: seq<User>, term: string): (r: seq<User>)
    ensures term == "" ==> r == users
    ensures forall u | u in r :: u in users && (term != "" ==> Matches(u, term))
    ensures forall u | u in users && Matches(u, term) :: u in r
    ensures |r| <= |users|
  {
    if term == "" then users else Keep(users, term)
  }

  function Keep(users: seq<User>, term: string): (r: seq<User>)
    ensures forall u | u in r :: u in users && Matches(u, term)
    ensures forall u | u in users && Matches(u, term) :: u in r
    ensures |r| <= |users|
  {
    if users == [] then []
    else
      var rest := Keep(users[1..], term);
      assert forall u | u in users[1..] :: u in users;
      assert forall u | u in users :: u == users[0] || u in users[1..];
      if Matches(users[0], term) then [users[0]] + rest else rest
  }

  /** Keeping is a filter that preserves order: a user appended to the list is kept at the end exactly when it matches. */
  lemma {:induction false} KeepAppend(users: seq<User>, u: User, term: string)
    ensures Keep(users + [u], term) == Keep(users, term) + (if Matches(u, term) then [u] else [])
  {
    if users == [] {
      assert [u][1..] == [];
    } else {
      assert (users + [u])[1..] == users[1..] + [u];
      KeepAppend(users[1..], u, term);
    }
  }

  /** The search result lists the matching users once each, in the directory's order. */
  lemma FilterAppend(users: seq<User>, u: User, term: string)
    ensures Filter(users + [u], term) == Filter(users, term) + (if Matches(u, term) then [u] else [])
  {
    if term == "" {
      EmptyTermMatchesAll(u);
    } else {
      KeepAppend(users, u, term);
    }
  }

  /** The empty string is contained in every name, so filtering by it would keep everyone anyway. */
  lemma {:induction false} EmptyTermMatchesAll(u: User)
    ensures Matches(u, "")
  {
    assert OccursAt(ToLower(u.name), ToLower(""), 0);
  }

  /** A name matches regardless of the case in which the term is typed. */
  lemma SearchIgnoresCase(u: User, term: string)
    ensures Matches(u, ToLower(term)) == Matches(u, term)
  {
    ToLowerIdempotent(term);
  }

  /** `Math.ceil(n / 9)`. */
  function TotalPages(n: nat): (r: nat)
    ensures r * UsersPerPage >= n
    ensures r > 0 ==> (r - 1) * UsersPerPage < n
    ensures r == 0 <==> n == 0
  {
    (n + UsersPerPage - 1) / UsersPerPage
  }

  /** `filtered.slice((page - 1) * 9, page * 9)`. */
  function Page(filtered: seq<User>, page: nat): (r: seq<User>)
    requires page >= 1
    ensures |r| <= UsersPerPage
    ensures (page - 1) * UsersPerPage >= |filtered| ==> r == []
    ensures page * UsersPerPage <= |filtered| ==> r == filtered[(page - 1) * UsersPerPage..page * UsersPerPage]
    ensures (page - 1) * UsersPerPage < |filtered| < page * UsersPerPage ==> r == filtered[(page - 1) * UsersPerPage..]
  {
    Slice(filtered, (page - 1) * UsersPerPage, page * UsersPerPage)
  }

  /** Every user of the filtered list appears on exactly the page its position says. */
  lemma {:induction false} PagesCoverFilter(filtered: seq<User>, i: nat)
    requires i < |filtered|
    ensures var p := i / UsersPerPage + 1;
      1 <= p <= TotalPages(|filtered|) && Page(filtered, p)[i % UsersPerPage] == filtered[i]
  {
    var p := i / UsersPerPage + 1;
    assert (p - 1) * UsersPerPage <= i < p * UsersPerPage;
  }

  /** The grid: the page's users followed by empty cells up to nine. */
  function Padded(users: seq<User>): (r: seq<Option<User>>)
    ensures |r| == if |users| < UsersPerPage then UsersPerPage else |users|
    ensures forall i | 0 <= i < |users| :: r[i] == Some(users[i])
    ensures forall i | |users| <= i < |r| :: r[i] == None
  {
    var cells := seq(|users|, i requires 0 <= i < |users| => Some(users[i]));
    if |users| < UsersPerPage then cells + seq(UsersPerPage - |users|, _ => None) else cells
  }

  /** The directory state: all users, the search term, the current page and the shown users. */
  datatype Directory = Directory(
    all: seq<User>, term: string, page: nat, shown: seq<User>, pending: set<int>)

  /**
   * The filter/paginate effect, run until it no longer changes the page:
   * a page beyond the last resets to 1, and the shown users are that page.
   */
  function Refresh(d: Directory): (r: Directory)
    requires d.page >= 1
    ensures r.page >= 1
    ensures var n := |Filter(d.all, d.term)|;
      r.page == if d.page > TotalPages(n) then 1 else d.page
    ensures r.shown == Page(Filter(d.all, d.term), r.page)
    ensures r.page <= TotalPages(|Filter(d.all, d.term)|) || r.page == 1
    ensures r.all == d.all && r.term == d.term && r.pending == d.pending
  {
    var filtered := Filter(d.all, d.term);
    var page := if d.page > TotalPages(|filtered|) then 1 else d.page;
    d.(page := page, shown := Page(filtered, page))
  }

  /** After a refresh the grid always has exactly nine cells. */
  lemma GridHasNineCells(d: Directory)
    requires d.page >= 1
    ensures |Padded(Refresh(d).shown)| == UsersPerPage
  {
  }

  /** `handleSearch`: a new term always starts again from page 1. */
  function Search(d: Directory, term: string): (r: Directory)
    ensures r.page == 1 && r.term == term
    ensures r.shown == Page(Filter(d.all, term), 1)
  {
    Refresh(d.(term := term, page := 1))
  }

  /** The page buttons: previous is disabled on page 1, next on the last page. */
  function ChangePage(d: Directory, forward: bool): (r: Directory)
    requires d.page >= 1
    ensures forward && d.page < TotalPages(|Filter(d.all, d.term)|) ==> r.page == d.page + 1
    ensures !forward && 1 < d.page <= TotalPages(|Filter(d.all, d.term)|) + 1 ==> r.page == d.page - 1
    ensures !forward && d.page > 1 ==>
      r.page == if d.page - 1 > TotalPages(|Filter(d.all, d.term)|) then 1 else d.page - 1
    ensures forward && d.page >= TotalPages(|Filter(d.all, d.term)|) ==> r == d
    ensures !forward && d.page <= 1 ==> r == d
    ensures r.page != d.page ==> r.shown == Page(Filter(d.all, d.term), r.page)
    ensures r.all == d.all && r.term == d.term && r.pending == d.pending
    ensures r.page >= 1
  {
    var total := TotalPages(|Filter(d.all, d.term)|);
    if forward && d.page < total then Refresh(d.(page := d.page + 1))
    else if !forward && d.page > 1 then Refresh(d.(page := d.page - 1))
    else d
  }

  /** On a settled page before the last, next then previous returns to the same directory. */
  lemma {:induction false} NextThenPreviousRestores(d: Directory)
    requires 1 <= d.page < TotalPages(|Filter(d.all, d.term)|)
    requires d.shown == Page(Filter(d.all, d.term), d.page)
    ensures ChangePage(ChangePage(d, true), false) == d
  {
    var e := ChangePage(d, true);
    assert e.page == d.page + 1;
    assert ChangePage(e, false).page == d.page;
  }

  /** Going back from a page beyond the last lands on page 1, not on the page before: the reset wins. */
  lemma BackFromBeyondLastLandsOnFirst(d: Directory)
    requires d.all == [] && d.page == 3
    ensures ChangePage(d, false).page == 1
  {
    assert TotalPages(|Filter(d.all, d.term)|) == 0;
  }

  /** A settled directory stays settled under the buttons: the page stays in range and the grid shows it. */
  lemma ChangePageStaysSettled(d: Directory, forward: bool)
    requires d.page >= 1
    requires d.page <= TotalPages(|Filter(d.all, d.term)|) || d.page == 1
    requires d.shown == Page(Filter(d.all, d.term), d.page)
    ensures var r := ChangePage(d, forward);
      && (r.page <= TotalPages(|Filter(d.all, d.term)|) || r.page == 1)
      && r.shown == Page(Filter(d.all, d.term), r.page)
  {
  }

  /** `user?.id === id ? {...user, friend_request_sent: true} : user`. */
  function MarkSent(users: seq<User>, id: int): (r: seq<User>)
    ensures |r| == |users|
    ensures forall i | 0 <= i < |users| :: r[i] == if users[i].id == id then users[i].(requestSent := true) else users[i]
  {
    seq(|users|, i requires 0 <= i < |users| => if users[i].id == id then users[i].(requestSent := true) else users[i])
  }

  /**
   * `handleSendRequest(id)`: the id joins the pending set. Without a token
   * the page leaves for the login screen and the id stays pending.
   * Otherwise, on success, exactly the users with that id are marked as
   * requested in both lists, and the id then leaves the pending set.
   */
  function SendRequest(d: Directory, id: int, hasToken: bool, ok: bool): (r: Directory)
    ensures !hasToken ==> r == d.(pending := d.pending + {id})
    ensures hasToken ==> r.pending == d.pending - {id}
    ensures hasToken && ok ==> r.all == MarkSent(d.all, id) && r.shown == MarkSent(d.shown, id)
    ensures hasToken && !ok ==> r.all == d.all && r.shown == d.shown
    ensures r.term == d.term && r.page == d.page
  {
    var waiting := d.(pending := d.pending + {id});
    if !hasToken then waiting
    else
      var updated := if ok then waiting.(all := MarkSent(d.all, id), shown := MarkSent(d.shown, id)) else waiting;
      updated.(pending := updated.pending - {id})
  }

  /** Only the target is touched: every other user is left exactly as it was. */
  lemma {:induction false} SendRequestTouchesOnlyTarget(d: Directory, id: int, ok: bool, i: nat)
    requires i < |d.all| && d.all[i].id != id
    ensures SendRequest(d, id, true, ok).all[i] == d.all[i]
  {
  }

  /** The card's button sends only for a user neither pending, already asked, nor already a friend. */
  predicate CardSends(u: User, isPending: bool) {
    !isPending && !u.requestSent && !u.isFriend
  }

  /** Once a request succeeds the target's card never sends again. */
  lemma NoSecondRequest(d: Directory, id: int, i: nat)
    requires i < |d.all| && d.all[i].id == id
    ensures !CardSends(SendRequest(d, id, true, true).all[i], false)
  {
  }

  /** A capsule as the user modal receives it; `created` is in milliseconds. */
  datatype Capsule = Capsule(created: int, privacy: string)

  /** `Math.max(0, 30 - Math.floor((now - created) / 86400000))`. */
  function ModalDaysLeft(created: int, now: int): (r: nat)
    ensures r <= MockOpeningDays || now < created
    ensures r == 0 <==> now - created >= MockOpeningDays * MsPerDay
    ensures r > 0 ==> (MockOpeningDays - r) * MsPerDay <= now - created < (MockOpeningDays - r + 1) * MsPerDay
  {
    var days := (now - created) / MsPerDay;   // floor division: the divisor is positive
    if MockOpeningDays - days > 0 then MockOpeningDays - days else 0
  }

  /** `capsules.some(c => c.privacy === 'friends')`. */
  function IsFriend(capsules: seq<Capsule>): (r: bool)
    ensures r <==> exists i | 0 <= i < |capsules| :: capsules[i].privacy == "friends"
  {
    if capsules == [] then false
    else if capsules[0].privacy == "friends" then true
    else
      var r := IsFriend(capsules[1..]);
      assert forall i | 1 <= i < |capsules| :: capsules[i] == capsules[1..][i - 1];
      r
  }
}

=== FILE: js.dfy ===
/**
 * The fragments of JavaScript's string and number semantics that the
 * e-capsule front end relies on: `trim`, the `\s` character class,
 * `toLowerCase`, `includes`, `startsWith`, `slice`, `padStart` and the
 * decimal rendering of a non-negative integer. Browser files are modelled
 * as plain records.
 */
module Js {

  /** A value that may be null or undefined. */
  datatype Option<+T> = None | Some(value: T)

  /** A browser `File`, reduced to the three properties the application reads. */
  datatype File = File(name: string, mime: string, size: nat)

  /** A parsed response body that should be an array but may be anything else. */
  datatype Json<T> = Array(items: seq<T>) | NotArray

  /** `Array.isArray(v) ? v : []`. */
  function ArrayOrEmpty<T>(v: Json<T>): seq<T> {
    if v.Array? then v.items else []
  }

  /** A string-keyed object whose values are messages: the shape of every error object. */
  type ErrorMap = map<string, string>

  /**
   * The characters `String.prototype.trim` removes and `\s` matches: the
   * WhiteSpace and LineTerminator productions of ECMAScript (sections 12.2
   * and 12.3 of ECMA-262).
   */
  predicate IsSpace(c: char) {
    c == ' ' || ('\t' <= c <= '\r') || c == '\U{00A0}' || c == '\U{1680}'
    || ('\U{2000}' <= c <= '\U{200A}') || c == '\U{2028}' || c == '\U{2029}'
    || c == '\U{202F}' || c == '\U{205F}' || c == '\U{3000}' || c == '\U{FEFF}'
  }

  /** Every character of `s` is white space (so `s.trim()` is the empty, falsy string). */
  ghost predicate Blank(s: string) {
    forall i | 0 <= i < |s| :: IsSpace(s[i])
  }

  /** The first index at or after `i` that does not hold white space, or `|s|`. */
  function SkipSpaces(s: string, i: nat): (r: nat)
    requires i <= |s|
    ensures i <= r <= |s|
    ensures forall k | i <= k < r :: IsSpace(s[k])
    ensures r < |s| ==> !IsSpace(s[r])
    decreases |s| - i
  {
    if i < |s| && IsSpace(s[i]) then SkipSpaces(s, i + 1) else i
  }

  /** The end of `s[..j]` once its trailing white space is dropped. */
  function SkipSpacesBack(s: string, j: nat): (r: nat)
    requires j <= |s|
    ensures r <= j
    ensures forall k | r <= k < j :: IsSpace(s[k])
    ensures r > 0 ==> !IsSpace(s[r - 1])
  {
    if j > 0 && IsSpace(s[j - 1]) then SkipSpacesBack(s, j - 1) else j
  }

  function TrimStart(s: string): (r: string)
    ensures |r| <= |s| && r == s[|s| - |r|..]
    ensures Blank(s[..|s| - |r|])
    ensures r == [] <==> Blank(s)
    ensures r != [] ==> !IsSpace(r[0])
  {
    s[SkipSpaces(s, 0)..]
  }

  function TrimEnd(s: string): (r: string)
    ensures |r| <= |s| && r == s[..|r|]
    ensures Blank(s[|r|..])
    ensures r == [] <==> Blank(s)
    ensures r != [] ==> !IsSpace(r[|r| - 1])
  {
    s[..SkipSpacesBack(s, |s|)]
  }

  /**
   * `s.trim()`: the stretch of `s` between a blank head and a blank tail,
   * empty exactly when `s` is blank and otherwise bounded by non-space
   * characters.
   */
  function Trim(s: string): (r: string)
    ensures |r| <= |s|
    ensures exists i, j | 0 <= i <= j <= |s| :: r == s[i..j] && Blank(s[..i]) && Blank(s[j..])
    ensures r == [] <==> Blank(s)
    ensures r != [] ==> !IsSpace(r[0]) && !IsSpace(r[|r| - 1])
  {
    var t := TrimStart(s);
    var r := TrimEnd(t);
    assert r != [] ==> r[0] == t[0];
    TrimSpan(s, t, r);
    r
  }

  /** Trimming the head and then the tail leaves a stretch of `s` between blank ends. */
  lemma TrimSpan(s: string, t: string, r: string)
    requires t == TrimStart(s) && r == TrimEnd(t)
    ensures exists i, j | 0 <= i <= j <= |s| :: r == s[i..j] && Blank(s[..i]) && Blank(s[j..])
  {
    var i := |s| - |t|;
    assert r == s[i..i + |r|] && s[i + |r|..] == t[|r|..];
  }

  /** A string already in trimmed form is left alone by `trim`. */
  lemma TrimOfTrimmed(s: string)
    requires s == [] || (!IsSpace(s[0]) && !IsSpace(s[|s| - 1]))
    ensures Trim(s) == s
  {
  }

  /** `trim` removes a single trailing blank from a trimmed string. */
  lemma {:induction false} TrimDropsTrailingSpace(s: string)
    requires s != [] && !IsSpace(s[0]) && !IsSpace(s[|s| - 1])
    ensures Trim(s + " ") == s
  {
    var t := s + " ";
    assert t[0] == s[0] && t[|t| - 2] == s[|s| - 1];
    assert SkipSpaces(t, 0) == 0;
    assert SkipSpacesBack(t, |t|) == |s|;
    assert TrimStart(t) == t;
    assert t[..|s|] == s;
  }

  /** ASCII case mapping; other characters are left as they are. */
  function LowerChar(c: char): (r: char)
    ensures 'A' <= c <= 'Z' ==> 'a' <= r <= 'z' && r as int - c as int == 32
    ensures !('A' <= c <= 'Z') ==> r == c
  {
    if 'A' <= c <= 'Z' then (c as int + 32) as char else c
  }

  function UpperChar(c: char): (r: char)
    ensures 'a' <= c <= 'z' ==> 'A' <= r <= 'Z' && c as int - r as int == 32
    ensures !('a' <= c <= 'z') ==> r == c
  {
    if 'a' <= c <= 'z' then (c as int - 32) as char else c
  }

  /** `s.toLowerCase()` restricted to ASCII letters. */
  function ToLower(s: string): (r: string)
    ensures |r| == |s|
    ensures forall i | 0 <= i < |s| :: r[i] == LowerChar(s[i])
  {
    seq(|s|, i requires 0 <= i < |s| => LowerChar(s[i]))
  }

  lemma ToLowerIdempotent(s: string)
    ensures ToLower(ToLower(s)) == ToLower(s)
  {
  }

  /** `s.startsWith(p)`. */
  predicate StartsWith(s: string, p: string) {
    |p| <= |s| && s[..|p|] == p
  }

  /** `sub` occurs in `s` starting at position `i`. */
  ghost predicate OccursAt(s: string, sub: string, i: int) {
    0 <= i <= |s| - |sub| && s[i..i + |sub|] == sub
  }

  /** `s.includes(sub)`, computed by scanning every start position. */
  function Includes(s: string, sub: string): (r: bool)
    ensures r <==> exists i :: OccursAt(s, sub, i)
    decreases |s|
  {
    if StartsWith(s, sub) then
      assert OccursAt(s, sub, 0);
      true
    else if |s| <= |sub| then
      assert forall i :: !OccursAt(s, sub, i);
      false
    else
      var r := Includes(s[1..], sub);
      forall j | OccursAt(s[1..], sub, j) ensures OccursAt(s, sub, j + 1) {
        assert s[j + 1..j + 1 + |sub|] == s[1..][j..j + |sub|];
      }
      forall i | OccursAt(s, sub, i) ensures OccursAt(s[1..], sub, i - 1) {
        assert s[1..][i - 1..i - 1 + |sub|] == s[i..i + |sub|];
      }
      r
  }

  /** Decimal digits of a non-negative integer, as `String(n)` renders it. */
  function NatToString(n: nat): (r: string)
    ensures r != []
    ensures forall i | 0 <= i < |r| :: '0' <= r[i] <= '9'
    ensures n < 10 <==> |r| == 1
    decreases n
  {
    if n < 10 then [DigitChar(n)] else NatToString(n / 10) + [DigitChar(n % 10)]
  }

  function DigitChar(d: nat): (c: char)
    requires d < 10
    ensures '0' <= c <= '9' && c as int - '0' as int == d
  {
    ('0' as int + d) as char
  }

  /** The value of a string of decimal digits, the inverse of `NatToString`. */
  function DigitsValue(s: string): nat
    requires forall i | 0 <= i < |s| :: '0' <= s[i] <= '9'
  {
    if s == [] then 0 else 10 * DigitsValue(s[..|s| - 1]) + (s[|s| - 1] as int - '0' as int)
  }

  lemma {:induction false} NatToStringRoundTrip(n: nat)
    ensures DigitsValue(NatToString(n)) == n
    decreases n
  {
    var r := NatToString(n);
    if n >= 10 {
      NatToStringRoundTrip(n / 10);
      assert r[..|r| - 1] == NatToString(n / 10);
    }
  }

  /** `String(n).padStart(2, '0')`. */
  function PadTwo(n: nat): (r: string)
    ensures |r| >= 2
    ensures n < 10 ==> r == ['0', DigitChar(n)]
    ensures n >= 10 ==> r == NatToString(n)
  {
    var s := NatToString(n);
    if |s| < 2 then ['0'] + s else s
  }

  /** The UTF-16 code units `c` takes: a character above U+FFFF is stored as a surrogate pair. */
  function CodeUnits(c: char): nat {
    if c as int > 0xFFFF then 2 else 1
  }

  /** `s.length`: JavaScript counts UTF-16 code units, one or two per character. */
  function Utf16Length(s: string): (n: nat)
    ensures |s| <= n <= 2 * |s|
  {
    if s == [] then 0 else Utf16Length(s[..|s| - 1]) + CodeUnits(s[|s| - 1])
  }

  /**
   * The unit count equals the character count exactly when no character
   * lies above U+FFFF, and is twice it exactly when every character does.
   */
  lemma {:induction false} Utf16LengthCounts(s: string)
    ensures Utf16Length(s) == |s| <==> forall i | 0 <= i < |s| :: s[i] as int <= 0xFFFF
    ensures Utf16Length(s) == 2 * |s| <==> forall i | 0 <= i < |s| :: s[i] as int > 0xFFFF
  {
    if s != [] {
      var init := s[..|s| - 1];
      Utf16LengthCounts(init);
      assert forall i | 0 <= i < |init| :: init[i] == s[i];
    }
  }

  /** Code units add up over a concatenation. */
  lemma {:induction false} Utf16LengthConcat(a: string, b: string)
    ensures Utf16Length(a + b) == Utf16Length(a) + Utf16Length(b)
  {
    if b != [] {
      var ab := a + b;
      assert ab[..|ab| - 1] == a + b[..|b| - 1];
      Utf16LengthConcat(a, b[..|b| - 1]);
    } else {
      assert a + b == a;
    }
  }

  /** One character above U+FFFF counts twice. */
  lemma AstralCountsTwice(c: char)
    requires c as int > 0xFFFF
    ensures Utf16Length([c]) == 2
  {
    assert [c][..0] == [];
  }

  /**
   * The end of `s.slice(0, n)` in characters: the longest prefix whose code
   * units fit in `n`. Where unit `n` would split a surrogate pair the prefix
   * stops one unit short.
   */
  function UnitPrefix(s: string, n: nat): (k: nat)
    ensures k <= |s| && Utf16Length(s[..k]) <= n
    ensures k < |s| ==> Utf16Length(s[..k + 1]) > n
  {
    assert s[..0] == [];
    UnitPrefixFrom(s, n, 0)
  }

  function UnitPrefixFrom(s: string, n: nat, k: nat): (r: nat)
    requires k <= |s| && Utf16Length(s[..k]) <= n
    ensures k <= r <= |s| && Utf16Length(s[..r]) <= n
    ensures r < |s| ==> Utf16Length(s[..r + 1]) > n
    decreases |s| - k
  {
    if k < |s| && Utf16Length(s[..k + 1]) <= n then UnitPrefixFrom(s, n, k + 1) else k
  }

  /** A prefix never has more code units than the whole string. */
  lemma PrefixUnits(s: string, k: nat)
    requires k <= |s|
    ensures Utf16Length(s[..k]) <= Utf16Length(s)
  {
    Utf16LengthConcat(s[..k], s[k..]);
    assert s[..k] + s[k..] == s;
  }

  /** One more character adds its own code units. */
  lemma NextUnits(s: string, k: nat)
    requires k < |s|
    ensures Utf16Length(s[..k + 1]) == Utf16Length(s[..k]) + CodeUnits(s[k])
  {
    assert s[..k + 1][..k] == s[..k];
  }

  /** `xs.slice(a, b)` for non-negative bounds: bounds past the end are clamped to the length. */
  function Slice<T>(xs: seq<T>, a: nat, b: nat): (r: seq<T>)
    ensures a <= b && b <= |xs| ==> r == xs[a..b]
    ensures |r| == if a >= |xs| || b <= a then 0 else (if b <= |xs| then b else |xs|) - a
  {
    var hi := if b <= |xs| then b else |xs|;
    if a >= hi then [] else xs[a..hi]
  }
}

=== FILE: login.dfy ===
/**
 * The login page: the two client-side field checks, the gate they put in
 * front of the login request, the mapping of the server's answer to the
 * page's messages, and the border class each input is drawn with.
 */
module Login {
  import opened Js
  import ProfileValidation

  const MaxEmailLength: nat := 255
  const MinPasswordLength: nat := 8

  const EmailEmpty := "Email field cannot be empty."
  const EmailInvalid := "Please enter a valid email address."
  const EmailLong := "Email must not exceed 255 characters."
  const PasswordEmpty := "Password field cannot be empty."
  const PasswordShort := "Password must be at least 8 characters long."
  const Unexpected := "An unexpected error occurred. Please try again."
  const Welcome := "Login successful!"

  /** `[^\s@]`. */
  predicate Plain(c: char) {
    !IsSpace(c) && c != '@'
  }

  /**
   * The language of `/^[^\s@]+@[^\s@]+\.[^\s@]+$/`: one `@` with something
   * before it, and after it a dot that is neither right after the `@` nor
   * last, with no white space anywhere.
   */
  predicate IsLoginEmail(s: string) {
    exists at, dot | 0 < at && at + 1 < dot < |s| - 1 ::
      s[at] == '@' && s[dot] == '.' && forall i | 0 <= i < |s| && i != at :: Plain(s[i])
  }

  /** The pattern is matched against the lowered address, which accepts exactly the same addresses. */
  lemma LoweringKeepsShape(s: string)
    ensures IsLoginEmail(ToLower(s)) <==> IsLoginEmail(s)
  {
    var t := ToLower(s);
    assert forall i | 0 <= i < |s| :: (t[i] == '@' <==> s[i] == '@') && (t[i] == '.' <==> s[i] == '.')
                                       && (IsSpace(t[i]) <==> IsSpace(s[i]));
  }

  /** `validateEmail`: empty after trimming, then the pattern, then the length; the first failure wins. */
  function ValidateEmail(email: string): (r: string)
    ensures r == "" <==> !Blank(email) && IsLoginEmail(email) && Utf16Length(email) <= MaxEmailLength
    ensures Blank(email) ==> r == EmailEmpty
    ensures !Blank(email) && !IsLoginEmail(email) ==> r == EmailInvalid
    ensures !Blank(email) && IsLoginEmail(email) && Utf16Length(email) > MaxEmailLength ==> r == EmailLong
  {
    LoweringKeepsShape(email);
    if Trim(email) == "" then EmailEmpty
    else if !IsLoginEmail(ToLower(email)) then EmailInvalid
    else if Utf16Length(email) > MaxEmailLength then EmailLong
    else ""
  }

  /** Any address the profile form accepts also passes the login pattern. */
  lemma {:induction false} ProfileEmailIsLoginEmail(s: string)
    requires ProfileValidation.IsProfileEmail(s)
    ensures IsLoginEmail(s)
  {
    var at := ProfileValidation.SplitAddress(s);
    var d := s[at + 1..];
    var k :| 1 <= k <= |d| - 3 && d[k] == '.';
    var dot := at + 1 + k;
    assert s[dot] == d[k];
    PlainAround(s, at);
    assert 0 < at && at + 1 < dot < |s| - 1 && s[at] == '@' && s[dot] == '.';
  }

  /** Neither the profile form's local-part characters nor its domain characters are white space or `@`. */
  lemma PlainAround(s: string, at: nat)
    requires forall i | 0 <= i < at && i < |s| :: ProfileValidation.IsLocalChar(s[i])
    requires forall i | at < i < |s| :: ProfileValidation.IsDomainChar(s[i])
    ensures forall i | 0 <= i < |s| && i != at :: Plain(s[i])
  {
  }

  /** `validatePassword`: empty after trimming, then the UNtrimmed length. */
  function ValidatePassword(password: string): (r: string)
    ensures r == "" <==> !Blank(password) && Utf16Length(password) >= MinPasswordLength
    ensures Blank(password) ==> r == PasswordEmpty
    ensures !Blank(password) && Utf16Length(password) < MinPasswordLength ==> r == PasswordShort
  {
    if Trim(password) == "" then PasswordEmpty
    else if Utf16Length(password) < MinPasswordLength then PasswordShort
    else ""
  }

  /** Padding counts towards the length: three letters padded to eight characters pass. */
  lemma PaddingCountsTowardsLength()
    ensures ValidatePassword("  abc   ") == ""
  {
    assert !IsSpace("  abc   "[2]);
  }

  /** The minimum counts code units: four characters above U+FFFF make eight units, which is long enough. */
  lemma WidePasswordIsLongEnough(password: string)
    requires |password| == 4 && forall i | 0 <= i < |password| :: password[i] == '\U{1F600}'
    ensures ValidatePassword(password) == ""
  {
    Utf16LengthCounts(password);
    assert !IsSpace(password[0]);
  }

  /** The server's answer to the login request. */
  datatype Reply = Success(token: string) | Refused(status: int, fieldErrors: ErrorMap, message: string) | Unreachable

  /** What the page shows after a login attempt, and whether the request was made. */
  datatype Attempt = Attempt(sent: bool, errors: ErrorMap, success: string, token: Option<string>)

  /**
   * `handleLogin` with the server's reply as a parameter: a failing field
   * check shows both field messages and sends nothing; otherwise 422 shows
   * the server's field errors, 401 its message, anything else the generic one.
   */
  function HandleLogin(email: string, password: string, reply: Reply): (r: Attempt)
    ensures !r.sent <==> ValidateEmail(email) != "" || ValidatePassword(password) != ""
    ensures !r.sent ==> r.errors == map["email" := ValidateEmail(email), "password" := ValidatePassword(password)]
    ensures r.token.Some? <==> r.sent && reply.Success?
    ensures r.sent && reply.Success? ==> r.success == Welcome && r.errors == map[] && r.token == Some(reply.token)
    ensures r.sent && reply.Refused? && reply.status == 422 ==> r.errors == reply.fieldErrors
    ensures r.sent && reply.Refused? && reply.status == 401 ==> r.errors == map["general" := reply.message]
    ensures r.sent && ((reply.Refused? && reply.status != 422 && reply.status != 401) || reply.Unreachable?) ==>
      r.errors == map["general" := Unexpected]
    ensures r.success != "" ==> r.sent && reply.Success?
  {
    var emailError := ValidateEmail(email);
    var passwordError := ValidatePassword(password);
    if emailError != "" || passwordError != "" then
      Attempt(false, map["email" := emailError, "password" := passwordError], "", None)
    else
      match reply
      case Success(token) => Attempt(true, map[], Welcome, Some(token))
      case Refused(status, fieldErrors, message) =>
        Attempt(true, if status == 422 then fieldErrors
                      else if status == 401 then map["general" := message]
                      else map["general" := Unexpected], "", None)
      case Unreachable => Attempt(true, map["general" := Unexpected], "", None)
  }

  /** A blank address is never sent, however the password looks. */
  lemma BlankEmailNeverSent(email: string, password: string, reply: Reply)
    requires Blank(email)
    ensures !HandleLogin(email, password, reply).sent
    ensures HandleLogin(email, password, reply).errors["email"] == EmailEmpty
  {
  }

  datatype Border = Default | Valid | Invalid

  /** `getInputClassName(field)`: only a touched field is coloured, red for an error, green for a non-blank value. */
  function InputBorder(touched: bool, error: string, value: string): (r: Border)
    ensures !touched ==> r == Default
    ensures touched ==> (r == Invalid <==> error != "")
    ensures r == Valid <==> touched && error == "" && !Blank(value)
  {
    if touched then
      if error != "" then Invalid
      else if Trim(value) != "" then Valid
      else Default
    else Default
  }

  /** After a refused client check, a touched field is green exactly when its own check passed. */
  lemma BorderFollowsCheck(email: string, password: string, reply: Reply)
    requires ValidateEmail(email) != "" || ValidatePassword(password) != ""
    ensures var a := HandleLogin(email, password, reply);
      InputBorder(true, a.errors["email"], email) == if ValidateEmail(email) == "" then Valid else Invalid
  {
    var error := ValidateEmail(email);
    assert HandleLogin(email, password, reply).errors["email"] == error;
    assert error == "" ==> !Blank(email);
  }
}

=== FILE: notification_sidebar.dfy ===
/**
 * The notification sidebar's shared-capsule list: which shares offer the
 * Accept and Decline buttons, and what a response to a share does — an
 * error, a call of the accept callback, or a request marking the share
 * declined. The token, the callback's presence and the reply are parameters.
 */
module NotificationSidebar {
  import opened Js

  const AuthRequired := "Authentication required"
  const NotFound := "Share not found"
  const DeclineFailed := "Failed to handle capsule share: Failed to decline capsule share"

  /** A share as the server lists it. */
  datatype SharedCapsule = SharedCapsule(
    shareId: int, capsuleId: Option<int>, title: string, vision: Option<string>, sharedBy: string, status: string)

  /** The object handed to the accept callback. */
  datatype AcceptData = AcceptData(
    shareId: int, capsuleId: Option<int>, title: string, vision: string, sharedBy: string, status: string)

  /** What one response does: the error it sets, the callback it makes, the decline it sends, a refetch. */
  datatype Effect = Effect(error: Option<string>, accepted: Option<AcceptData>, declined: Option<Option<int>>, refetch: bool)

  const Nothing := Effect(None, None, None, false)

  // ------------------------------------------------------------- the list

  /** How the request for the share list ended: a body, a refusal, or an exception on the way. */
  datatype ListReply = Listed(body: Json<SharedCapsule>) | ListRefused(status: nat, message: string) | Thrown(message: string)

  /** The sidebar's share list and the error it shows. */
  datatype Listing = Listing(shares: seq<SharedCapsule>, error: Option<string>)

  /**
   * `fetchSharedCapsules`: without a token only the error is set and the
   * old list stays. Otherwise the list is replaced: by the body when it is
   * an array, and by the empty list when it is not or when the request
   * failed, in which case the failure's message is shown.
   */
  function FetchShares(previous: seq<SharedCapsule>, hasToken: bool, reply: ListReply): (r: Listing)
    ensures !hasToken ==> r == Listing(previous, Some(AuthRequired))
    ensures hasToken ==> (r.error.None? <==> reply.Listed?)
    ensures hasToken && reply.Listed? && reply.body.Array? ==> r.shares == reply.body.items
    ensures hasToken && !(reply.Listed? && reply.body.Array?) ==> r.shares == []
    ensures hasToken && reply.ListRefused? ==>
      r.error == Some(if reply.message != "" then reply.message else "HTTP error! status: " + NatToString(reply.status))
    ensures hasToken && reply.Thrown? ==> r.error == Some(reply.message)
  {
    if !hasToken then Listing(previous, Some(AuthRequired))
    else
      match reply
      case Listed(body) => Listing(ArrayOrEmpty(body), None)
      case ListRefused(status, message) =>
        Listing([], Some(if message != "" then message else "HTTP error! status: " + NatToString(status)))
      case Thrown(message) => Listing([], Some(message))
  }

  /** With a token, a fetch never keeps a stale list: what is shown depends on the reply alone. */
  lemma FetchReplacesList(a: seq<SharedCapsule>, b: seq<SharedCapsule>, reply: ListReply)
    ensures FetchShares(a, true, reply) == FetchShares(b, true, reply)
  {
  }

  /** After a fetch, every pending share shown has working buttons: responding to it always finds it. */
  lemma FetchedButtonsFindTheirShares(previous: seq<SharedCapsule>, reply: ListReply, i: nat, status: string,
                                      hasCallback: bool, declineOk: bool)
    requires var l := FetchShares(previous, true, reply); i < |l.shares| && OffersButtons(l.shares[i])
    ensures var l := FetchShares(previous, true, reply);
      Respond(l.shares, l.shares[i].shareId, status, true, hasCallback, declineOk).error != Some(NotFound)
  {
    var l := FetchShares(previous, true, reply);
    ButtonFindsItsShare(l.shares, i, status, hasCallback, declineOk);
  }

  // ----------------------------------------------------------- responding

  /** `sharedCapsules.find(s => s.share_id === id)`. */
  function FindShare(shares: seq<SharedCapsule>, id: int): (r: Option<SharedCapsule>)
    ensures r.None? <==> forall i | 0 <= i < |shares| :: shares[i].shareId != id
    ensures r.Some? ==> r.value in shares && r.value.shareId == id
    ensures forall i | 0 <= i < |shares| && shares[i].shareId == id && (forall j | 0 <= j < i :: shares[j].shareId != id) ::
      r == Some(shares[i])
  {
    if shares == [] then None
    else if shares[0].shareId == id then Some(shares[0])
    else
      var r := FindShare(shares[1..], id);
      assert forall i | 1 <= i < |shares| :: shares[i] == shares[1..][i - 1];
      assert r.Some? ==> r.value in shares;
      r
  }

  /** The callback's argument: the share's fields, with an absent vision sent as ''. */
  function AcceptDataOf(s: SharedCapsule): (r: AcceptData)
    ensures r.shareId == s.shareId && r.capsuleId == s.capsuleId && r.status == s.status
    ensures r.title == s.title && r.sharedBy == s.sharedBy
    ensures r.vision == if s.vision.Some? then s.vision.value else ""
  {
    AcceptData(s.shareId, s.capsuleId, s.title, if s.vision.Some? then s.vision.value else "", s.sharedBy, s.status)
  }

  /**
   * `handleShareResponse(id, status)`: without a token, or for an unknown
   * id, only an error. 'accepted' hands the share to the callback (when
   * there is one) and sends nothing; any other status sends a decline for
   * the share's capsule, refetching on success and setting an error otherwise.
   */
  function Respond(shares: seq<SharedCapsule>, id: int, status: string,
                   hasToken: bool, hasCallback: bool, declineOk: bool): (r: Effect)
    ensures !hasToken ==> r == Effect(Some(AuthRequired), None, None, false)
    ensures hasToken && FindShare(shares, id).None? ==> r == Effect(Some(NotFound), None, None, false)
    ensures r.accepted.Some? <==> hasToken && FindShare(shares, id).Some? && status == "accepted" && hasCallback
    ensures r.accepted.Some? ==> r.accepted.value == AcceptDataOf(FindShare(shares, id).value)
    ensures r.declined.Some? <==> hasToken && FindShare(shares, id).Some? && status != "accepted"
    ensures r.declined.Some? ==> r.declined.value == FindShare(shares, id).value.capsuleId
    ensures r.declined.Some? ==> (r.refetch <==> declineOk) && (r.error.Some? <==> !declineOk)
    ensures r.accepted.Some? ==> r.error.None? && r.declined.None?
  {
    if !hasToken then Nothing.(error := Some(AuthRequired))
    else
      var share := FindShare(shares, id);
      if share.None? then Nothing.(error := Some(NotFound))
      else if status == "accepted" then
        if hasCallback then Nothing.(accepted := Some(AcceptDataOf(share.value))) else Nothing
      else
        var sent := Nothing.(declined := Some(share.value.capsuleId));
        if declineOk then sent.(refetch := true) else sent.(error := Some(DeclineFailed))
  }

  /** Accept and Decline are rendered only for a pending share; any other share shows its status. */
  predicate OffersButtons(s: SharedCapsule) {
    s.status == "pending"
  }

  /** A button of a listed share always finds a share with that id: 'Share not found' needs a stale list. */
  lemma ButtonFindsItsShare(shares: seq<SharedCapsule>, i: nat, status: string, hasCallback: bool, declineOk: bool)
    requires i < |shares| && OffersButtons(shares[i])
    ensures Respond(shares, shares[i].shareId, status, true, hasCallback, declineOk).error != Some(NotFound)
  {
    assert FindShare(shares, shares[i].shareId).Some?;
  }

  /** Accepting never contacts the server from the sidebar: the accept modal does that. */
  lemma AcceptSendsNothing(shares: seq<SharedCapsule>, id: int, hasToken: bool, hasCallback: bool, declineOk: bool)
    ensures Respond(shares, id, "accepted", hasToken, hasCallback, declineOk).declined.None?
    ensures !Respond(shares, id, "accepted", hasToken, hasCallback, declineOk).refetch
  {
  }
}

=== FILE: profile.dfy ===
/**
 * The profile page: which capsules it lists and how many days each has
 * left, what a click on a capsule opens, the privacy setting's slug and
 * label, the full name's split into the edit form and join back, and the
 * friend list after a removal. Server replies and "now" are parameters.
 */
module Profile {
  import opened Js
  import TimerModal

  const MsPerDay: nat := 1000 * 3600 * 24

  /** One `capsule_users` entry, with `user_id` already parsed to an integer. */
  datatype Relation = Relation(userId: int, status: string)

  /** A capsule as fetched; `relations` is absent when the server sends no `capsule_users`. */
  datatype StoredCapsule = StoredCapsule(id: int, isOwner: bool, relations: Option<seq<Relation>>, opening: int)

  /** `capsule_users.find(u => u.user_id === me)`: the first entry for the user, if any. */
  function FindRelation(rs: seq<Relation>, me: int): (r: Option<Relation>)
    ensures r.None? <==> forall i | 0 <= i < |rs| :: rs[i].userId != me
    ensures r.Some? ==> exists i | 0 <= i < |rs| :: rs[i] == r.value && rs[i].userId == me
                          && forall j | 0 <= j < i :: rs[j].userId != me
  {
    if rs == [] then None
    else if rs[0].userId == me then Some(rs[0])
    else
      var r := FindRelation(rs[1..], me);
      assert forall i | 1 <= i < |rs| :: rs[i] == rs[1..][i - 1];
      assert r.Some? ==> exists i | 0 <= i < |rs| :: rs[i] == r.value && rs[i].userId == me
                          && forall j | 0 <= j < i :: rs[j].userId != me by {
        if r.Some? {
          var k :| 0 <= k < |rs[1..]| && rs[1..][k] == r.value && rs[1..][k].userId == me
                   && forall j | 0 <= j < k :: rs[1..][j].userId != me;
          assert rs[k + 1] == r.value && forall j | 0 <= j < k + 1 :: rs[j].userId != me;
        }
      }
      r
  }

  /** The listing rule: the user's own capsules, and shared ones whose first entry for the user is accepted. */
  predicate Listed(c: StoredCapsule, me: int) {
    c.isOwner ||
    (c.relations.Some? &&
     var rel := FindRelation(c.relations.value, me);
     rel.Some? && rel.value.status == "accepted")
  }

  function ListedCapsules(cs: seq<StoredCapsule>, me: int): (r: seq<StoredCapsule>)
    ensures forall c | c in r :: c in cs && Listed(c, me)
    ensures forall c | c in cs && Listed(c, me) :: c in r
    ensures |r| <= |cs|
  {
    if cs == [] then []
    else
      var rest := ListedCapsules(cs[1..], me);
      assert forall c | c in cs :: c == cs[0] || c in cs[1..];
      if Listed(cs[0], me) then [cs[0]] + rest else rest
  }

  /** The grid keeps the server's order: an appended capsule is listed last exactly when the listing rule admits it. */
  lemma {:induction false} ListedCapsulesAppend(cs: seq<StoredCapsule>, c: StoredCapsule, me: int)
    ensures ListedCapsules(cs + [c], me) == ListedCapsules(cs, me) + (if Listed(c, me) then [c] else [])
  {
    if cs == [] {
      assert [c][1..] == [];
    } else {
      assert (cs + [c])[1..] == cs[1..] + [c];
      ListedCapsulesAppend(cs[1..], c, me);
    }
  }

  /**
   * A shared capsule is listed exactly when the user's FIRST entry in it is
   * accepted: a later accepted entry does not help, a later declined one
   * does not hurt.
   */
  lemma {:induction false} FirstEntryDecides(c: StoredCapsule, me: int, i: nat)
    requires !c.isOwner && c.relations.Some?
    requires i < |c.relations.value| && c.relations.value[i].userId == me
    requires forall j | 0 <= j < i :: c.relations.value[j].userId != me
    ensures Listed(c, me) <==> c.relations.value[i].status == "accepted"
  {
    var rs := c.relations.value;
    var rel := FindRelation(rs, me);
    var k :| 0 <= k < |rs| && rs[k] == rel.value && rs[k].userId == me
             && forall j | 0 <= j < k :: rs[j].userId != me;
    assert k == i;
  }

  /** A capsule the user neither owns nor appears in is never listed. */
  lemma StrangersSeeNothing(c: StoredCapsule, me: int)
    requires !c.isOwner
    requires c.relations.Some? ==> forall i | 0 <= i < |c.relations.value| :: c.relations.value[i].userId != me
    ensures !Listed(c, me)
  {
  }

  /** `Math.ceil((opening - now) / 86400000)`, floored at 0. */
  function DaysLeft(opening: int, now: int): (r: nat)
    ensures r == 0 <==> opening - now <= 0
    ensures r > 0 ==> (r - 1) * MsPerDay < opening - now <= r * MsPerDay
  {
    var days := (opening - now + MsPerDay - 1) / MsPerDay;   // ceiling: the divisor is positive
    if days > 0 then days else 0
  }

  /** A capsule with its days left attached. */
  datatype Dated = Dated(capsule: StoredCapsule, daysLeft: nat)

  function WithDaysLeft(cs: seq<StoredCapsule>, now: int): (r: seq<Dated>)
    ensures |r| == |cs|
    ensures forall i | 0 <= i < |cs| :: r[i].capsule == cs[i] && r[i].daysLeft == DaysLeft(cs[i].opening, now)
  {
    seq(|cs|, i requires 0 <= i < |cs| => Dated(cs[i], DaysLeft(cs[i].opening, now)))
  }

  /** Which of the two capsule overlays is showing, and for which capsule. */
  datatype View = View(timer: Option<Dated>, viewer: Option<Dated>)

  const Closed := View(None, None)

  /** `handleCapsuleClick`: a capsule with days left opens the countdown, any other opens the capsule. */
  function Click(v: View, c: Dated): (r: View)
    ensures c.daysLeft > 0 ==> r.timer == Some(c) && r.viewer == v.viewer
    ensures c.daysLeft == 0 ==> r.viewer == Some(c) && r.timer == v.timer
  {
    if c.daysLeft > 0 then v.(timer := Some(c)) else v.(viewer := Some(c))
  }

  function CloseTimer(v: View): View { v.(timer := None) }

  function CloseCapsule(v: View): View { v.(viewer := None) }

  /** From the page itself a click opens exactly one overlay, and closing it gives the page back. */
  lemma ClickOpensOne(c: Dated)
    ensures var v := Click(Closed, c);
      (v.timer.Some? <==> c.daysLeft > 0) && (v.viewer.Some? <==> c.daysLeft == 0)
    ensures CloseTimer(CloseCapsule(Click(Closed, c))) == Closed
  {
  }

  /**
   * In the last second before opening the page still counts one day left
   * and opens the countdown, which then shows all zeros and does not tick.
   */
  lemma LastSecondOpensStoppedTimer(opening: int, now: int)
    requires 0 < opening - now < TimerModal.MsPerSecond
    ensures DaysLeft(opening, now) == 1
    ensures TimerModal.AllZero(TimerModal.CalculateTimeLeft(opening, now))
  {
    TimerModal.StopsWithinLastSecond(opening, now);
  }

  /** `s.replace(a, b)` with a one-character pattern: only the first occurrence changes. */
  function ReplaceFirst(s: string, a: char, b: char): (r: string)
    ensures |r| == |s|
    ensures a !in s ==> r == s
  {
    if s == [] then []
    else if s[0] == a then [b] + s[1..]
    else
      assert s == [s[0]] + s[1..];
      [s[0]] + ReplaceFirst(s[1..], a, b)
  }

  /** The occurrence replaced is the first one, and nothing else changes. */
  lemma {:induction false} ReplaceFirstAt(s: string, a: char, b: char, i: nat)
    requires i < |s| && s[i] == a && a !in s[..i]
    ensures ReplaceFirst(s, a, b) == s[..i] + [b] + s[i + 1..]
  {
    if i > 0 {
      assert s[0] == s[..i][0];
      assert s[1..][..i - 1] == s[1..i];
      assert a !in s[1..][..i - 1];
      ReplaceFirstAt(s[1..], a, b, i - 1);
      assert s[..i] == [s[0]] + s[1..i];
    }
  }

  /** Replacing back restores the text when the replacement character did not occur in it. */
  lemma {:induction false} ReplaceFirstUndone(s: string, a: char, b: char)
    requires b !in s
    ensures ReplaceFirst(ReplaceFirst(s, a, b), b, a) == s
  {
    if s != [] && s[0] != a {
      ReplaceFirstUndone(s[1..], a, b);
      assert s == [s[0]] + s[1..];
    }
  }

  /** `option.toLowerCase().replace(' ', '_')`: the value sent when a privacy option is picked. */
  function Slug(option: string): string {
    ReplaceFirst(ToLower(option), ' ', '_')
  }

  /** The privacy label: first letter capitalised and the first `_` shown as a space; 'Public' when unset. */
  function PrivacyLabel(privacy: Option<string>): (r: string)
    ensures privacy.None? || privacy == Some("") ==> r == "Public"
    ensures privacy.Some? && privacy.value != "" ==> |r| == |privacy.value|
  {
    if privacy.None? || privacy.value == "" then "Public"
    else [UpperChar(privacy.value[0])] + ReplaceFirst(privacy.value[1..], '_', ' ')
  }

  /** The three options of the settings menu and the values they send. */
  lemma PrivateSlug()
    ensures Slug("Private") == "private"
  {
    var t := ToLower("Private");
    assert t == "private";
    assert forall i | 0 <= i < |t| :: t[i] != ' ';
    assert ReplaceFirst(t, ' ', '_') == t;
  }

  lemma PublicSlug()
    ensures Slug("Public") == "public"
  {
    var t := ToLower("Public");
    assert t == "public";
    assert forall i | 0 <= i < |t| :: t[i] != ' ';
    assert ReplaceFirst(t, ' ', '_') == t;
  }

  /** The one option with a space is sent as `friends_only`, a value outside the capsule privacy set. */
  lemma FriendsOnlySlug()
    ensures Slug("Friends Only") == "friends_only"
  {
    assert ToLower("Friends Only") == "friends only";
    SpaceBecomesUnderscore("friends only");
  }

  lemma SpaceBecomesUnderscore(t: string)
    requires t == "friends only"
    ensures ReplaceFirst(t, ' ', '_') == "friends_only"
  {
    var word, rest := "friends", "only";
    FriendsOnlyParts(t, word, rest);
    ReplaceAfter(word, rest, ' ', '_');
    FriendsOnlyJoined(word, rest);
  }

  lemma FriendsOnlyParts(t: string, word: string, rest: string)
    requires t == "friends only" && word == "friends" && rest == "only"
    ensures t == word + [' '] + rest && ' ' !in word
  {
    assert t[..7] == word && t[7] == ' ' && t[8..] == rest;
    assert t == t[..7] + [t[7]] + t[8..];
  }

  lemma FriendsOnlyJoined(word: string, rest: string)
    requires word == "friends" && rest == "only"
    ensures word + ['_'] + rest == "friends_only"
  {
    var u := "friends_only";
    assert u[..7] == word && u[7] == '_' && u[8..] == rest;
    assert u == u[..7] + [u[7]] + u[8..];
  }

  /** Text free of the pattern is passed over: the replacement lands right after it. */
  lemma {:induction false} ReplaceAfter(p: string, q: string, a: char, b: char)
    requires a !in p
    ensures ReplaceFirst(p + [a] + q, a, b) == p + [b] + q
  {
    var s := p + [a] + q;
    if p == [] {
      assert s == [a] + q;
    } else {
      assert s[0] == p[0] && s[0] != a;
      assert s[1..] == p[1..] + [a] + q;
      assert ReplaceFirst(s, a, b) == [s[0]] + ReplaceFirst(s[1..], a, b);
      ReplaceAfter(p[1..], q, a, b);
      assert p + [b] + q == [p[0]] + (p[1..] + [b] + q);
    }
  }

  /**
   * The label reads back as the option exactly when the option is one
   * capitalised word group with no further capitals and no underscore.
   */
  lemma {:induction false} LabelOfSlug(option: string)
    requires option != [] && 'A' <= option[0] <= 'Z'
    requires forall i | 1 <= i < |option| :: !('A' <= option[i] <= 'Z')
    requires '_' !in option
    ensures PrivacyLabel(Some(Slug(option))) == option
  {
    var rest := option[1..];
    var slug := Slug(option);
    SlugOfWord(option);
    assert slug[0] == LowerChar(option[0]) && slug[1..] == ReplaceFirst(rest, ' ', '_');
    assert '_' !in rest;
    ReplaceFirstUndone(rest, ' ', '_');
    assert UpperChar(slug[0]) == option[0];
    assert option == [option[0]] + rest;
  }

  /** A capitalised word group is sent as its lowered first letter, then the rest with its first space replaced. */
  lemma {:induction false} SlugOfWord(option: string)
    requires option != [] && 'A' <= option[0] <= 'Z'
    requires forall i | 1 <= i < |option| :: !('A' <= option[i] <= 'Z')
    ensures Slug(option) == [LowerChar(option[0])] + ReplaceFirst(option[1..], ' ', '_')
  {
    var t := ToLower(option);
    assert t[1..] == option[1..] by {
      forall i | 0 <= i < |t| - 1 ensures t[1..][i] == option[1..][i] {
        assert t[i + 1] == LowerChar(option[i + 1]);
      }
    }
    assert t[0] == LowerChar(option[0]) != ' ';
    assert t == [t[0]] + t[1..];
  }

  /**
   * The label of a stored value: its first letter capitalised and its first
   * `_` after that shown as a space, so "friends_only" reads "Friends only".
   */
  lemma {:induction false} LabelAt(p: string, i: nat)
    requires 1 <= i < |p| && p[i] == '_' && '_' !in p[1..i]
    ensures PrivacyLabel(Some(p)) == [UpperChar(p[0])] + p[1..i] + " " + p[i + 1..]
  {
    assert p[1..][..i - 1] == p[1..i];
    assert p[1..][i - 1 + 1..] == p[i + 1..];
    ReplaceFirstAt(p[1..], '_', ' ', i - 1);
  }

  /** The index of the first space, or the length when there is none. */
  function FirstSpace(s: string): (r: nat)
    ensures r <= |s|
    ensures ' ' !in s[..r]
    ensures r < |s| ==> s[r] == ' '
  {
    if s == [] then 0
    else if s[0] == ' ' then 0
    else
      var r := FirstSpace(s[1..]);
      assert s[..r + 1] == [s[0]] + s[1..][..r];
      r + 1
  }

  /** `name.split(' ')[0]`. */
  function FirstWord(name: string): string {
    name[..FirstSpace(name)]
  }

  /** `name.split(' ')[1] || ''`: the text between the first and second spaces. */
  function SecondWord(name: string): string {
    var k := FirstSpace(name);
    if k == |name| then ""
    else
      var rest := name[k + 1..];
      rest[..FirstSpace(rest)]
  }

  /** `${firstName} ${lastName}`.trim(). */
  function JoinName(first: string, last: string): string {
    Trim(first + " " + last)
  }

  predicate AtMostOneSpace(s: string) {
    forall i, j | 0 <= i < j < |s| :: !(s[i] == ' ' && s[j] == ' ')
  }

  /** A trimmed name with at most one space survives the split into the edit form and the join back. */
  lemma {:induction false} NameRoundTrip(name: string)
    requires name == [] || (!IsSpace(name[0]) && !IsSpace(name[|name| - 1]))
    requires AtMostOneSpace(name)
    ensures JoinName(FirstWord(name), SecondWord(name)) == name
  {
    var k := FirstSpace(name);
    if k == |name| {
      assert FirstWord(name) + " " + SecondWord(name) == name + " ";
      if name == [] {
        assert Blank(" ");
      } else {
        TrimDropsTrailingSpace(name);
      }
    } else {
      var rest := name[k + 1..];
      assert ' ' !in rest by {
        forall j | 0 <= j < |rest| ensures rest[j] != ' ' {
          assert rest[j] == name[k + 1 + j];
        }
      }
      assert SecondWord(name) == rest;
      assert FirstWord(name) + " " + rest == name;
      TrimOfTrimmed(name);
    }
  }

  /** The first space is the only position with no space before it and a space (or the end) at it. */
  lemma FirstSpaceAt(s: string, k: nat)
    requires k <= |s| && ' ' !in s[..k] && (k < |s| ==> s[k] == ' ')
    ensures FirstSpace(s) == k
  {
  }

  /** A third word is dropped: "Ann Marie Lee" is saved back as "Ann Marie". */
  lemma {:induction false} ThirdWordIsDropped(name: string)
    requires name == "Ann Marie Lee"
    ensures JoinName(FirstWord(name), SecondWord(name)) == "Ann Marie"
  {
    AnnMarieLeeWords(name);
    var joined := FirstWord(name) + " " + SecondWord(name);
    assert joined == "Ann Marie";
    TrimOfTrimmed(joined);
  }

  lemma AnnMarieLeeWords(name: string)
    requires name == "Ann Marie Lee"
    ensures FirstWord(name) == "Ann" && SecondWord(name) == "Marie"
  {
    assert name == "Ann" + " " + "Marie Lee";
    assert name[..3] == "Ann" && name[3] == ' ';
    FirstSpaceAt(name, 3);
    MarieLeeFirstSpace(name[4..]);
  }

  lemma MarieLeeFirstSpace(rest: string)
    requires rest == "Marie Lee"
    ensures FirstSpace(rest) == 5 && rest[..5] == "Marie"
  {
    assert rest == "Marie" + " " + "Lee";
    assert rest[..5] == "Marie" && rest[5] == ' ';
    FirstSpaceAt(rest, 5);
  }

  datatype Friend = Friend(id: int, name: string)

  /** `friends.filter(f => f.id !== id)`. */
  function DropFriend(friends: seq<Friend>, id: int): (r: seq<Friend>)
    ensures forall f :: f in r <==> f in friends && f.id != id
    ensures (forall i | 0 <= i < |friends| :: friends[i].id != id) ==> r == friends
  {
    if friends == [] then []
    else
      var rest := DropFriend(friends[1..], id);
      assert friends == [friends[0]] + friends[1..];
      if friends[0].id == id then rest else [friends[0]] + rest
  }

  /** Removal keeps the other friends in order, duplicates included. */
  lemma {:induction false} DropFriendAppend(friends: seq<Friend>, f: Friend, id: int)
    ensures DropFriend(friends + [f], id) == DropFriend(friends, id) + (if f.id != id then [f] else [])
  {
    if friends == [] {
      assert [f][1..] == [];
    } else {
      assert (friends + [f])[1..] == friends[1..] + [f];
      DropFriendAppend(friends[1..], f, id);
    }
  }

  /** The friend list, its count, and the last removal error. */
  datatype Friends = Friends(list: seq<Friend>, count: int, error: Option<string>)

  /**
   * `handleRemoveFriend(id)` given the server's verdict: on success exactly
   * that friend leaves and the count drops by one; on failure the list and
   * count stay and the server's message, or a default, becomes the error.
   */
  function RemoveFriend(s: Friends, id: int, ok: bool, message: string): (r: Friends)
    ensures ok ==> (forall f :: f in r.list <==> f in s.list && f.id != id) && r.count == s.count - 1
    ensures ok ==> r.error == s.error
    ensures !ok ==> r.list == s.list && r.count == s.count
    ensures !ok ==> r.error == Some(if message != "" then message else "Failed to remove friend")
  {
    if ok then s.(list := DropFriend(s.list, id), count := s.count - 1)
    else s.(error := Some(if message != "" then message else "Failed to remove friend"))
  }

  predicate DistinctIds(friends: seq<Friend>) {
    forall i, j | 0 <= i < j < |friends| :: friends[i].id != friends[j].id
  }

  /** Removing a listed friend from a list with distinct ids shortens it by exactly one. */
  lemma {:induction false} DropListedFriend(friends: seq<Friend>, i: nat)
    requires DistinctIds(friends) && i < |friends|
    ensures |DropFriend(friends, friends[i].id)| == |friends| - 1
  {
    var id := friends[i].id;
    var rest := friends[1..];
    if i == 0 {
      assert forall j | 0 <= j < |rest| :: rest[j].id != id by {
        forall j | 0 <= j < |rest| ensures rest[j].id != id {
          assert rest[j] == friends[j + 1];
        }
      }
    } else {
      assert DistinctIds(rest) by {
        forall a, b | 0 <= a < b < |rest| ensures rest[a].id != rest[b].id {
          assert rest[a] == friends[a + 1] && rest[b] == friends[b + 1];
        }
      }
      assert rest[i - 1] == friends[i];
      DropListedFriend(rest, i - 1);
    }
  }

  /** A successful removal of a listed friend keeps the shown count equal to the list's length. */
  lemma CountTracksList(s: Friends, i: nat, message: string)
    requires DistinctIds(s.list) && i < |s.list| && s.count == |s.list|
    ensures var r := RemoveFriend(s, s.list[i].id, true, message); r.count == |r.list|
  {
    DropListedFriend(s.list, i);
  }
}

=== FILE: profile_capsule_grid.dfy ===
/**
 * The capsule grid on the profile page: the design theme a card is drawn
 * with, whether it is ready to open, which preview its face shows, the
 * truncated message preview and the photo-count label.
 */
module ProfileCapsuleGrid {
  import opened Js
  import Profile

  /** The four themes the grid has styles for. */
  datatype Theme = Heritage | Chronicle | Legacy | Vault

  function ThemeId(t: Theme): string {
    match t
    case Heritage => "heritage"
    case Chronicle => "chronicle"
    case Legacy => "legacy"
    case Vault => "vault"
  }

  /** `getDesignStyles(capsule.design || 'heritage')`: a known id picks its theme, anything else heritage. */
  function ThemeOf(design: Option<string>): (r: Theme)
    ensures r == Chronicle <==> design == Some("chronicle")
    ensures r == Legacy <==> design == Some("legacy")
    ensures r == Vault <==> design == Some("vault")
  {
    var d := if design.None? || design.value == "" then "heritage" else design.value;
    if d == "chronicle" then Chronicle
    else if d == "legacy" then Legacy
    else if d == "vault" then Vault
    else Heritage
  }

  /** Every theme is reachable by its own id, so the fallback never hides a known design. */
  lemma {:induction false} ThemeIdsRoundTrip(t: Theme)
    ensures ThemeOf(Some(ThemeId(t))) == t
  {
    match t
    case Heritage =>
    case Chronicle =>
    case Legacy =>
    case Vault =>
  }

  /** `capsule.daysLeft <= 0`. */
  predicate IsReady(daysLeft: int) {
    daysLeft <= 0
  }

  /** A card shows as ready exactly when the page's click would open the capsule rather than the countdown. */
  lemma ReadyMeansOpens(c: Profile.Dated)
    ensures IsReady(c.daysLeft) <==> Profile.Click(Profile.Closed, c).viewer == Some(c)
  {
  }

  /** With the page's day count, a card is ready exactly once its opening time has come. */
  lemma ReadyOnceOpened(opening: int, now: int)
    ensures IsReady(Profile.DaysLeft(opening, now)) <==> opening <= now
  {
  }

  /** `capsule.message && capsule.message.trim().length > 0`. */
  predicate HasMessage(message: Option<string>) {
    message.Some? && Trim(message.value) != ""
  }

  /** A message made of white space only is treated as no message at all. */
  lemma BlankMessageIsNone(message: string)
    ensures HasMessage(Some(message)) <==> !Blank(message)
  {
  }

  const PreviewLength: nat := 85

  /**
   * `message.slice(0, 85) + (message.length > 85 ? '...' : '')`, and '' without
   * a message. Both the test and the cut count UTF-16 code units: a long
   * message keeps its first 85 units, or 84 when unit 85 would split a
   * character above U+FFFF.
   */
  function Preview(message: Option<string>): (r: string)
    ensures message.None? ==> r == ""
    ensures message.Some? && Utf16Length(message.value) <= PreviewLength ==> r == message.value
    ensures message.Some? && Utf16Length(message.value) > PreviewLength ==>
      var m, k := message.value, UnitPrefix(message.value, PreviewLength);
      && k < |m| && r == m[..k] + "..."
      && (Utf16Length(m[..k]) == PreviewLength || (Utf16Length(m[..k]) == PreviewLength - 1 && m[k] as int > 0xFFFF))
  {
    if message.None? then ""
    else
      var m := message.value;
      var k := UnitPrefix(m, PreviewLength);
      if Utf16Length(m) > PreviewLength then
        assert m[..|m|] == m;
        NextUnits(m, k);
        m[..k] + "..."
      else
        assert k == |m| by {
          if k < |m| {
            PrefixUnits(m, k + 1);
          }
        }
        m
  }

  /** A preview never exceeds 88 code units and always starts with the part of the message the cut keeps. */
  lemma PreviewIsBoundedPrefix(message: string)
    ensures Utf16Length(Preview(Some(message))) <= PreviewLength + 3
    ensures var k := UnitPrefix(message, PreviewLength); message[..k] <= Preview(Some(message))
  {
    var r := Preview(Some(message));
    var k := UnitPrefix(message, PreviewLength);
    if Utf16Length(message) > PreviewLength {
      Utf16LengthConcat(message[..k], "...");
      assert Utf16Length("...") == 3 by {
        Utf16LengthCounts("...");
      }
    } else {
      assert k == |message| by {
        if k < |message| {
          PrefixUnits(message, k + 1);
        }
      }
    }
  }

  /** `images.length === 1 ? 'Photo' : 'Photos'`. */
  function PhotoNoun(count: nat): string {
    if count == 1 then "Photo" else "Photos"
  }

  /** The caption under the sealed photos. */
  function PhotoLabel(count: nat): string {
    NatToString(count) + " " + PhotoNoun(count) + " sealed in this memory"
  }

  /** The label is singular exactly for one photo, and its leading digits read back as the count. */
  lemma {:induction false} PhotoLabelReadsBack(count: nat)
    ensures PhotoNoun(count) == "Photo" <==> count == 1
    ensures var digits := NatToString(count);
      digits <= PhotoLabel(count) && DigitsValue(digits) == count
  {
    NatToStringRoundTrip(count);
  }

  /** What a card reads of a capsule: its design and its parsed images and message. */
  datatype GridCapsule = GridCapsule(design: Option<string>, images: seq<string>, message: Option<string>)

  /** A rendered card: its theme and its face. */
  datatype Card = Card(theme: Theme, face: Face)

  /** The three faces a card's preview can have. */
  datatype Face = Photos(count: nat, withMessage: bool) | Message(text: string) | Sealed

  /** Photos win over a message, a message over the sealed face. */
  function FaceOf(images: seq<string>, message: Option<string>): (r: Face)
    ensures r.Photos? <==> |images| > 0
    ensures r.Photos? ==> r.count == |images| && (r.withMessage <==> HasMessage(message))
    ensures r.Message? <==> |images| == 0 && HasMessage(message)
    ensures r.Message? ==> r.text == Preview(message)
  {
    if |images| > 0 then Photos(|images|, HasMessage(message))
    else if HasMessage(message) then Message(Preview(message))
    else Sealed
  }

  /**
   * The grid: a value that is not an array shows no cards; otherwise one
   * card per capsule, in order, themed by its design and faced by its content.
   */
  function Cards(capsules: Json<GridCapsule>): (r: seq<Card>)
    ensures capsules.NotArray? ==> r == []
    ensures capsules.Array? ==> |r| == |capsules.items|
    ensures capsules.Array? ==> forall i | 0 <= i < |r| ::
      r[i] == Card(ThemeOf(capsules.items[i].design), FaceOf(capsules.items[i].images, capsules.items[i].message))
  {
    var cs := ArrayOrEmpty(capsules);
    seq(|cs|, i requires 0 <= i < |cs| => Card(ThemeOf(cs[i].design), FaceOf(cs[i].images, cs[i].message)))
  }

  /** Cards of consecutive lists are the cards of each list: the grid never reorders or merges capsules. */
  lemma CardsAppend(a: seq<GridCapsule>, b: seq<GridCapsule>)
    ensures Cards(Array(a + b)) == Cards(Array(a)) + Cards(Array(b))
  {
    var l, r := Cards(Array(a + b)), Cards(Array(a)) + Cards(Array(b));
    assert forall i | 0 <= i < |l| :: l[i] == r[i];
  }
}

=== FILE: profile_modal.dfy ===
/**
 * The profile edit modal: an editing mode over the profile form with
 * per-field errors shown once a field is touched, a Save button enabled
 * only when something changed, and a confirm mode asking for the current
 * password before the form goes to the server. The server's reply is a
 * parameter.
 */
module ProfileModal {
  import opened Js
  import opened ProfileValidation

  /** The text fields, the ones an input's change event can name. */
  type TextKey = k: ProfileField | k != Image witness FirstName

  const AllFields: set<ProfileField> := {FirstName, LastName, Email, Bio, Image, NewPassword, ConfirmNewPassword}

  const CorrectErrors := "Please correct the errors before submitting"
  const Updated := "Profile updated successfully!"

  /** The server's answer to the update: success, 422 with field errors, or any other failure with its message. */
  datatype Reply = Saved | Rejected(fieldErrors: ErrorMap) | Failed(message: string)

  datatype Modal = Modal(
    form: ProfileForm,
    initial: Option<ProfileForm>,       // None until the profile has been fetched
    touched: set<ProfileField>,
    validation: ProfileErrors,
    general: Option<string>,
    confirming: bool,
    serverErrors: ErrorMap,
    confirmPassword: string,
    success: Option<string>)

  function Opened(fetched: ProfileForm): Modal {
    Modal(fetched, Some(fetched), {}, map[], None, false, map[], "", None)
  }

  /** Some field of the form is not the fetched one. */
  predicate FieldsDiffer(a: ProfileForm, b: ProfileForm) {
    a.firstName != b.firstName || a.lastName != b.lastName || a.email != b.email || a.bio != b.bio
    || a.image != b.image || a.newPassword != b.newPassword || a.confirmNewPassword != b.confirmNewPassword
  }

  /** `hasChanges`: before the fetch every key differs from the empty snapshot. */
  function HasChanges(m: Modal): (r: bool)
    ensures r <==> m.initial.None? || FieldsDiffer(m.form, m.initial.value)
  {
    m.initial.None? || m.form != m.initial.value
  }

  function SetText(form: ProfileForm, k: TextKey, value: string): (r: ProfileForm)
    ensures r.image == form.image
  {
    match k
    case FirstName => form.(firstName := Some(value))
    case LastName => form.(lastName := Some(value))
    case Email => form.(email := Some(value))
    case Bio => form.(bio := Some(value))
    case NewPassword => form.(newPassword := Some(value))
    case ConfirmNewPassword => form.(confirmNewPassword := Some(value))
  }

  /** `{...prev, [k]: errors[k]}`: the field's error as the validator now sees it, other fields kept. */
  function Reassess(shown: ProfileErrors, errors: ProfileErrors, k: ProfileField): (r: ProfileErrors)
    ensures k in r <==> k in errors
    ensures k in r ==> r[k] == errors[k]
    ensures forall j | j != k :: (j in r <==> j in shown) && (j in r ==> r[j] == shown[j])
  {
    if k in errors then shown[k := errors[k]] else shown - {k}
  }

  /** A text input changes: the form takes the value; a touched field is checked again against the new form. */
  function ChangeText(m: Modal, k: TextKey, value: string): (r: Modal)
    ensures r.form == SetText(m.form, k, value)
    ensures k in m.touched ==> r.validation == Reassess(m.validation, ValidateProfileForm(r.form), k)
    ensures k !in m.touched ==> r.validation == m.validation
    ensures r.confirming == m.confirming
  {
    var form := SetText(m.form, k, value);
    m.(form := form,
       validation := if k in m.touched then Reassess(m.validation, ValidateProfileForm(form), k) else m.validation)
  }

  /** A field loses focus: it becomes touched and its error is the validator's for the current form. */
  function Blur(m: Modal, k: ProfileField): (r: Modal)
    ensures r.touched == m.touched + {k}
    ensures r.validation == Reassess(m.validation, ValidateProfileForm(m.form), k)
    ensures r.form == m.form && r.confirming == m.confirming
  {
    m.(touched := m.touched + {k}, validation := Reassess(m.validation, ValidateProfileForm(m.form), k))
  }

  /** A file is chosen: its size is checked at once against the 2 MB limit. */
  function ChooseImage(m: Modal, file: File): (r: Modal)
    ensures r.form == m.form.(image := Some(file))
    ensures Image in r.validation <==> file.size > MaxImageSize
    ensures Image in r.validation ==> r.validation[Image] == ImageTooLarge
    ensures forall j | j != Image :: (j in r.validation <==> j in m.validation)
    ensures r.confirming == m.confirming
  {
    m.(form := m.form.(image := Some(file)),
       validation := if file.size > MaxImageSize then m.validation[Image := ImageTooLarge] else m.validation - {Image})
  }

  /** The immediate check agrees with the validator's own rule for the chosen image. */
  lemma ImageCheckAgrees(m: Modal, file: File)
    ensures Image in ChooseImage(m, file).validation <==> Image in ValidateProfileForm(ChooseImage(m, file).form)
  {
  }

  /**
   * `handleSubmit`: every field becomes touched and shows the validator's
   * errors; with errors the modal stays in editing with a general error,
   * without them all errors clear and the confirm step opens.
   */
  function Submit(m: Modal): (r: Modal)
    ensures r.touched == AllFields && r.validation == ValidateProfileForm(m.form)
    ensures r.confirming <==> m.confirming || ValidateProfileForm(m.form) == map[]
    ensures ValidateProfileForm(m.form) != map[] ==> r.general == Some(CorrectErrors)
    ensures ValidateProfileForm(m.form) == map[] ==> r.general == None
    ensures r.form == m.form
  {
    var errors := ValidateProfileForm(m.form);
    var checked := m.(touched := AllFields, validation := errors);
    if errors != map[] then checked.(general := Some(CorrectErrors))
    else checked.(general := None, confirming := true)
  }

  /** One part of the outgoing multipart form. */
  datatype Part = TextPart(text: string) | FilePart(file: File)

  /** The form's keys in order, each with its value; None is a null value. */
  function Slots(form: ProfileForm): seq<(string, Option<Part>)> {
    [("firstName", TextValue(form.firstName)), ("lastName", TextValue(form.lastName)), ("email", TextValue(form.email)),
     ("bio", TextValue(form.bio)), ("image", if form.image.Some? then Some(FilePart(form.image.value)) else None),
     ("newPassword", TextValue(form.newPassword)), ("confirmNewPassword", TextValue(form.confirmNewPassword))]
  }

  function TextValue(v: Option<string>): Option<Part> {
    if v.Some? then Some(TextPart(v.value)) else None
  }

  /** `if (formData[key] !== null) append(key, formData[key])` over the keys in order. */
  function NonNull(slots: seq<(string, Option<Part>)>): (r: seq<(string, Part)>)
    ensures |r| <= |slots|
    ensures forall i | 0 <= i < |slots| && slots[i].1.Some? :: (slots[i].0, slots[i].1.value) in r
    ensures forall p | p in r :: (p.0, Some(p.1)) in slots
  {
    if slots == [] then []
    else
      var rest := NonNull(slots[1..]);
      assert forall i | 1 <= i < |slots| :: slots[i] == slots[1..][i - 1];
      assert forall x | x in slots[1..] :: x in slots;
      if slots[0].1.Some? then [(slots[0].0, slots[0].1.value)] + rest else rest
  }

  /** The non-null fields keep the key order: an appended slot is sent last exactly when it holds a value. */
  lemma {:induction false} NonNullAppend(slots: seq<(string, Option<Part>)>, s: (string, Option<Part>))
    ensures NonNull(slots + [s]) == NonNull(slots) + (if s.1.Some? then [(s.0, s.1.value)] else [])
  {
    if slots == [] {
      assert [s][1..] == [];
    } else {
      assert (slots + [s])[1..] == slots[1..] + [s];
      NonNullAppend(slots[1..], s);
    }
  }

  /** With every slot set nothing is dropped: the parts are the slots, one for one. */
  lemma {:induction false} NonNullKeepsAllSet(slots: seq<(string, Option<Part>)>)
    requires forall i | 0 <= i < |slots| :: slots[i].1.Some?
    ensures |NonNull(slots)| == |slots|
    ensures forall i | 0 <= i < |slots| :: NonNull(slots)[i] == (slots[i].0, slots[i].1.value)
  {
    if slots != [] {
      NonNullKeepsAllSet(slots[1..]);
    }
  }

  /** The outgoing form: each non-null field in the form's key order, then the current password. */
  function Outgoing(form: ProfileForm, confirmPassword: string): (r: seq<(string, Part)>)
    ensures |r| >= 1 && r[|r| - 1] == ("confirmPassword", TextPart(confirmPassword))
    ensures forall i | 0 <= i < 7 && Slots(form)[i].1.Some? :: (Slots(form)[i].0, Slots(form)[i].1.value) in r
    ensures forall i | 0 <= i < |r| - 1 :: (r[i].0, Some(r[i].1)) in Slots(form)
  {
    NonNull(Slots(form)) + [("confirmPassword", TextPart(confirmPassword))]
  }

  /** The keys of a form's slots, in the order the source lists them. */
  const FormKeys: seq<string> := ["firstName", "lastName", "email", "bio", "image", "newPassword", "confirmNewPassword"]

  /** A fully filled form goes out as all seven fields in key order, each with its value, then the current password. */
  lemma OutgoingInKeyOrder(form: ProfileForm, pw: string)
    requires form.firstName.Some? && form.lastName.Some? && form.email.Some? && form.bio.Some?
    requires form.image.Some? && form.newPassword.Some? && form.confirmNewPassword.Some?
    ensures |Outgoing(form, pw)| == 8 && Outgoing(form, pw)[7] == ("confirmPassword", TextPart(pw))
    ensures forall i | 0 <= i < 7 :: Outgoing(form, pw)[i].0 == FormKeys[i] && Some(Outgoing(form, pw)[i].1) == Slots(form)[i].1
  {
    var slots := Slots(form);
    assert forall i | 0 <= i < |slots| :: slots[i].1.Some? && slots[i].0 == FormKeys[i];
    NonNullKeepsAllSet(slots);
  }

  /** A null field is never sent: with no bio, no part is named `bio`. */
  lemma NullFieldsStayHome(form: ProfileForm, pw: string)
    requires form.bio.None?
    ensures forall i | 0 <= i < |Outgoing(form, pw)| :: Outgoing(form, pw)[i].0 != "bio"
  {
  }

  /** `handleConfirm` once the server has answered. */
  function Confirm(m: Modal, reply: Reply): (r: Modal)
    ensures reply.Rejected? ==> !r.confirming && r.serverErrors == reply.fieldErrors && r.general == m.general
    ensures reply.Failed? ==> !r.confirming && r.general == Some(reply.message) && r.serverErrors == m.serverErrors
    ensures reply.Saved? ==> r.confirming == m.confirming && r.success == Some(Updated)
    ensures r.form == m.form && r.validation == m.validation
  {
    match reply
    case Rejected(errors) => m.(serverErrors := errors, confirming := false)
    case Failed(message) => m.(general := Some(message), confirming := false)
    case Saved => m.(success := Some(Updated))
  }

  datatype Event =
    | Type(key: TextKey, value: string)
    | Leave(field: ProfileField)
    | Pick(file: File)
    | Save
    | Password(text: string)
    | Back
    | Send(reply: Reply)

  /** What the modal renders: the editing form, or the confirm step; Save is disabled without changes. */
  predicate Available(m: Modal, e: Event) {
    match e
    case Type(_, _) => !m.confirming
    case Leave(_) => !m.confirming
    case Pick(_) => !m.confirming
    case Save => !m.confirming && HasChanges(m)
    case Password(_) => m.confirming
    case Back => m.confirming
    case Send(_) => m.confirming
  }

  function Step(m: Modal, e: Event): (r: Modal)
    ensures !Available(m, e) ==> r == m
  {
    if !Available(m, e) then m
    else match e
      case Type(k, v) => ChangeText(m, k, v)
      case Leave(k) => Blur(m, k)
      case Pick(file) => ChooseImage(m, file)
      case Save => Submit(m)
      case Password(p) => m.(confirmPassword := p)
      case Back => m.(confirming := false)
      case Send(reply) => Confirm(m, reply)
  }

  /** The confirm step is only ever showing for a form the validator passes. */
  ghost predicate ConfirmsClean(m: Modal) {
    m.confirming ==> ValidateProfileForm(m.form) == map[]
  }

  /** No single event opens the confirm step on a form the validator refuses. */
  lemma StepConfirmsClean(m: Modal, e: Event)
    requires ConfirmsClean(m)
    ensures ConfirmsClean(Step(m, e))
  {
    if Available(m, e) {
      match e
      case Type(k, v) => assert !ChangeText(m, k, v).confirming;
      case Leave(k) => assert !Blur(m, k).confirming;
      case Pick(file) => assert !ChooseImage(m, file).confirming;
      case Save =>
      case Password(p) =>
      case Back =>
      case Send(reply) =>
    }
  }

  function Run(m: Modal, events: seq<Event>): Modal
    decreases |events|
  {
    if events == [] then m else Run(Step(m, events[0]), events[1..])
  }

  /** Whatever the user does, the confirm step only ever shows a form the validator passes. */
  lemma {:induction false} RunConfirmsClean(m: Modal, events: seq<Event>)
    requires ConfirmsClean(m)
    ensures ConfirmsClean(Run(m, events))
    decreases |events|
  {
    if events != [] {
      StepConfirmsClean(m, events[0]);
      RunConfirmsClean(Step(m, events[0]), events[1..]);
    }
  }

  /** So from the opened modal, every request sent carries a form without client-side errors. */
  lemma OnlyCleanFormsAreSent(fetched: ProfileForm, events: seq<Event>, reply: Reply)
    requires Available(Run(Opened(fetched), events), Send(reply))
    ensures ValidateProfileForm(Run(Opened(fetched), events).form) == map[]
  {
    RunConfirmsClean(Opened(fetched), events);
  }

  /** A freshly fetched profile cannot be saved until something is edited. */
  lemma NothingToSaveAtFirst(fetched: ProfileForm)
    ensures !Available(Opened(fetched), Save)
  {
  }
}

=== FILE: profile_validations.dfy ===
/**
 * `validateProfileForm`: the checks run on the profile-edit form. Every
 * field is first passed through `safeTrim`, which turns null or undefined
 * into the empty string and trims everything else; each field then gets at
 * most one message.
 */
module ProfileValidation {
  import opened Js

  /** The keys of the profile error object. */
  datatype ProfileField = FirstName | LastName | Email | Bio | NewPassword | ConfirmNewPassword | Image

  type ProfileErrors = map<ProfileField, Message>

  /** The profile form; a None text field is null or undefined. */
  datatype ProfileForm = ProfileForm(
    firstName: Option<string>,
    lastName: Option<string>,
    email: Option<string>,
    bio: Option<string>,
    image: Option<File>,
    newPassword: Option<string>,
    confirmNewPassword: Option<string>)

  /** The messages the validator can set; `Text` gives each one's wording. */
  datatype Message =
    | FirstNameRequired | FirstNameShort | FirstNameLong
    | LastNameRequired | LastNameShort | LastNameLong
    | EmailRequired | EmailInvalid | BioLong
    | PasswordShort | PasswordWeak | PasswordsDiffer | PasswordMissing
    | ImageTooLarge

  function Text(m: Message): string {
    match m
    case FirstNameRequired => "First name is required"
    case FirstNameShort => "First name must be at least 2 characters"
    case FirstNameLong => "First name must not exceed 50 characters"
    case LastNameRequired => "Last name is required"
    case LastNameShort => "Last name must be at least 2 characters"
    case LastNameLong => "Last name must not exceed 50 characters"
    case EmailRequired => "Email is required"
    case EmailInvalid => "Invalid email address"
    case BioLong => "Bio must not exceed 500 characters"
    case PasswordShort => "Password must be at least 8 characters"
    case PasswordWeak => "Password must contain at least one uppercase letter, one lowercase letter, and one number"
    case PasswordsDiffer => "Passwords do not match"
    case PasswordMissing => "Please enter a new password"
    case ImageTooLarge => "Image size must not exceed 2MB"
  }

  const MinNameLength: nat := 2
  const MaxNameLength: nat := 50
  const MaxBioLength: nat := 500
  const MinPasswordLength: nat := 8
  /** 2 MiB. */
  const MaxImageSize: nat := 2 * 1024 * 1024

  /** `safeTrim(value)`. */
  function SafeTrim(v: Option<string>): (r: string)
    ensures v == None ==> r == ""
    ensures v.Some? ==> r == Trim(v.value)
  {
    match v
    case None => ""
    case Some(s) => Trim(s)
  }

  predicate IsLetter(c: char) { 'a' <= c <= 'z' || 'A' <= c <= 'Z' }
  predicate IsDigit(c: char) { '0' <= c <= '9' }

  /** `[A-Z0-9._%+-]` under the `i` flag. */
  predicate IsLocalChar(c: char) {
    IsLetter(c) || IsDigit(c) || c == '.' || c == '_' || c == '%' || c == '+' || c == '-'
  }

  /** `[A-Z0-9.-]` under the `i` flag. */
  predicate IsDomainChar(c: char) {
    IsLetter(c) || IsDigit(c) || c == '.' || c == '-'
  }

  /** The part after `@` matches `[A-Z0-9.-]+\.[A-Z]{2,}`. */
  predicate IsDomainPart(d: string) {
    exists dot | 1 <= dot <= |d| - 3 ::
      && d[dot] == '.'
      && (forall k | 0 <= k < dot :: IsDomainChar(d[k]))
      && (forall k | dot < k < |d| :: IsLetter(d[k]))
  }

  /** The language of `/^[A-Z0-9._%+-]+@[A-Z0-9.-]+\.[A-Z]{2,}$/i`. */
  predicate IsProfileEmail(s: string) {
    exists at | 1 <= at < |s| :: SplitsAt(s, at)
  }

  /** `s` reads as a non-empty local part, the `@` at index `at`, and a domain part. */
  predicate SplitsAt(s: string, at: int) {
    && 1 <= at < |s|
    && s[at] == '@'
    && (forall k | 0 <= k < at :: IsLocalChar(s[k]))
    && IsDomainPart(s[at + 1..])
  }

  /** Every character of an accepted domain part is a domain character, and the last one is a letter. */
  lemma {:induction false} DomainPartChars(d: string)
    requires IsDomainPart(d)
    ensures forall k | 0 <= k < |d| :: IsDomainChar(d[k])
    ensures IsLetter(d[|d| - 1])
  {
    var dot :| 1 <= dot <= |d| - 3 && d[dot] == '.' && (forall k | 0 <= k < dot :: IsDomainChar(d[k])) && (forall k | dot < k < |d| :: IsLetter(d[k]));
    forall k | 0 <= k < |d| ensures IsDomainChar(d[k]) {
      if k > dot {
        assert IsLetter(d[k]);
      }
    }
  }

  /** Splits an accepted address at its `@`: local-part characters before it, domain characters after it. */
  lemma {:induction false} SplitAddress(s: string) returns (at: nat)
    requires IsProfileEmail(s)
    ensures 1 <= at < |s| && s[at] == '@' && IsDomainPart(s[at + 1..])
    ensures forall i | 0 <= i < at :: IsLocalChar(s[i])
    ensures forall i | at < i < |s| :: IsDomainChar(s[i])
    ensures IsLetter(s[|s| - 1])
  {
    at :| 1 <= at < |s| && SplitsAt(s, at);
    DomainAfter(s, at);
  }

  /** The domain part's facts, read back at their positions in the whole address. */
  lemma {:induction false} DomainAfter(s: string, at: nat)
    requires at < |s| && IsDomainPart(s[at + 1..])
    ensures forall i | at < i < |s| :: IsDomainChar(s[i])
    ensures IsLetter(s[|s| - 1])
  {
    var d := s[at + 1..];
    DomainPartChars(d);
    forall i | at < i < |s| ensures IsDomainChar(s[i]) {
      assert s[i] == d[i - at - 1];
    }
    assert s[|s| - 1] == d[|d| - 1];
  }

  /** An accepted address has exactly one `@`, no white space, and ends in a letter. */
  lemma {:induction false} ProfileEmailShape(s: string)
    requires IsProfileEmail(s)
    ensures exists at | 0 <= at < |s| :: s[at] == '@' && forall i | 0 <= i < |s| && s[i] == '@' :: i == at
    ensures forall i | 0 <= i < |s| :: !IsSpace(s[i])
    ensures IsLetter(s[|s| - 1])
  {
    var at := SplitAddress(s);
    assert forall i | 0 <= i < |s| :: s[i] == '@' ==> i == at;
  }

  /** Two sample addresses: a two-letter top-level domain passes, a one-letter one fails. */
  lemma EmailSamples()
    ensures IsProfileEmail("jo@mail.co")
    ensures !IsProfileEmail("jo@mail.c")
  {
    var s := "jo@mail.co";
    var d := "mail.co";
    assert s[3..] == d;
    assert d[4] == '.';
    assert IsDomainPart(d);
    assert s[2] == '@' && IsLocalChar(s[0]) && IsLocalChar(s[1]);
    assert SplitsAt(s, 2);
    var t := "jo@mail.c";
    var e := "mail.c";
    forall at | 1 <= at < |t| && t[at] == '@' ensures !SplitsAt(t, at) {
      assert at == 2;
      assert t[3..] == e;
    }
  }

  /** The characters `.` does not match: the LineTerminator production of ECMAScript. */
  predicate IsLineBreak(c: char) {
    c == '\n' || c == '\r' || c == '\U{2028}' || c == '\U{2029}'
  }

  predicate HasLower(p: string) { exists i | 0 <= i < |p| :: 'a' <= p[i] <= 'z' }
  predicate HasUpper(p: string) { exists i | 0 <= i < |p| :: 'A' <= p[i] <= 'Z' }
  predicate HasDigit(p: string) { exists i | 0 <= i < |p| :: IsDigit(p[i]) }

  /**
   * `/(?=.*[a-z])(?=.*[A-Z])(?=.*\d)/.test(p)`: from some position, a
   * lower-case letter, an upper-case letter and a digit all follow before
   * the next line break.
   */
  predicate IsStrongPassword(p: string) {
    exists a, b | 0 <= a <= b <= |p| ::
      && (forall k | a <= k < b :: !IsLineBreak(p[k]))
      && HasLower(p[a..b]) && HasUpper(p[a..b]) && HasDigit(p[a..b])
  }

  /** On a single line the lookaheads just ask for the three kinds of character somewhere. */
  lemma {:induction false} SingleLineStrength(p: string)
    requires forall k | 0 <= k < |p| :: !IsLineBreak(p[k])
    ensures IsStrongPassword(p) <==> HasLower(p) && HasUpper(p) && HasDigit(p)
  {
    if HasLower(p) && HasUpper(p) && HasDigit(p) {
      assert p[0..|p|] == p;
    }
    if IsStrongPassword(p) {
      var a, b :| 0 <= a <= b <= |p| && HasLower(p[a..b]) && HasUpper(p[a..b]) && HasDigit(p[a..b]);
      var i :| 0 <= i < b - a && 'a' <= p[a..b][i] <= 'z';
      assert 'a' <= p[a + i] <= 'z';
      var j :| 0 <= j < b - a && 'A' <= p[a..b][j] <= 'Z';
      assert 'A' <= p[a + j] <= 'Z';
      var k :| 0 <= k < b - a && IsDigit(p[a..b][k]);
      assert IsDigit(p[a + k]);
    }
  }

  /** A line break between the letters defeats the lookaheads even though all three kinds occur. */
  lemma LineBreakDefeatsStrength()
    ensures HasLower("aaaaaaaA\n1") && HasUpper("aaaaaaaA\n1") && HasDigit("aaaaaaaA\n1")
    ensures !IsStrongPassword("aaaaaaaA\n1")
  {
    var p := "aaaaaaaA\n1";
    assert 'a' <= p[0] <= 'z' && 'A' <= p[7] <= 'Z' && IsDigit(p[9]);
    assert forall i | 0 <= i < 8 :: !IsDigit(p[i]);
    forall a, b | 0 <= a <= b <= |p| && (forall k | a <= k < b :: !IsLineBreak(p[k]))
      ensures !(HasUpper(p[a..b]) && HasDigit(p[a..b]))
    {
      if HasDigit(p[a..b]) {
        var k :| 0 <= k < b - a && IsDigit(p[a..b][k]);
        assert IsDigit(p[a + k]);
        assert a + k == 9;
        assert IsLineBreak(p[8]);
        assert a == 9 && b == 10;
        assert p[a..b] == "1";
      }
    }
  }

  /** The ordered required / too short / too long check on a trimmed name. */
  function NameError(name: string, required: Message, short: Message, long: Message): (r: Option<Message>)
    ensures r == None <==> MinNameLength <= Utf16Length(name) <= MaxNameLength
    ensures name == "" ==> r == Some(required)
    ensures name != "" && Utf16Length(name) < MinNameLength ==> r == Some(short)
    ensures Utf16Length(name) > MaxNameLength ==> r == Some(long)
  {
    if name == "" then Some(required)
    else if Utf16Length(name) < MinNameLength then Some(short)
    else if Utf16Length(name) > MaxNameLength then Some(long)
    else None
  }

  function EmailError(email: string): (r: Option<Message>)
    ensures r == None <==> email != "" && IsProfileEmail(email)
    ensures email == "" ==> r == Some(EmailRequired)
    ensures email != "" && !IsProfileEmail(email) ==> r == Some(EmailInvalid)
  {
    if email == "" then Some(EmailRequired)
    else if !IsProfileEmail(email) then Some(EmailInvalid)
    else None
  }

  /** The message set on `newPassword`, if any. */
  function NewPasswordError(np: string, cp: string): (r: Option<Message>)
    ensures np != "" ==> (r == None <==> Utf16Length(np) >= MinPasswordLength && IsStrongPassword(np))
    ensures np != "" && Utf16Length(np) < MinPasswordLength ==> r == Some(PasswordShort)
    ensures np != "" && Utf16Length(np) >= MinPasswordLength && !IsStrongPassword(np) ==> r == Some(PasswordWeak)
    ensures np == "" ==> (r == None <==> cp == "")
    ensures np == "" && cp != "" ==> r == Some(PasswordMissing)
  {
    if np != "" then
      if Utf16Length(np) < MinPasswordLength then Some(PasswordShort)
      else if !IsStrongPassword(np) then Some(PasswordWeak)
      else None
    else if cp != "" then Some(PasswordMissing)
    else None
  }

  /** The message set on `confirmNewPassword`, if any: only a given new password can be mismatched. */
  function ConfirmError(np: string, cp: string): (r: Option<Message>)
    ensures r.Some? <==> np != "" && np != cp
    ensures r.Some? ==> r.value == PasswordsDiffer
  {
    if np != "" && np != cp then Some(PasswordsDiffer) else None
  }

  /** The form after `safeTrim`: the only view of the text fields the checks take. */
  datatype Trimmed = Trimmed(
    firstName: string, lastName: string, email: string, bio: string,
    newPassword: string, confirmNewPassword: string, image: Option<File>)

  function TrimFields(form: ProfileForm): (t: Trimmed)
    ensures t.firstName == SafeTrim(form.firstName) && t.lastName == SafeTrim(form.lastName)
    ensures t.email == SafeTrim(form.email) && t.bio == SafeTrim(form.bio)
    ensures t.newPassword == SafeTrim(form.newPassword)
    ensures t.confirmNewPassword == SafeTrim(form.confirmNewPassword)
    ensures t.image == form.image
  {
    Trimmed(SafeTrim(form.firstName), SafeTrim(form.lastName), SafeTrim(form.email), SafeTrim(form.bio),
            SafeTrim(form.newPassword), SafeTrim(form.confirmNewPassword), form.image)
  }

  /** The check on one key, in the order the validator runs them; None means the key is not set. */
  function FieldError(t: Trimmed, k: ProfileField): Option<Message> {
    match k
    case FirstName => NameError(t.firstName, FirstNameRequired, FirstNameShort, FirstNameLong)
    case LastName => NameError(t.lastName, LastNameRequired, LastNameShort, LastNameLong)
    case Email => EmailError(t.email)
    case Bio => if t.bio != "" && Utf16Length(t.bio) > MaxBioLength then Some(BioLong) else None
    case NewPassword => NewPasswordError(t.newPassword, t.confirmNewPassword)
    case ConfirmNewPassword => ConfirmError(t.newPassword, t.confirmNewPassword)
    case Image => if t.image.Some? && t.image.value.size > MaxImageSize then Some(ImageTooLarge) else None
  }

  /** The keys whose check fails, each with its message. */
  function ErrorsOf(t: Trimmed): (r: ProfileErrors)
    ensures forall k: ProfileField :: (k in r <==> FieldError(t, k).Some?) && (k in r ==> r[k] == FieldError(t, k).value)
  {
    map k: ProfileField | FieldError(t, k).Some? :: FieldError(t, k).value
  }

  lemma NameKeys(t: Trimmed)
    ensures var r := ErrorsOf(t);
      && (FirstName in r <==> !(MinNameLength <= Utf16Length(t.firstName) <= MaxNameLength))
      && (t.firstName == "" ==> r[FirstName] == FirstNameRequired)
      && (t.firstName != "" && Utf16Length(t.firstName) < MinNameLength ==> r[FirstName] == FirstNameShort)
      && (Utf16Length(t.firstName) > MaxNameLength ==> r[FirstName] == FirstNameLong)
      && (LastName in r <==> !(MinNameLength <= Utf16Length(t.lastName) <= MaxNameLength))
      && (t.lastName == "" ==> r[LastName] == LastNameRequired)
      && (t.lastName != "" && Utf16Length(t.lastName) < MinNameLength ==> r[LastName] == LastNameShort)
      && (Utf16Length(t.lastName) > MaxNameLength ==> r[LastName] == LastNameLong)
  {
    assert FieldError(t, FirstName) == NameError(t.firstName, FirstNameRequired, FirstNameShort, FirstNameLong);
    assert FieldError(t, LastName) == NameError(t.lastName, LastNameRequired, LastNameShort, LastNameLong);
  }

  lemma EmailBioImageKeys(t: Trimmed)
    ensures var r := ErrorsOf(t);
      && (Email in r <==> t.email == "" || !IsProfileEmail(t.email))
      && (Email in r ==> r[Email] == if t.email == "" then EmailRequired else EmailInvalid)
      && (Bio in r <==> Utf16Length(t.bio) > MaxBioLength)
      && (Bio in r ==> r[Bio] == BioLong)
      && (Image in r <==> t.image.Some? && t.image.value.size > MaxImageSize)
      && (Image in r ==> r[Image] == ImageTooLarge)
  {
    assert FieldError(t, Email) == EmailError(t.email);
  }

  lemma PasswordKeys(t: Trimmed)
    ensures var r, np, cp := ErrorsOf(t), t.newPassword, t.confirmNewPassword;
      && (np != "" ==> (NewPassword in r <==> Utf16Length(np) < MinPasswordLength || !IsStrongPassword(np)))
      && (np != "" && NewPassword in r ==> r[NewPassword] == if Utf16Length(np) < MinPasswordLength then PasswordShort else PasswordWeak)
      && (ConfirmNewPassword in r <==> np != "" && np != cp)
      && (ConfirmNewPassword in r ==> r[ConfirmNewPassword] == PasswordsDiffer)
      && (np == "" ==> (NewPassword in r <==> cp != ""))
      && (np == "" && cp != "" ==> r[NewPassword] == PasswordMissing)
  {
    assert FieldError(t, NewPassword) == NewPasswordError(t.newPassword, t.confirmNewPassword);
    assert FieldError(t, ConfirmNewPassword) == ConfirmError(t.newPassword, t.confirmNewPassword);
  }

  /** The checks of `validateProfileForm` on the trimmed fields. */
  function CheckTrimmed(t: Trimmed): (r: ProfileErrors)
    ensures FirstName in r <==> !(MinNameLength <= Utf16Length(t.firstName) <= MaxNameLength)
    ensures t.firstName == "" ==> r[FirstName] == FirstNameRequired
    ensures t.firstName != "" && Utf16Length(t.firstName) < MinNameLength ==> r[FirstName] == FirstNameShort
    ensures Utf16Length(t.firstName) > MaxNameLength ==> r[FirstName] == FirstNameLong
    ensures LastName in r <==> !(MinNameLength <= Utf16Length(t.lastName) <= MaxNameLength)
    ensures t.lastName == "" ==> r[LastName] == LastNameRequired
    ensures t.lastName != "" && Utf16Length(t.lastName) < MinNameLength ==> r[LastName] == LastNameShort
    ensures Utf16Length(t.lastName) > MaxNameLength ==> r[LastName] == LastNameLong
    ensures Email in r <==> t.email == "" || !IsProfileEmail(t.email)
    ensures Email in r ==> r[Email] == if t.email == "" then EmailRequired else EmailInvalid
    ensures Bio in r <==> Utf16Length(t.bio) > MaxBioLength
    ensures Bio in r ==> r[Bio] == BioLong
    ensures var np, cp := t.newPassword, t.confirmNewPassword;
      && (np != "" ==> (NewPassword in r <==> Utf16Length(np) < MinPasswordLength || !IsStrongPassword(np)))
      && (np != "" && NewPassword in r ==> r[NewPassword] == if Utf16Length(np) < MinPasswordLength then PasswordShort else PasswordWeak)
      && (ConfirmNewPassword in r <==> np != "" && np != cp)
      && (ConfirmNewPassword in r ==> r[ConfirmNewPassword] == PasswordsDiffer)
      && (np == "" ==> (NewPassword in r <==> cp != ""))
      && (np == "" && cp != "" ==> r[NewPassword] == PasswordMissing)
    ensures Image in r <==> t.image.Some? && t.image.value.size > MaxImageSize
    ensures Image in r ==> r[Image] == ImageTooLarge
  {
    NameKeys(t);
    EmailBioImageKeys(t);
    PasswordKeys(t);
    ErrorsOf(t)
  }

  /** `validateProfileForm(formData)`: trim every field, then check. */
  function ValidateProfileForm(form: ProfileForm): (r: ProfileErrors)
    ensures r == CheckTrimmed(TrimFields(form))
    ensures Image in r <==> form.image.Some? && form.image.value.size > MaxImageSize
  {
    CheckTrimmed(TrimFields(form))
  }

  /** The validator sees only the trimmed text of each field (and the image). */
  lemma OnlyTrimmedTextMatters(f: ProfileForm, g: ProfileForm)
    requires SafeTrim(f.firstName) == SafeTrim(g.firstName) && SafeTrim(f.lastName) == SafeTrim(g.lastName)
    requires SafeTrim(f.email) == SafeTrim(g.email) && SafeTrim(f.bio) == SafeTrim(g.bio)
    requires SafeTrim(f.newPassword) == SafeTrim(g.newPassword)
    requires SafeTrim(f.confirmNewPassword) == SafeTrim(g.confirmNewPassword)
    requires f.image == g.image
    ensures ValidateProfileForm(f) == ValidateProfileForm(g)
  {
  }

  /** Null, undefined and the empty string are indistinguishable to the validator. */
  lemma NullIsEmpty(form: ProfileForm)
    ensures ValidateProfileForm(form.(firstName := None)) == ValidateProfileForm(form.(firstName := Some("")))
    ensures ValidateProfileForm(form.(bio := None)) == ValidateProfileForm(form.(bio := Some("")))
    ensures ValidateProfileForm(form.(newPassword := None)) == ValidateProfileForm(form.(newPassword := Some("")))
    ensures ValidateProfileForm(form.(confirmNewPassword := None)) == ValidateProfileForm(form.(confirmNewPassword := Some("")))
  {
    assert Trim("") == "";
  }

  /** Surrounding blanks never change the verdict: `" Ann "` is checked as `"Ann"`. */
  lemma PaddingIsIgnored(form: ProfileForm, name: string)
    requires name != [] && !IsSpace(name[0]) && !IsSpace(name[|name| - 1])
    ensures ValidateProfileForm(form.(firstName := Some(name + " "))) == ValidateProfileForm(form.(firstName := Some(name)))
  {
    TrimDropsTrailingSpace(name);
    TrimOfTrimmed(name);
  }

  /** A blank or absent bio is never an error, whatever the other fields hold. */
  lemma BlankBioIsFine(form: ProfileForm)
    requires form.bio == None || Blank(form.bio.value)
    ensures Bio !in ValidateProfileForm(form)
  {
  }

  /** A confirmation given with no new password reports the missing password, never a mismatch. */
  lemma ConfirmationWithoutPassword(form: ProfileForm, c: string)
    requires form.newPassword == None && !Blank(c)
    ensures var r := ValidateProfileForm(form.(confirmNewPassword := Some(c)));
      NewPassword in r && r[NewPassword] == PasswordMissing && ConfirmNewPassword !in r
  {
  }

  /** Strength and agreement are judged separately: a strong password that is mistyped reports only the mismatch. */
  lemma StrengthAndMatchAreIndependent(t: Trimmed)
    requires Utf16Length(t.newPassword) >= MinPasswordLength && IsStrongPassword(t.newPassword)
    requires t.confirmNewPassword != t.newPassword
    ensures NewPassword !in CheckTrimmed(t) && ConfirmNewPassword in CheckTrimmed(t)
  {
  }
}

=== FILE: timer_modal.dfy ===
/**
 * The countdown shown for a capsule that is not yet open: the remaining
 * milliseconds split into days, hours, minutes and seconds, the condition
 * on which the one-second ticker stops, and the two-digit display.
 */
module TimerModal {
  import opened Js

  const MsPerSecond: nat := 1000
  const MsPerMinute: nat := 1000 * 60
  const MsPerHour: nat := 1000 * 60 * 60
  const MsPerDay: nat := 1000 * 60 * 60 * 24

  datatype TimeLeft = TimeLeft(days: nat, hours: nat, minutes: nat, seconds: nat)

  /** The milliseconds a countdown accounts for. */
  function Millis(t: TimeLeft): nat {
    t.days * MsPerDay + t.hours * MsPerHour + t.minutes * MsPerMinute + t.seconds * MsPerSecond
  }

  /**
   * `calculateTimeLeft()` with both instants in milliseconds: all zero once
   * the opening has passed, otherwise a decomposition whose smaller units
   * are in range and which accounts for the remaining time to the second.
   */
  function CalculateTimeLeft(opening: int, now: int): (r: TimeLeft)
    ensures opening - now <= 0 ==> r == TimeLeft(0, 0, 0, 0)
    ensures r.hours < 24 && r.minutes < 60 && r.seconds < 60
    ensures opening - now > 0 ==> Millis(r) <= opening - now < Millis(r) + MsPerSecond
  {
    var total := opening - now;
    if total <= 0 then TimeLeft(0, 0, 0, 0)
    else
      var r := TimeLeft(total / MsPerDay, (total % MsPerDay) / MsPerHour,
                        (total % MsPerHour) / MsPerMinute, (total % MsPerMinute) / MsPerSecond);
      Decomposition(total);
      r
  }

  /** The arithmetic behind the decomposition. */
  lemma {:induction false} Decomposition(total: nat)
    ensures var d, h, m, s := total / MsPerDay, (total % MsPerDay) / MsPerHour,
                              (total % MsPerHour) / MsPerMinute, (total % MsPerMinute) / MsPerSecond;
      && h < 24 && m < 60 && s < 60
      && d * MsPerDay + h * MsPerHour + m * MsPerMinute + s * MsPerSecond <= total
      && total < d * MsPerDay + h * MsPerHour + m * MsPerMinute + s * MsPerSecond + MsPerSecond
  {
    HoursOfDay(total);
    MinutesOfHour(total);
    var rm := total % MsPerMinute;
    assert rm == rm / 1000 * 1000 + rm % 1000;
  }

  /** What is left of a day splits into whole hours and what is left of an hour. */
  lemma {:induction false} HoursOfDay(total: nat)
    ensures total % MsPerDay == (total % MsPerDay) / MsPerHour * MsPerHour + total % MsPerHour
    ensures (total % MsPerDay) / MsPerHour < 24
  {
    var d := total / 86400000;
    var rd := total % 86400000;
    var h := rd / 3600000;
    var rh := rd % 3600000;
    assert total == (d * 24 + h) * 3600000 + rh;
    ModUniqueHour(total, d * 24 + h, rh);
  }

  /** What is left of an hour splits into whole minutes and what is left of a minute. */
  lemma {:induction false} MinutesOfHour(total: nat)
    ensures total % MsPerHour == (total % MsPerHour) / MsPerMinute * MsPerMinute + total % MsPerMinute
    ensures (total % MsPerHour) / MsPerMinute < 60
  {
    var q := total / 3600000;
    var rh := total % 3600000;
    var m := rh / 60000;
    var rm := rh % 60000;
    assert total == (q * 60 + m) * 60000 + rm;
    ModUniqueMinute(total, q * 60 + m, rm);
  }

  lemma ModUniqueHour(x: int, q: int, r: int)
    requires 0 <= r < 3600000 && x == q * 3600000 + r
    ensures x % 3600000 == r
  {
  }

  lemma ModUniqueMinute(x: int, q: int, r: int)
    requires 0 <= r < 60000 && x == q * 60000 + r
    ensures x % 60000 == r
  {
  }

  predicate AllZero(t: TimeLeft) {
    t.days == 0 && t.hours == 0 && t.minutes == 0 && t.seconds == 0
  }

  /** The ticker stops exactly when less than one second remains. */
  lemma StopsWithinLastSecond(opening: int, now: int)
    ensures AllZero(CalculateTimeLeft(opening, now)) <==> opening - now < MsPerSecond
  {
  }

  /** Once stopped, a later tick would show zeros as well: the countdown never restarts. */
  lemma StaysStopped(opening: int, now: int, later: int)
    requires now <= later && AllZero(CalculateTimeLeft(opening, now))
    ensures AllZero(CalculateTimeLeft(opening, later))
  {
    StopsWithinLastSecond(opening, now);
    StopsWithinLastSecond(opening, later);
  }

  /** The four boxes as displayed: `String(value).padStart(2, '0')`. */
  function Display(t: TimeLeft): (r: seq<string>)
    ensures |r| == 4
    ensures forall i | 0 <= i < 4 :: |r[i]| >= 2
    ensures t.seconds < 10 ==> r[3] == ['0', DigitChar(t.seconds)]
  {
    [PadTwo(t.days), PadTwo(t.hours), PadTwo(t.minutes), PadTwo(t.seconds)]
  }

  /** Below the day unit every box shows exactly two digits, and reads back as the value it shows. */
  lemma {:induction false} SmallUnitsShowTwoDigits(opening: int, now: int)
    ensures var t := CalculateTimeLeft(opening, now);
      forall i | 1 <= i < 4 :: |Display(t)[i]| == 2
    ensures var t := CalculateTimeLeft(opening, now);
      DigitsValue(Display(t)[3]) == t.seconds
  {
    var t := CalculateTimeLeft(opening, now);
    PadTwoWidth(t.hours);
    PadTwoWidth(t.minutes);
    PadTwoWidth(t.seconds);
    PadTwoValue(t.seconds);
  }

  lemma {:induction false} PadTwoWidth(n: nat)
    requires n < 100
    ensures |PadTwo(n)| == 2
  {
    if n >= 10 {
      assert NatToString(n) == NatToString(n / 10) + [DigitChar(n % 10)];
    }
  }

  lemma {:induction false} PadTwoValue(n: nat)
    ensures forall i | 0 <= i < |PadTwo(n)| :: '0' <= PadTwo(n)[i] <= '9'
    ensures DigitsValue(PadTwo(n)) == n
  {
    NatToStringRoundTrip(n);
    if n < 10 {
      var s := PadTwo(n);
      assert s[..1] == ['0'];
      assert s[..0] == [];
    }
  }
}
